=== FILE: README.md ===
# emolysis core in Dafny

emolysis is a video emotion-analysis service with a browser front end. It
takes an uploaded video and runs three stages, one after the other:

- an audio stage, which scores 15-second windows at a 7.5-second stride;
- a text stage, which scores each segment of the speech transcript;
- a visual stage, which scores every face in every frame.

Each stage maps its model's output onto one 9-slot canonical emotion
vector and one `[1, 1000]` valence/arousal scale, then writes a CSV table.
The service reports progress over a web socket. Every message waits for
the client's acknowledgement before work goes on. The front end turns the
CSV tables into per-frame maps and smooths the series it plots.

This project models that core as pure functions over immutable data.
Scores are `real`. Audio time is whole milliseconds. Every neural model
is a function-typed parameter that may also raise: the audio head, the two
text heads, the English emotion classifier, the face detector and the face
recogniser. The tokenizers are total parameters. Transcription is a
parameter holding either the transcript or the exception `text2speech`
raises. The stages'
contracts are proved for every choice of these parameters that keeps the
models' stated promises (`Service.ModelsValid`). A session is modelled as a trace of events: `Send`, `Ack`,
`Work`, `Close` and `Abort`.

Modules, one per component:

- `LabelSpaceMapping`: the three taxonomy maps, `translate` and its four
  wrappers.
- `AudioResult`: windowing, bucketing into the 7.5-second grid and the
  finalisation of each bucket.
- `TextResult`, `LinguisticHead`: language dispatch, the 512-token cut,
  the per-segment rows and `predict_emotion_en`.
- `VisualResult`, `FaceDetector`: the threshold filter, crop arithmetic,
  the per-box rows and the frame loop.
- `Progress`, `Service`: paced progress reports, and the session trace of
  `process_uploaded` and `socket_connection`, with `get_file` and the
  session paths.
- `Misc`: the Range header, the range response and `VideoNamePool`.
- `FrameMaps`, `FaceMaps`, `Smoothing`: the front end's CSV loaders,
  caches and lookups, plus `smoothArray` / `smoothArrayBy`.
- Helpers:
  - `Numeric`: sums and normalisation over `real`.
  - `Grouping`: an insertion-ordered dictionary of lists, which stands
    for Python's `OrderedDict` and the front end's `Map` of arrays.
  - `PyInt` and `PyStr`: Python's `int`/`str` on decimals, and
    `str.split`/`str.replace`.
  - `JsNumber`: JavaScript's `parseInt`, lodash `round`, `mean` and
    `range`.
  - `Wrappers`: `Option` and `Result`.

## Model

| member | source | states |
|---|---|---|
| LabelSpaceMapping.AffectnetToMain | service/util/label_space_mapping.py:8-19 | the AffectNet map fills 9 slots; trust and anticipation are 0; non-negative scores give a non-negative vector |
| LabelSpaceMapping.AffectnetToMainPreservesSum | service/util/label_space_mapping.py:8-19 | each of AffectNet's indices 0-7 is read exactly once (fear takes indices 1 and 3), so the 9 outputs sum to the sum of inputs 0..7 |
| LabelSpaceMapping.AffectnetToMainReadsOnlyEmotions | service/util/label_space_mapping.py:8-19 | the output depends only on inputs 0..7; the valence/arousal entries 8 and 9 are ignored |
| LabelSpaceMapping.BoldToMain | service/util/label_space_mapping.py:22-37 | trust and neutral are always 0, anticipation is BoLD index 3, and non-negative scores give a non-negative vector |
| LabelSpaceMapping.BoldToMainPreservesSum | service/util/label_space_mapping.py:22-37 | every one of the 26 BoLD indices is read exactly once: the output sum is the input sum |
| LabelSpaceMapping.CpedToMain | service/util/label_space_mapping.py:40-52 | the CPED map has trust and anticipation 0 and keeps non-negativity |
| LabelSpaceMapping.CpedToMainPreservesSum | service/util/label_space_mapping.py:40-52 | the 13 CPED indices are partitioned over the slots: the output sum is the input sum |
| LabelSpaceMapping.Translate | service/util/label_space_mapping.py:59-68 | `translate` fails with ZeroDivisionError exactly when the source range is empty; otherwise the result lies on the line through (r1Min, r2Min) and (r1Max, r2Max) |
| LabelSpaceMapping.TranslateEndpoints | service/util/label_space_mapping.py:59-68 | the source range's endpoints map to the target range's endpoints |
| LabelSpaceMapping.TranslateStrictlyIncreasing | service/util/label_space_mapping.py:59-68 | for increasing ranges the map is strictly increasing; there is no clamping, so values outside the source range extrapolate beyond the target range |
| LabelSpaceMapping.ToCanonical | service/util/label_space_mapping.py:78-84 | a wrapper fails with ValueError and its own message exactly when `translate` would raise, and otherwise rescales onto [1, 1000] |
| LabelSpaceMapping.AffectnetToMainValence | service/util/label_space_mapping.py:71-84 | AffectNet valence [-1, 1] rescales affinely onto [1, 1000] and never raises |
| LabelSpaceMapping.AffectnetToMainArousal | service/util/label_space_mapping.py:123-136 | AffectNet arousal [-1, 1] rescales affinely onto [1, 1000] and never raises |
| LabelSpaceMapping.BoldToMainValence | service/util/label_space_mapping.py:87-100 | BoLD valence [1, 10] rescales affinely onto [1, 1000] and never raises |
| LabelSpaceMapping.BoldToMainArousal | service/util/label_space_mapping.py:107-120 | BoLD arousal [1, 10] rescales affinely onto [1, 1000] and never raises |
| LabelSpaceMapping.CanonicalEndpoints | service/util/label_space_mapping.py:71-136 | the wrappers send the ends of their ranges to 1 and 1000 and the midpoints to 500.5 |
| LabelSpaceMapping.CanonicalStrictlyIncreasing | service/util/label_space_mapping.py:71-136 | all four wrappers are strictly increasing |
| AudioResult.WindowCount | service/gen_audio_result.py:58 | window k exists exactly when its start k·7.5 s is below the clip's duration |
| AudioResult.WindowAt | service/gen_audio_result.py:61-62 | window k starts at 7500·k ms and ends at most 15 s later, never after the clip |
| AudioResult.WindowEnd | service/gen_audio_result.py:62 | a window ends at the smaller of start + 15 s and the clip's length in whole milliseconds |
| AudioResult.HalvesAreCells | service/gen_audio_result.py:77-94 | a window's result goes to grid cells k and k+1 when its midpoint is inside the clip, and only to cell k otherwise |
| AudioResult.AppendWindow | service/gen_audio_result.py:79-94 | adding window k to the ordered buckets appends its result to one or two keys, creating a key on its first use |
| AudioResult.GridGrouping | service/gen_audio_result.py:56-94 | the buckets are exactly the n grid cells in time order; cell 0 holds window 0's result, and cell j holds the results of windows j-1 and j |
| AudioResult.BucketWindows | service/gen_audio_result.py:56-98 | the first window whose analysis raises ends the loop with that error, after the reports of the windows before it; otherwise the buckets are the ordered grouping of every window's contributions and the events are the paced audio reports |
| AudioResult.Finalize | service/gen_audio_result.py:102-119 | a bucket row keeps its key as start and end, and its 9 emotions sum to 1 |
| AudioResult.FinalizeAffect | service/gen_audio_result.py:103-109 | valence is the mean of column 1 and arousal the mean of column 0: the internal order is [arousal, valence, emotions] |
| AudioResult.FinalizeEmotions | service/gen_audio_result.py:103-104 | each emotion is its mean divided by the sum of the 9 means |
| AudioResult.FinalizeOrderIndependent | service/gen_audio_result.py:102-104 | a bucket's row does not depend on the order of its contributions |
| AudioResult.MeanEmotionsPositive | service/gen_audio_result.py:104 | when every window's BoLD scores are probabilities, the sum the emotions are divided by is positive |
| AudioResult.FinalizeBuckets | service/gen_audio_result.py:102-119 | every bucket can be finalised, and bucket i finalises to grid row i |
| AudioResult.ProcessAudioFile | service/gen_audio_result.py:52-119 | the first window whose analysis raises ends the stage with that error, after a report for every tenth earlier window; otherwise one row per window, in time order, equal to the grid rows of the analysed windows, with a report after window n exactly when (n+1) % 10 == 0 |
| AudioResult.GridRowAffect | service/gen_audio_result.py:103-109 | row j's valence and arousal are window 0's own values for j = 0, else the average of windows j-1 and j |
| AudioResult.MeanOfMembers | service/gen_audio_result.py:103 | a cell's mean is its single member's value or the average of its two members |
| AudioResult.TwentySecondClip | service/gen_audio_result.py:58-94 | a 20 s clip has three windows [0,15), [7.5,20) and [15,20); its buckets are [0,7.5), [7.5,15) and [15,20) |
| TextResult.StripSpec | service/gen_text_result.py:78 | `strip` removes exactly the white space at both ends and leaves the middle alone |
| TextResult.StripIdempotent | service/gen_text_result.py:78 | stripping twice is stripping once |
| TextResult.Truncate | service/gen_text_result.py:18-21 | over 512 input ids, all three tensors are cut to min(length, 512), each a prefix of its input; when `token_type_ids` is missing the cut raises KeyError; shorter input is unchanged |
| TextResult.TruncateIdempotent | service/gen_text_result.py:41-44 | a cut that succeeds leaves at most 512 input ids, and a second cut changes nothing |
| TextResult.ResultsFromTextZh | service/gen_text_result.py:13-33 | the cut raises first, then the head, each with its own error; otherwise the emotions are the BoLD map of the head's 26 scores, with the same sum, and valence/arousal use the BoLD [1, 10] rescale |
| TextResult.ResultsFromTextEn | service/gen_text_result.py:36-55 | in source order the cut raises first, then the head, then the classifier, then an unknown classifier label with ValueError; otherwise the emotions are `predict_emotion_en`'s vector and valence/arousal the raw outputs × 1000 |
| TextResult.RowOf | service/gen_text_result.py:81-96 | a row carries its segment's own start and end, and its emotions are divided by their sum |
| TextResult.GatherSuccess | service/gen_text_result.py:75-96 | the loop over segments succeeds exactly when every step does, and then yields every step's value in order |
| TextResult.GatherFailure | service/gen_text_result.py:75-96 | a failed loop fails with the error of its first failing step |
| TextResult.ProcessTextFile | service/gen_text_result.py:67-96 | one row per segment, in order, from the stripped text; otherwise the first failing segment's exception |
| TextResult.UnsupportedLanguage | service/gen_text_result.py:58-64 | with an unsupported language every segment raises ValueError |
| TextResult.ZhRaisesOnlyInHead | service/gen_text_result.py:13-33 | with a tokenizer that yields `token_type_ids`, the Chinese analysis raises exactly when the head raises, with the head's error; otherwise its emotions sum to the 26 BoLD scores' sum |
| TextResult.LongMessageWithoutTypeIdsRaises | service/gen_text_result.py:41-44 | with a tokenizer that yields no `token_type_ids` (RoBERTa's), every message of more than 512 tokens raises KeyError |
| TextResult.AnalysisIgnoresSurroundingSpace | service/gen_text_result.py:78 | white space around a segment's text does not change its analysis |
| LinguisticHead.EnSlotIsBijection | service/model/linguistic_head.py:105-121 | the seven labels go to fear 0, anger 1, joy 2, sadness 3, disgust 4, surprise 5 and neutral 8, and no two labels share a slot |
| LinguisticHead.PredictEmotionEn | service/model/linguistic_head.py:101-122 | succeeds exactly when every label is known, and raises ValueError("Unknown emotion") otherwise; trust and anticipation are always 0 |
| LinguisticHead.PredictEmotionEnLastWins | service/model/linguistic_head.py:102-119 | a slot no label names stays 0, and a repeated label keeps its last score |
| LinguisticHead.PredictEmotionEnFullAnswer | service/model/linguistic_head.py:101-122 | a full seven-label answer lands in the canonical slots |
| FaceDetector.KeptIndicesSpec | service/model/face_detector.py:12 | the kept boxes are exactly those whose probability is strictly above the threshold, in detector order |
| FaceDetector.MaskSelectsKept | service/model/face_detector.py:12 | the mask returns the boxes at the kept indices |
| FaceDetector.DetectFace | service/model/face_detector.py:9-14 | no detection gives no boxes and no probabilities; otherwise the boxes are exactly those at the indices whose probability is above the threshold, in order, and the probabilities are returned unfiltered |
| FaceDetector.ThresholdIsStrict | service/model/face_detector.py:12 | for every run of probabilities and every threshold, a box whose probability equals the threshold is not kept |
| VisualResult.CropRowsExamples | service/gen_visual_result.py:33-36 | the crop clamps only the top-left corner: a negative bottom counts from the end, and a bottom above the top gives no rows |
| VisualResult.FaceValues | service/gen_visual_result.py:37-46 | fewer than 10 scores raise IndexError; otherwise the emotions are the AffectNet grouping of the scores divided by its sum, so they sum to 1, and valence/arousal are scores 8 and 9 mapped to the canonical scale and truncated, landing in [1, 1000] when the scores are in [-1, 1] |
| VisualResult.BoxRow | service/gen_visual_result.py:31-68 | an empty crop yields no row; otherwise the crop with truncated corners, top and left clamped at 0, is scored: the recogniser's error or IndexError for fewer than 10 scores ends the frame, and a row carries the frame index, its box probability, the truncated corners and the `FaceValues` of the crop's scores |
| VisualResult.FrameRowsSpec | service/gen_visual_result.py:31-66 | a frame yields at most one row per box; every row names that frame, carries the probability paired with one of the boxes, and has emotions that sum to 1 |
| VisualResult.FrameRowsProbsOnlyLabel | service/gen_visual_result.py:31-66 | the probabilities paired with the boxes change only the rows' box probability: the same errors, the same number of rows, the same faces and scores |
| VisualResult.FrameFacesSpec | service/gen_visual_result.py:28-70 | a detector exception is re-raised for the frame; as written, a frame yields at most one row per kept box, and every row names that frame, has emotions that sum to 1, and carries one of the detector's probabilities for that frame, not necessarily its own box's |
| VisualResult.FrameFacesCorrectedSpec | service/gen_visual_result.py:29-66 | with each kept box paired with its own probability, every row's box probability is above the 0.9 threshold |
| VisualResult.PairingsAgree | service/gen_visual_result.py:29-66 | the written and the corrected pairing raise the same errors on the same frames and yield the same faces with the same scores; only the box probability differs |
| VisualResult.VideoRowsSuccess | service/gen_visual_result.py:27-70 | the video succeeds exactly when every frame does; an exception is re-raised, never absorbed |
| VisualResult.VideoRowsOrdered | service/gen_visual_result.py:27-66 | rows come in frame order and name processed frames only |
| VisualResult.VideoRowsFailsAt | service/gen_visual_result.py:69-70 | the first failing frame's error is the video's error |
| VisualResult.ProcessVideoFile | service/gen_visual_result.py:22-74 | "visual start" with the fps is sent and acknowledged first; one report after frame i exactly when (i+1) % 100 == 0, with total = ceil(fps·duration); the loop stops at the first failing frame |
| VisualResult.BoxProbAsWritten | service/gen_visual_result.py:32 | as written, a frame whose first box is dropped reports the dropped box's probability 0.5 for the kept box |
| VisualResult.BoxProbCorrected | service/gen_visual_result.py:32 | the corrected frame reports the kept box's own probability 0.95 |
| Progress.PacedWorks | service/gen_audio_result.py:60-98 | the paced loop works on units 0..count-1 in order |
| Progress.PacedReports | service/gen_audio_result.py:96-97 | a report with the 0-based index follows unit n exactly when (n+1) % K == 0 |
| Progress.PacedPending | service/gen_visual_result.py:72-74 | at the end, count % K units wait for acknowledgement |
| Progress.PacedAcked | service/gen_visual_result.py:72-74 | every report is immediately followed by the wait for its acknowledgement |
| Progress.PacedLockstep | service/gen_audio_result.py:96-98 | the service never runs more than K units ahead of the client |
| Service.GetFile | service/main.py:32-43 | a name whose last '.'-piece is "mp4" gets exactly the range response for data/<id>/<name>, or that response's exception; anything else gets the whole file as text |
| Service.IsVideoNameSpec | service/main.py:36 | a name counts as a video exactly when it is "mp4" or ends in ".mp4" |
| Service.SessionDirInjective | service/main.py:78 | two sessions share a directory only when they share an id |
| Service.SessionPaths | service/main.py:47-71 | the "done" data is the directory name and dir/audio.csv, dir/faces.csv and dir/text.csv, with backslashes turned into slashes |
| Service.SessionFilesDistinct | service/main.py:49-51 | the three result files of a session are distinct |
| Service.UploadPath | service/main.py:78-79 | the upload is stored as video.mp4 in the session directory |
| Service.FullRunTrace | service/main.py:53-64 | a complete run sends "audio done", "text done", "visual start" and "visual done" in order, and works on transcription, then audio, then visual |
| Service.FullRunLockstepped | service/main.py:53-64 | every message of a complete run is followed by the wait for its acknowledgement |
| Service.TextStopTrace | service/main.py:58 | when the first raising segment raises, the run ends right after "audio done", with exactly the audio stage's events |
| Service.AudioStopTrace | service/main.py:53-54 | an exception of an audio window ends the run after transcription and the earlier windows, before any milestone |
| Service.VisualStopTrace | service/main.py:62 | when the first raising frame raises, the run ends after "visual start" and exactly the reports of the frames before it |
| Service.ProcessUploaded | service/main.py:46-71 | with "en", the transcript's language, passed to the text stage, nothing is caught: the first raising step ends the run with its error. A transcription exception comes before any event. The first raising audio window comes after the reports of the windows before it. The first raising segment comes right after "audio done". The first raising frame comes after the reports of the frames before it. Each stop has its exact trace. The run succeeds exactly when every step does, and then its trace is exactly the complete run, progress reports included, and it returns the audio grid rows, the text stage's rows for the transcript and the video rows |
| Service.ProcessUploadedAsWritten | service/main.py:46-58 | with the three-argument call of `process_text_file`, no run succeeds: a transcription or audio exception ends it as in `ProcessUploaded`, and otherwise it ends with TypeError right after "audio done" is acknowledged, its trace exactly the audio stage's |
| Service.BindPositional | service/main.py:58 | positional arguments bind in order to parameters without defaults; too few raise TypeError naming the first unbound parameter |
| Service.TextCallBinding | service/gen_text_result.py:67 | the call at service/main.py:58 leaves `socket` unbound and raises TypeError; the intended call binds the transcript's language "en" to `lang` |
| Service.SocketConnection | service/main.py:74-88 | a session takes a fresh id and sends "uploaded" and waits. It succeeds exactly when every step of the run does; its trace is then exactly "uploaded", the complete run, "done" with the result paths and the close, and it returns the audio, text and face tables of the run. Otherwise its trace is "uploaded", the run up to the first raising step, and the abort with that step's exception |
| Misc.GetRangeHeader | service/util/misc.py:50-66 | an accepted range lies inside the file; every failure is the 416 exception or the IndexError that escapes |
| Misc.StartNeverNegative | service/util/misc.py:58-64 | the start read from the header is never negative, so the `start < 0` test cannot fire |
| Misc.MissingDashEscapes | service/util/misc.py:57-62 | a header without "-" raises IndexError, which is not caught; it answers 416 only when its start is not a number |
| Misc.AcceptsRangeInsideFile | service/util/misc.py:58-66 | "bytes=a-b" with a ≤ b < size is accepted as (a, b) |
| Misc.ExtraPiecesIgnored | service/util/misc.py:58-60 | only the first two '-'-pieces are read; anything after a second '-' is ignored |
| Misc.RejectsRangeOutsideFile | service/util/misc.py:64-65 | a reversed range, or one ending at or past the size, answers 416 and is not clamped |
| Misc.SuffixFormIsAPrefix | service/util/misc.py:59 | "bytes=-N" is bytes 0..N, not the last N bytes |
| Misc.OpenEndRunsToLastByte | service/util/misc.py:60 | "bytes=a-" runs to the last byte of the file |
| Misc.UnparsableStartIsRejected | service/util/misc.py:59-62 | a start that is not a number answers 416 |
| Misc.SetHeaderOthers | service/util/misc.py:94-95 | setting one header leaves every other header as it was |
| Misc.RangeRequestsResponse | service/util/misc.py:87-96 | without a Range header, status 200 over bytes 0..size-1; with one, status 206 over the parsed range, or the parser's exception |
| Misc.WholeFileHeaders | service/util/misc.py:77-89 | a whole-file response has the content type, "accept-ranges: bytes", the file size as content-length, and no content-range |
| Misc.PartialHeaders | service/util/misc.py:91-96 | a partial response has content-length end-start+1 and content-range "bytes start-end/size" |
| Misc.NameIdsSpec | service/util/misc.py:16-21 | the ids collected are exactly the directory names that parse as integers |
| Misc.InitSpec | service/util/misc.py:15-26 | `latest` starts at the largest integer name, or -1 when there is none |
| Misc.SessionNamesAreFresh | service/util/misc.py:15-31 | the ids handed out after `init` are consecutive, above every existing integer name, and never spell an existing directory name |
| FrameMaps.RangeSpec | src/preprocess/audio.ts:40 | lodash `range(start, end)` holds the grid points from start up to, but not including, end; when start > end it counts down instead of being empty |
| FrameMaps.DescendingRange | src/preprocess/text.ts:44 | `range(5, 2)` is [5, 4, 3] and `range(2, 2)` is empty |
| FrameMaps.SetFramesSpec | src/preprocess/audio.ts:40-47 | setting a row's frames overwrites exactly those frames |
| FrameMaps.LoadSpec | src/preprocess/audio.ts:33-48 | after loading, a frame holds the value of the last row that covers it |
| FrameMaps.LookupAfterLoad | src/preprocess/text.ts:33-64 | a lookup after the first load returns the last covering row's value, or undefined when no row covers the frame |
| FrameMaps.GetDataLoadsOnce | src/preprocess/audio.ts:51-56 | the loader runs only on an empty cache, so a second call returns the first call's table |
| FrameMaps.FractionalSecondsTruncate | src/preprocess/audio.ts:34-35 | parseInt cuts "7.5" s to 7 s, so at 30 fps a row from 7.5 s to 15 s covers the 240 frames from 210 |
| FaceMaps.FaceLookup | src/preprocess/faces.ts:48-82 | after the first load, a frame's list holds the faces of exactly the rows naming it, in file order, and no frame appears twice |
| FaceMaps.FaceKeys | src/preprocess/faces.ts:65-69 | the frames listed are exactly those some row names |
| FaceMaps.FacesAtSpec | src/preprocess/faces.ts:80-82 | a frame with no rows yields an empty list, and a list holds only faces of its frame |
| Smoothing.SmoothArray | src/utils.ts:14-23 | one output per input, each the mean of the slice from max(0, i-w) up to, but not including, min(n, i+w) |
| Smoothing.WindowOneLooksBack | src/utils.ts:17-19 | with window 1, output i is the mean of elements i-1 and i: the window is asymmetric |
| Smoothing.ConstantUnchanged | src/utils.ts:14-23 | a constant array comes back unchanged for every positive window |
| Smoothing.ColumnSlice | src/utils.ts:30 | slicing then taking the field equals taking the field then slicing |
| Smoothing.SmoothArrayBy | src/utils.ts:25-35 | each record keeps its fields except `key`, which becomes what `smoothArray` computes at that index over the field's column |
| JsNumber.ParseIntOfDecimal | src/preprocess/audio.ts:34-35 | parseInt reads back every decimal integer and ignores what follows it |
| JsNumber.ParseIntTruncates | src/preprocess/text.ts:38-39 | parseInt reads "7.5" as 7 and "-3.9" as -3 |
| JsNumber.Round | src/preprocess/audio.ts:36-37 | lodash `round` gives an integer within 0.5 of its argument; NaN stays NaN |
| JsNumber.MeanSpec | src/utils.ts:20 | lodash `mean` is NaN exactly for an empty array or one holding NaN |
| JsNumber.MeanOfConstant | src/utils.ts:20 | the mean of copies of one value is that value |
| PyInt.ParseToDecimal | service/util/misc.py:19 | Python's `int` reads back every integer `str` writes |
| PyInt.ToDecimalInjective | service/main.py:78 | distinct ids have distinct decimal names |
| PyStr.SplitJoin | service/util/misc.py:58 | joining the pieces of `split` with the separator gives back the text |
| PyStr.SplitCount | service/main.py:36 | `split` yields more than one piece exactly when the separator occurs |
| Grouping.GroupByIsGrouping | service/gen_audio_result.py:81-94 | the ordered dictionary has one key per distinct key, in order of first insertion, and each key's list holds exactly that key's values in insertion order |
| Numeric.Normalize | service/gen_text_result.py:81 | dividing by the sum gives a vector that sums to 1, is proportional to the input, and keeps non-negativity |

## Left out

- The tokenizers are total parameters: an exception raised inside a tokenizer is not modelled.
- The neural models are function-typed parameters. This covers the audio, text and face models, the English emotion classifier, the MTCNN detector, the tokenizers and transcription. Their loaders and device handling are not modelled.
- Audio feature extraction, resampling and the reading of media, JSON and CSV files are not modelled. The clip's duration, frame rate and frames are inputs, and the transcript or the exception of `text2speech` is a parameter.
- AudioResult.ProcessAudioFile: decoding the clip (`AudioSegment.from_file`, service/gen_audio_result.py:53) is not modelled, so neither is the exception it raises for an unreadable file. An exception of the audio head for one window is modelled.
- VisualResult.ProcessVideoFile: decoding the video (`VideoFileClip`, service/gen_visual_result.py:20) is not modelled, so neither is the exception it raises for an unreadable file.
- VisualResult.VideoRowsOrdered: states no threshold bound on the rows' box probabilities, because as written a row can carry a dropped box's probability (see Findings). The bound is proved for the corrected pairing (`VisualResult.FrameFacesCorrectedSpec`).
- A session has no language: `process_uploaded` takes none (service/main.py:46) and `socket_connection` receives only the video bytes (service/main.py:77). `text2speech` always transcribes with `language="en"` (service/model/text2speech.py:17). The session model therefore runs the text stage in "en" (`Service.TranscriptLanguage`). The Chinese analyser is modelled at the text stage only (`TextResult.ResultsFromTextZh`); no session reaches it.
- Writing the CSV tables, creating directories and storing the uploaded bytes are not modelled. `Service.SocketConnection` returns the tables instead.
- WebSocket transport and the async machinery become the `Send`/`Ack`/`Close`/`Abort` trace.
- `send_bytes_range_requests` (service/util/misc.py:35-47) is left out. It only reads the file, and its loop never advances `pos`, so it does not terminate. The model stops at the response's status, range and headers.
- The directory listing in `VideoNamePool.init` is a given list of names. `os.path.isdir` filtering happens outside the model.
- `download_file` and `DownloadProgressBar` are download plumbing and are not modelled.
- Floating point is `real`: no IEEE rounding, infinities or overflow. For example, the audio stage's 7.5-second multiples are exact in the model.
- The model treats seconds × 1000 truncated to an integer as exact. In floating point it is exact too for stride multiples.
- Python's `int()` is modelled on an optional '-' or '+' sign, then decimal digits. Surrounding white space and underscores are not accepted. The directory names and Range pieces this code parses are plain decimals.
- JavaScript's `parseInt` is modelled in base 10 only, without hexadecimal prefixes. `parseFloat` is a parameter, and lodash `range` is modelled on finite bounds.
- `Misc.GetRangeHeader`: the 416 detail uses `repr` of the header. The model quotes the header with single quotes and does not escape quotes or backslashes inside it.
- `Service.GetFile`: paths are built by joining with "/". `pathlib` normalisation of "." and ".." pieces is not modelled.
- Whether a tokenizer yields `token_type_ids` is part of the tokenizer parameter. BERT's Chinese tokenizer does; RoBERTa's English one does not, which is the case `TextResult.LongMessageWithoutTypeIdsRaises` covers.
- The text stage sends no progress reports; the code for them is commented out (service/gen_text_result.py:98-100). The trace model therefore has no text `Work` events.
- Service.ProcessUploaded: models the evidently intended call of `process_text_file`, which passes "en" as the language. As written (service/main.py:58) the call leaves `socket` unbound, so every session whose audio stage succeeds raises TypeError right after "audio done"; `Service.ProcessUploadedAsWritten` models that run (see Findings). `Service.SocketConnection` and the trace lemmas `Service.FullRunTrace`, `Service.TextStopTrace` and `Service.VisualStopTrace` describe the intended call.
- The test harness in service/test/integration_test.py calls `text2speech` with three arguments, against the two-parameter definition. The harness is not part of this model.
- `moveTo` and `llr2prob` (src/utils.ts:3-12, 37-39) use trigonometry and `exp`, so they are not modelled. src/preprocess/overall.ts is entirely commented out.
- Zero-sum renormalisation is a precondition (`Renormalisable`, `RecogniserValid`, `Finalize`'s requires) because the source has no guard. `AudioResult.MeanEmotionsPositive` discharges it for the audio stage when the BoLD scores are probabilities.
- Smoothing.SmoothArrayBy: requires every record to hold the field `key`. When a record lacks the field, JavaScript reads `undefined`. lodash `mean` sums only the values that are not `undefined` but divides by the full window length, so the result is the sum of the present values over the window length, and NaN only when no record in the window holds the field. The model does not cover records without the field.
- The input arrays of `smoothArray` / `smoothArrayBy` are never mutated. In the model this holds because sequences are immutable, so no lemma states it.
- The audio grid uses whole milliseconds for its keys. The source keys buckets by seconds as floats; the two orders and equalities agree because the keys are ms/1000.
- A 20-second clip has three analysis windows, not two: `np.arange(0, 20, 7.5)` has the three starts 0, 7.5 and 15. The third window [15, 20) also feeds bucket [15, 20) (`AudioResult.TwentySecondClip`). The model follows the code.
- lodash `range(start, end)` with start > end counts down; it is not empty. The front end's frame maps therefore cover frames end+1..start for such a row (`FrameMaps.RangeSpec`).

## Findings

| source | as written | input that shows it | evidently intended | confidence | as-written member | corrected member |
|---|---|---|---|---|---|---|
| service/main.py:58 | `process_text_file(text2speech_path, text_result_path, socket)` passes three arguments to a four-parameter function (service/gen_text_result.py:67), binding the socket to `lang` | any upload whose transcription and audio stage succeed: the call raises TypeError for the missing `socket` right after "audio done" | pass the transcript's language: `process_text_file(text2speech_path, text_result_path, "en", socket)`. `text2speech` always transcribes with `language="en"` (service/model/text2speech.py:17), and a session has no other language in scope | not executed | Service.ProcessUploadedAsWritten | Service.ProcessUploaded |
| service/gen_visual_result.py:32 | `prob = probs[j]` indexes the unfiltered probabilities with the index of the filtered box list, since face_detector.py:12 filters only the boxes | two boxes with probabilities [0.5, 0.95] at threshold 0.9: the kept second box is written with box_prob 0.5 | each kept box carries its own probability (0.95) | not executed | VisualResult.BoxProbAsWritten | VisualResult.FrameFacesCorrectedSpec |

The frame loop, `process_video_file` and the session model the code as written (`VisualResult.FrameFaces`). The corrected pairing is `VisualResult.FrameFacesCorrected`. `VisualResult.BoxProbCorrected` shows it on the same two boxes, and `VisualResult.PairingsAgree` proves that the two pairings differ only in the probability column.

=== FILE: face_detector.dfy ===
/** The confidence filter applied to the face detector's boxes. The detector
    itself is an input: it either finds nothing or returns one probability
    per box. */
module FaceDetector {
  import opened Wrappers

  /** A detected box in pixel coordinates, as floats. */
  datatype Box = Box(x1: real, y1: real, x2: real, y2: real)

  /** What the detector returns when it finds something. */
  datatype Detection = Detection(boxes: seq<Box>, probs: seq<real>)

  /** The result of `detect_face`: the kept boxes and the probabilities as
      the detector returned them (`None` when nothing was found). */
  datatype Detected = Detected(boxes: seq<Box>, probs: Option<seq<real>>)

  const DefaultThreshold := 0.9

  /** The indices whose probability is strictly above the threshold, in
      increasing order. */
  function KeptIndices(probs: seq<real>, threshold: real): seq<nat>
  {
    if |probs| == 0 then []
    else
      var n := |probs| - 1;
      KeptIndices(probs[..n], threshold) + (if probs[n] > threshold then [n] else [])
  }

  /** The kept indices are exactly the positions above the threshold, each
      once, in increasing order. */
  lemma {:induction false} KeptIndicesSpec(probs: seq<real>, threshold: real)
    ensures var ks := KeptIndices(probs, threshold);
      && (forall k :: 0 <= k < |ks| ==> ks[k] < |probs| && probs[ks[k]] > threshold)
      && (forall k, l :: 0 <= k < l < |ks| ==> ks[k] < ks[l])
      && (forall i :: 0 <= i < |probs| && probs[i] > threshold ==> i in ks)
  {
    if |probs| > 0 {
      var n := |probs| - 1;
      KeptIndicesSpec(probs[..n], threshold);
    }
  }

  /** `bounding_boxes[probs > threshold]`: numpy's boolean mask. */
  function Mask(boxes: seq<Box>, probs: seq<real>, threshold: real): seq<Box>
    requires |boxes| == |probs|
  {
    if |boxes| == 0 then []
    else
      var n := |boxes| - 1;
      Mask(boxes[..n], probs[..n], threshold) + (if probs[n] > threshold then [boxes[n]] else [])
  }

  /** The mask keeps exactly the boxes at the kept indices, in the
      detector's order. */
  lemma {:induction false} MaskSelectsKept(boxes: seq<Box>, probs: seq<real>, threshold: real)
    requires |boxes| == |probs|
    ensures var ks := KeptIndices(probs, threshold);
      && |Mask(boxes, probs, threshold)| == |ks|
      && forall k :: 0 <= k < |ks| ==> ks[k] < |boxes| && Mask(boxes, probs, threshold)[k] == boxes[ks[k]]
  {
    if |boxes| > 0 {
      var n := |boxes| - 1;
      MaskSelectsKept(boxes[..n], probs[..n], threshold);
      KeptIndicesSpec(probs[..n], threshold);
      var ks := KeptIndices(probs[..n], threshold);
      assert forall k :: 0 <= k < |ks| ==> boxes[..n][ks[k]] == boxes[ks[k]];
    }
  }

  /** `detect_face(frame, threshold)` after the detector call. */
  function DetectFace(found: Option<Detection>, threshold: real): (r: Detected)
    requires found.Some? ==> |found.value.boxes| == |found.value.probs|
    ensures found.None? ==> r == Detected([], None)
    ensures found.Some? ==> r.probs == Some(found.value.probs) && |r.boxes| <= |found.value.boxes|
    ensures found.Some? ==>
      var ks := KeptIndices(found.value.probs, threshold);
      && |r.boxes| == |ks|
      && forall k :: 0 <= k < |ks| ==> ks[k] < |found.value.boxes| && r.boxes[k] == found.value.boxes[ks[k]]
  {
    match found
    case None => Detected([], None)
    case Some(d) =>
      MaskSelectsKept(d.boxes, d.probs, threshold);
      KeptIndicesBound(d.probs, threshold);
      Detected(Mask(d.boxes, d.probs, threshold), Some(d.probs))
  }

  lemma {:induction false} KeptIndicesBound(probs: seq<real>, threshold: real)
    ensures |KeptIndices(probs, threshold)| <= |probs|
  {
    if |probs| > 0 {
      KeptIndicesBound(probs[..|probs| - 1], threshold);
    }
  }

  /** The threshold is strict: a box whose probability equals the threshold
      is never kept, whatever the other boxes. */
  lemma ThresholdIsStrict(probs: seq<real>, threshold: real)
    ensures forall i :: 0 <= i < |probs| && probs[i] == threshold ==> i !in KeptIndices(probs, threshold)
  {
    KeptIndicesSpec(probs, threshold);
  }

  /** At the default threshold a box at exactly 0.9 is dropped, one above it
      is kept, and the probabilities come back unfiltered. */
  lemma ThresholdExample(a: Box, b: Box)
    ensures DetectFace(Some(Detection([a, b], [0.9, 0.95])), DefaultThreshold) == Detected([b], Some([0.9, 0.95]))
  {
    assert [a, b][..1] == [a];
    assert [a][..0] == [];
    assert [0.9, 0.95][..1] == [0.9];
    assert [0.9][..0] == [];
    assert Mask([a], [0.9], DefaultThreshold) == [];
  }
}

=== FILE: face_maps.dfy ===
/** The front end's per-frame table of detected faces
    (src/preprocess/faces.ts): every CSV row becomes one face, appended to
    the list of the frame its `frame` column names. */
module FaceMaps {
  import opened Grouping
  import opened JsNumber

  /** One CSV row as text; `emotions` holds columns emotion0 .. emotion8 in
      order. */
  datatype FaceCsvRow = FaceCsvRow(
    frame: string, x1: string, x2: string, y1: string, y2: string, boxProb: string,
    emotion: string, emotions: seq<string>, valence: string, arousal: string)

  /** One face as the front end holds it. */
  datatype FaceEntry = FaceEntry(
    frame: Num, x1: Num, x2: Num, y1: Num, y2: Num, boxProb: Num,
    valence: Num, arousal: Num, emotion: Num, emotionProb: seq<Num>)

  /** The map from frame to faces, in insertion order. */
  type FaceData = seq<Group<Num, FaceEntry>>

  /** The face a row describes: integers through `parseInt`, the box
      probability and the emotion columns through `parseFloat`. */
  function Entry(row: FaceCsvRow, parseFloat: string -> Num): (e: FaceEntry)
    ensures e.frame == ParseInt(row.frame)
    ensures e.x1 == ParseInt(row.x1) && e.x2 == ParseInt(row.x2) && e.y1 == ParseInt(row.y1) && e.y2 == ParseInt(row.y2)
    ensures e.valence == ParseInt(row.valence) && e.arousal == ParseInt(row.arousal) && e.emotion == ParseInt(row.emotion)
    ensures e.boxProb == parseFloat(row.boxProb)
    ensures |e.emotionProb| == |row.emotions|
    ensures forall k :: 0 <= k < |row.emotions| ==> e.emotionProb[k] == parseFloat(row.emotions[k])
  {
    FaceEntry(
      ParseInt(row.frame), ParseInt(row.x1), ParseInt(row.x2), ParseInt(row.y1), ParseInt(row.y2),
      parseFloat(row.boxProb), ParseInt(row.valence), ParseInt(row.arousal), ParseInt(row.emotion),
      seq(|row.emotions|, k requires 0 <= k < |row.emotions| => parseFloat(row.emotions[k])))
  }

  /** The faces of the rows, in file order. */
  function Entries(rows: seq<FaceCsvRow>, parseFloat: string -> Num): (es: seq<FaceEntry>)
    ensures |es| == |rows|
    ensures forall j :: 0 <= j < |rows| ==> es[j] == Entry(rows[j], parseFloat)
  {
    seq(|rows|, j requires 0 <= j < |rows| => Entry(rows[j], parseFloat))
  }

  /** Each face under the frame it names. */
  function Keyed(es: seq<FaceEntry>): (ps: seq<(Num, FaceEntry)>)
    ensures |ps| == |es|
    ensures forall j :: 0 <= j < |es| ==> ps[j] == (es[j].frame, es[j])
  {
    seq(|es|, j requires 0 <= j < |es| => (es[j].frame, es[j]))
  }

  /** `getFaceData()`: the loader runs only on an empty map, and then
      appends every row's face to its frame's list, creating the list on
      the frame's first row. */
  function GetFaceData(cache: FaceData, rows: seq<FaceCsvRow>, parseFloat: string -> Num): FaceData
  {
    if |cache| == 0 then GroupBy(Keyed(Entries(rows, parseFloat))) else cache
  }

  /** `getFaceDataByFrame(frame)`: the faces of the frame, or none. */
  function FacesByFrame(data: FaceData, frame: Num): seq<FaceEntry>
  {
    MembersOf(data, frame)
  }

  /** The faces naming `frame`, in file order: the reference for what the
      table holds. */
  function FacesAt(es: seq<FaceEntry>, frame: Num): seq<FaceEntry>
  {
    if |es| == 0 then []
    else FacesAt(es[..|es| - 1], frame) + (if es[|es| - 1].frame == frame then [es[|es| - 1]] else [])
  }

  lemma {:induction false} SelectKeyed(es: seq<FaceEntry>, frame: Num)
    ensures Select(Keyed(es), frame) == FacesAt(es, frame)
  {
    if |es| > 0 {
      var ps := Keyed(es);
      SelectKeyed(es[..|es| - 1], frame);
      assert ps[..|ps| - 1] == Keyed(es[..|es| - 1]);
    }
  }

  /** After the first load, a frame's list holds the faces of exactly the
      rows naming that frame, in file order, and is empty for a frame no
      row names; no frame is listed twice. */
  lemma FaceLookup(rows: seq<FaceCsvRow>, parseFloat: string -> Num, frame: Num)
    ensures FacesByFrame(GetFaceData([], rows, parseFloat), frame) == FacesAt(Entries(rows, parseFloat), frame)
    ensures Distinct(Keys(GetFaceData([], rows, parseFloat)))
  {
    var es := Entries(rows, parseFloat);
    GroupByIsGrouping(Keyed(es));
    SelectKeyed(es, frame);
  }

  lemma EntryKeys(es: seq<FaceEntry>, frame: Num)
    ensures frame in Keys(GroupBy(Keyed(es))) <==> exists i :: 0 <= i < |es| && es[i].frame == frame
  {
    var ps := Keyed(es);
    GroupByIsGrouping(ps);
    if frame in KeySeq(ps) {
      var i :| 0 <= i < |ps| && KeySeq(ps)[i] == frame;
      assert es[i].frame == frame;
    }
    if exists i :: 0 <= i < |es| && es[i].frame == frame {
      var i :| 0 <= i < |es| && es[i].frame == frame;
      assert KeySeq(ps)[i] == frame;
    }
  }

  /** The frames listed are exactly those some row names. */
  lemma FaceKeys(rows: seq<FaceCsvRow>, parseFloat: string -> Num, frame: Num)
    ensures frame in Keys(GetFaceData([], rows, parseFloat)) <==>
      exists i :: 0 <= i < |rows| && ParseInt(rows[i].frame) == frame
  {
    var es := Entries(rows, parseFloat);
    EntryKeys(es, frame);
    if exists i :: 0 <= i < |es| && es[i].frame == frame {
      var i :| 0 <= i < |es| && es[i].frame == frame;
      assert ParseInt(rows[i].frame) == frame;
    }
    if exists i :: 0 <= i < |rows| && ParseInt(rows[i].frame) == frame {
      var i :| 0 <= i < |rows| && ParseInt(rows[i].frame) == frame;
      assert es[i].frame == frame;
    }
  }

  /** A frame's list holds only faces of that frame, and is empty when no
      face names it. */
  lemma {:induction false} FacesAtSpec(es: seq<FaceEntry>, frame: Num)
    ensures |FacesAt(es, frame)| <= |es|
    ensures (forall i :: 0 <= i < |es| ==> es[i].frame != frame) ==> FacesAt(es, frame) == []
    ensures forall e :: e in FacesAt(es, frame) ==> e.frame == frame && e in es
  {
    if |es| > 0 {
      var init := es[..|es| - 1];
      FacesAtSpec(init, frame);
      assert forall i :: 0 <= i < |init| ==> init[i] == es[i];
    }
  }

  /** The cache loads once. */
  lemma GetFaceDataLoadsOnce(cache: FaceData, rows: seq<FaceCsvRow>, parseFloat: string -> Num)
    ensures var once := GetFaceData(cache, rows, parseFloat);
      GetFaceData(once, rows, parseFloat) == once
    ensures |cache| > 0 ==> GetFaceData(cache, rows, parseFloat) == cache
  {
  }
}

=== FILE: frame_maps.dfy ===
/** The front end's per-frame tables of the audio and text results
    (src/preprocess/audio.ts and src/preprocess/text.ts, which are the same
    code over different CSV files): every CSV row covers the video frames
    from its start to its end second, and a frame maps to the last row
    that covers it. */
module FrameMaps {
  import opened Wrappers
  import opened Numeric
  import opened JsNumber

  /* ---------------- lodash range ---------------- */

  /** n numbers from `start` in steps of +1 (up) or -1 (down). */
  function Run(start: real, up: bool, n: nat): (r: seq<real>)
    ensures |r| == n
    ensures forall k :: 0 <= k < n ==> r[k] == if up then start + k as real else start - k as real
  {
    if n == 0 then []
    else Run(start, up, n - 1) + [if up then start + (n - 1) as real else start - (n - 1) as real]
  }

  /** `_.range(start, end)` on finite bounds: the step is 1 when start < end
      and -1 otherwise, and the length is the ceiling of the distance. */
  function LodashRange(start: real, end: real): seq<real>
  {
    if start < end then Run(start, true, Ceil(end - start))
    else Run(start, false, Ceil(start - end))
  }

  /** x lies a whole number of steps from `start`. */
  predicate OnGrid(x: real, start: real)
  {
    (x - start).Floor as real == x - start
  }

  /** The range holds the grid points from `start` up to but excluding
      `end`; when start ≥ end it counts down, from `start` to just above
      `end`, and is empty only when the two are equal. */
  lemma RangeSpec(start: real, end: real, x: real)
    ensures x in LodashRange(start, end) <==>
      OnGrid(x, start) && (if start < end then start <= x < end else end < x <= start)
  {
    if start < end {
      RunSpec(start, true, Ceil(end - start), x);
    } else {
      RunSpec(start, false, Ceil(start - end), x);
    }
  }

  /** A run of n steps holds exactly the grid points less than n steps
      away from `start` in its direction. */
  lemma RunSpec(start: real, up: bool, n: nat, x: real)
    ensures x in Run(start, up, n) <==>
      OnGrid(x, start) && (if up then start <= x < start + n as real else start - n as real < x <= start)
  {
    var r := Run(start, up, n);
    if x in r {
      var k :| 0 <= k < |r| && r[k] == x;
      assert x - start == if up then k as real else -k as real;
    }
    if OnGrid(x, start) && (if up then start <= x < start + n as real else start - n as real < x <= start) {
      var j := if up then (x - start).Floor else -(x - start).Floor;
      assert 0 <= j < n;
      assert r[j] == x;
    }
  }

  /** A start above the end is not an empty range: `_.range(5, 2)` is
      [5, 4, 3]. */
  lemma DescendingRange()
    ensures LodashRange(5.0, 2.0) == [5.0, 4.0, 3.0]
    ensures LodashRange(2.0, 2.0) == []
  {
    assert Ceil(3.0) == 3;
  }

  /* ---------------- rows and tables ---------------- */

  /** One CSV row as text; `emotions` holds columns emotion0 .. emotion8 in
      order. */
  datatype SeriesCsvRow = SeriesCsvRow(
    start: string, end: string, valence: string, arousal: string, emotions: seq<string>)

  /** The value stored for one frame. */
  datatype DataRow = DataRow(frame: real, valence: Num, arousal: Num, emotionProb: seq<Num>)

  /** `parseInt(seconds) * fps`. */
  function FrameAt(seconds: string, fps: real): Num
  {
    Mul(ParseInt(seconds), fps)
  }

  /** The frames a row covers. */
  function RowFrames(row: SeriesCsvRow, fps: real): seq<real>
  {
    LodashRange(ToFinite(FrameAt(row.start, fps)), ToFinite(FrameAt(row.end, fps)))
  }

  /** The value a row stores at `frame`; `parseFloat` is JavaScript's. */
  function RowAt(row: SeriesCsvRow, frame: real, parseFloat: string -> Num): (d: DataRow)
    ensures d.frame == frame
    ensures d.valence == Round(parseFloat(row.valence)) && d.arousal == Round(parseFloat(row.arousal))
    ensures |d.emotionProb| == |row.emotions|
    ensures forall k :: 0 <= k < |row.emotions| ==> d.emotionProb[k] == parseFloat(row.emotions[k])
  {
    DataRow(
      frame, Round(parseFloat(row.valence)), Round(parseFloat(row.arousal)),
      seq(|row.emotions|, k requires 0 <= k < |row.emotions| => parseFloat(row.emotions[k])))
  }

  /** The frames each row covers, at a given frame rate. */
  function Coverage(fps: real): SeriesCsvRow -> seq<real>
  {
    row => RowFrames(row, fps)
  }

  /** `_.range(start, end).forEach(frame => data.set(frame, ...))`. */
  function SetFrames(m: map<real, DataRow>, frames: seq<real>, row: SeriesCsvRow, parseFloat: string -> Num): map<real, DataRow>
  {
    if |frames| == 0 then m
    else
      var f := frames[|frames| - 1];
      SetFrames(m, frames[..|frames| - 1], row, parseFloat)[f := RowAt(row, f, parseFloat)]
  }

  /** The loader, `d.forEach(row => ...)` over the CSV rows into `m`, with
      `cover` giving the frames of each row. */
  function Load(m: map<real, DataRow>, rows: seq<SeriesCsvRow>, cover: SeriesCsvRow -> seq<real>, parseFloat: string -> Num): map<real, DataRow>
  {
    if |rows| == 0 then m
    else
      var row := rows[|rows| - 1];
      SetFrames(Load(m, rows[..|rows| - 1], cover, parseFloat), cover(row), row, parseFloat)
  }

  /** `getAudioData()` / `getTextData()`: load into the cache only when it
      is empty. */
  function GetData(cache: map<real, DataRow>, rows: seq<SeriesCsvRow>, fps: real, parseFloat: string -> Num): map<real, DataRow>
  {
    if |cache| == 0 then Load(cache, rows, Coverage(fps), parseFloat) else cache
  }

  /** `getAudioDataByFrame(frame)`: `None` is `undefined`. */
  function ByFrame(m: map<real, DataRow>, frame: real): (r: Option<DataRow>)
    ensures r.Some? <==> frame in m
    ensures r.Some? ==> r.value == m[frame]
  {
    if frame in m then Some(m[frame]) else None
  }

  /* ---------------- what the table holds ---------------- */

  /** The index of the last row covering `frame`, if any: the reference
      for "later rows overwrite earlier ones". */
  function LastCover(rows: seq<SeriesCsvRow>, cover: SeriesCsvRow -> seq<real>, frame: real): Option<nat>
  {
    if |rows| == 0 then None
    else if frame in cover(rows[|rows| - 1]) then Some(|rows| - 1)
    else LastCover(rows[..|rows| - 1], cover, frame)
  }

  lemma {:induction false} LastCoverSpec(rows: seq<SeriesCsvRow>, cover: SeriesCsvRow -> seq<real>, frame: real)
    ensures match LastCover(rows, cover, frame)
      case None => forall j :: 0 <= j < |rows| ==> frame !in cover(rows[j])
      case Some(i) =>
        && i < |rows| && frame in cover(rows[i])
        && forall j :: i < j < |rows| ==> frame !in cover(rows[j])
  {
    if |rows| > 0 && frame !in cover(rows[|rows| - 1]) {
      var init := rows[..|rows| - 1];
      LastCoverSpec(init, cover, frame);
      assert forall j :: 0 <= j < |init| ==> init[j] == rows[j];
    }
  }

  /** Setting a run of frames overwrites exactly those frames. */
  lemma {:induction false} SetFramesSpec(m: map<real, DataRow>, frames: seq<real>, row: SeriesCsvRow, parseFloat: string -> Num, f: real)
    ensures var r := SetFrames(m, frames, row, parseFloat);
      && (f in r <==> f in m || f in frames)
      && (f in frames ==> r[f] == RowAt(row, f, parseFloat))
      && (f !in frames && f in m ==> r[f] == m[f])
  {
    if |frames| > 0 {
      var init := frames[..|frames| - 1];
      SetFramesSpec(m, init, row, parseFloat, f);
      assert frames == init + [frames[|frames| - 1]];
    }
  }

  /** A frame maps to the row that covers it last; a frame no row covers
      keeps what the map held before. */
  lemma {:induction false} LoadSpec(m: map<real, DataRow>, rows: seq<SeriesCsvRow>, cover: SeriesCsvRow -> seq<real>, parseFloat: string -> Num, f: real)
    ensures var r := Load(m, rows, cover, parseFloat);
      match LastCover(rows, cover, f)
      case None => (f in r <==> f in m) && (f in m ==> r[f] == m[f])
      case Some(i) => i < |rows| && f in r && r[f] == RowAt(rows[i], f, parseFloat)
  {
    if |rows| > 0 {
      var init := rows[..|rows| - 1];
      var row := rows[|rows| - 1];
      LoadSpec(m, init, cover, parseFloat, f);
      SetFramesSpec(Load(m, init, cover, parseFloat), cover(row), row, parseFloat, f);
    }
  }

  /** The cache loads once: a second call returns the first call's table,
      and a filled cache is returned as it is. */
  lemma GetDataLoadsOnce(cache: map<real, DataRow>, rows: seq<SeriesCsvRow>, fps: real, parseFloat: string -> Num)
    ensures var once := GetData(cache, rows, fps, parseFloat);
      GetData(once, rows, fps, parseFloat) == once
    ensures |cache| > 0 ==> GetData(cache, rows, fps, parseFloat) == cache
  {
    var once := GetData(cache, rows, fps, parseFloat);
    if |cache| == 0 && |once| == 0 {
      assert cache == map[];
      assert once == map[];
    }
  }

  /** What a lookup after the first load answers: the values of the last
      row whose range holds the frame, or `undefined` when none does. */
  lemma LookupAfterLoad(rows: seq<SeriesCsvRow>, fps: real, parseFloat: string -> Num, f: real)
    ensures var table := GetData(map[], rows, fps, parseFloat);
      match LastCover(rows, Coverage(fps), f)
      case None => ByFrame(table, f) == None
      case Some(i) => i < |rows| && ByFrame(table, f) == Some(RowAt(rows[i], f, parseFloat))
  {
    LoadSpec(map[], rows, Coverage(fps), parseFloat, f);
  }

  /** "7.5" seconds at 30 frames per second is frame 210, not 225. */
  lemma FrameAtTruncates()
    ensures FrameAt("7.5", 30.0) == Finite(210.0)
    ensures FrameAt("15", 30.0) == Finite(450.0)
  {
    ParseIntTruncates();
    ParseIntWhole();
  }

  /** A row from 7.5 s to 15 s at 30 frames per second covers the 240
      frames from 210. */
  lemma FractionalSecondsTruncate(valence: string, arousal: string, emotions: seq<string>)
    ensures var frames := RowFrames(SeriesCsvRow("7.5", "15", valence, arousal, emotions), 30.0);
      |frames| == 240 && frames[0] == 210.0
  {
    FrameAtTruncates();
    assert Ceil(450.0 - 210.0) == 240;
  }
}

=== FILE: gen_audio_result.dfy ===
/** The audio stage: 15 s analysis windows at a 7.5 s stride, each window's
    result split onto the 7.5 s output grid, per-cell averaging and
    renormalisation, and lockstep progress every 10 windows. */
module AudioResult {
  import opened Wrappers
  import opened Numeric
  import opened LabelSpaceMapping
  import opened Grouping
  import opened Progress

  const SegmentStride := 7.5
  const SegmentDuration := 15.0
  const StrideMs := 7500
  const CommunicationAudioStep := 10

  /** What the external audio head returns for one window: valence and arousal
      on BoLD's [1, 10] scale and 26 BoLD category scores. */
  datatype AudioOutput = AudioOutput(valence: real, arousal: real, emotion: seq<real>)

  /** The oracle's promise that its 26 category scores are probabilities that
      are not all zero. */
  ghost predicate BoldProbabilities(e: seq<real>)
  {
    |e| >= 26 && (forall i :: 0 <= i < 26 ==> e[i] >= 0.0) && SumRange(e, 0, 26) > 0.0
  }

  /** `[arousal, valence, emotion0 .. emotion8]`, the per-window vector. */
  const ObservationWidth := 11
  type Observation = v: seq<real> | |v| == ObservationWidth witness seq(11, i => 0.0)

  /** An analysis window in whole milliseconds, as passed to `clip[start:end]`. */
  datatype Window = Window(startMs: int, endMs: int)

  /** A bucket key: an output cell [startMs, endMs). */
  type Cell = (int, int)

  /** One output row: the averaged and renormalised contributions of a cell. */
  datatype AudioRow = AudioRow(startMs: int, endMs: int, valence: real, arousal: real, emotions: seq<real>)

  /** The k-th value of `np.arange(0.0, duration, 7.5)`, in exact arithmetic. */
  function StartSeconds(k: nat): real
  {
    (k as real) * SegmentStride
  }

  /** The length of `np.arange(0.0, duration, 7.5)`: window starts are the
      multiples of the stride strictly below the duration. */
  function WindowCount(duration: real): (n: nat)
    ensures forall k: nat :: k < n <==> StartSeconds(k) < duration
  {
    if duration <= 0.0 then 0 else Ceil(duration / SegmentStride)
  }

  /** The k-th window [7.5k, min(7.5k + 15, duration)), both ends truncated to
      whole milliseconds. */
  function WindowAt(duration: real, k: nat): (w: Window)
    requires k < WindowCount(duration)
    ensures w.startMs == StrideMs * k
    ensures w.startMs <= w.endMs <= w.startMs + 2 * StrideMs
    ensures w.endMs as real <= duration * 1000.0
  {
    var i := StartSeconds(k);
    Window(Trunc(i * 1000.0), Trunc(MinReal(i + SegmentDuration, duration) * 1000.0))
  }

  /** The output cells a window's result is appended to: both halves when the
      midpoint lies before the end of the clip, otherwise the whole window. */
  function Halves(duration: real, w: Window): seq<Cell>
  {
    var mid := w.startMs as real / 1000.0 + SegmentStride;
    if mid < duration then
      [(w.startMs, w.startMs + StrideMs), (w.startMs + StrideMs, w.endMs)]
    else
      [(w.startMs, w.endMs)]
  }

  /** The per-window vector: BoLD emotions mapped to the canonical slots,
      valence and arousal rescaled to [1, 1000], arousal first. */
  function ObservationOf(o: AudioOutput): Observation
    requires |o.emotion| >= 26
  {
    [BoldToMainArousal(o.arousal).value, BoldToMainValence(o.valence).value] + BoldToMain(o.emotion)
  }

  /** The (cell, vector) appends of the first m windows, in order. */
  function Contributions(duration: real, obs: seq<Observation>, m: nat): seq<(Cell, Observation)>
    requires m <= |obs| == WindowCount(duration)
  {
    if m == 0 then []
    else
      var k := m - 1;
      var cells := Halves(duration, WindowAt(duration, k));
      Contributions(duration, obs, k) + seq(|cells|, i requires 0 <= i < |cells| => (cells[i], obs[k]))
  }

  /** Column c summed over the rows of `vs`. */
  function ColumnSum(vs: seq<Observation>, c: nat): real
    requires c < ObservationWidth
  {
    if |vs| == 0 then 0.0 else ColumnSum(vs[..|vs| - 1], c) + vs[|vs| - 1][c]
  }

  /** `np.stack(vs).mean(axis=0)`. */
  function Mean(vs: seq<Observation>): Observation
    requires |vs| > 0
  {
    seq(ObservationWidth, c requires 0 <= c < ObservationWidth => ColumnSum(vs, c) / (|vs| as real))
  }

  /** A bucket's row: the mean of its vectors with the nine emotion means
      divided by their sum; valence is column 1 and arousal column 0. */
  function Finalize(cell: Cell, vs: seq<Observation>): (row: AudioRow)
    requires |vs| > 0
    requires Sum(Mean(vs)[2..]) != 0.0
    ensures row.startMs == cell.0 && row.endMs == cell.1
    ensures |row.emotions| == SlotCount && Sum(row.emotions) == 1.0
  {
    var m := Mean(vs);
    AudioRow(cell.0, cell.1, m[1], m[0], Normalize(m[2..]))
  }

  /** Valence and arousal are the plain means of the contributions, taken
      from columns 1 and 0 respectively. */
  lemma FinalizeAffect(cell: Cell, vs: seq<Observation>)
    requires |vs| > 0
    requires Sum(Mean(vs)[2..]) != 0.0
    ensures Finalize(cell, vs).valence == ColumnSum(vs, 1) / (|vs| as real)
    ensures Finalize(cell, vs).arousal == ColumnSum(vs, 0) / (|vs| as real)
  {
  }

  /** Each emotion of the row is its mean divided by the sum of the nine
      emotion means. */
  lemma FinalizeEmotions(cell: Cell, vs: seq<Observation>)
    requires |vs| > 0
    requires Sum(Mean(vs)[2..]) != 0.0
    ensures forall i :: 0 <= i < SlotCount ==>
      Finalize(cell, vs).emotions[i] == Mean(vs)[i + 2] / Sum(Mean(vs)[2..])
  {
    var e := Mean(vs)[2..];
    assert Finalize(cell, vs).emotions == Divide(e, Sum(e));
  }

  lemma {:induction false} ColumnSumAppend(a: seq<Observation>, b: seq<Observation>, c: nat)
    requires c < ObservationWidth
    ensures ColumnSum(a + b, c) == ColumnSum(a, c) + ColumnSum(b, c)
    decreases |b|
  {
    if |b| == 0 {
      assert a + b == a;
    } else {
      var b' := b[..|b| - 1];
      assert (a + b)[..|a + b| - 1] == a + b';
      ColumnSumAppend(a, b', c);
    }
  }

  /** A column sum does not depend on the order of the rows. */
  lemma {:induction false} ColumnSumPermutation(a: seq<Observation>, b: seq<Observation>, c: nat)
    requires c < ObservationWidth
    requires multiset(a) == multiset(b)
    ensures ColumnSum(a, c) == ColumnSum(b, c)
    decreases |a|
  {
    if |a| == 0 {
      assert |b| == |multiset(b)| == 0;
    } else {
      var x := a[|a| - 1];
      var a' := a[..|a| - 1];
      assert a == a' + [x];
      assert x in multiset(b);
      var i :| 0 <= i < |b| && b[i] == x;
      var b' := b[..i] + b[i + 1..];
      RemoveMatching(a', x, b, i);
      ColumnSumPermutation(a', b', c);
      assert b == (b[..i] + [x]) + b[i + 1..];
      ColumnSumAppend(b[..i] + [x], b[i + 1..], c);
      ColumnSumAppend(b[..i], [x], c);
      ColumnSumAppend(b[..i], b[i + 1..], c);
      assert ColumnSum([x], c) == x[c] by {
        assert [x][..0] == [];
      }
    }
  }

  lemma RemoveMatching<T>(a: seq<T>, x: T, b: seq<T>, i: nat)
    requires i < |b| && b[i] == x
    requires multiset(a + [x]) == multiset(b)
    ensures multiset(a) == multiset(b[..i] + b[i + 1..])
  {
    var rest := b[..i] + b[i + 1..];
    assert b == b[..i] + [x] + b[i + 1..];
    assert multiset(b) == multiset(rest) + multiset{x};
    assert multiset(a + [x]) == multiset(a) + multiset{x};
    forall y ensures multiset(a)[y] == multiset(rest)[y] {
      assert (multiset(a) + multiset{x})[y] == (multiset(rest) + multiset{x})[y];
    }
  }

  /** The row of a bucket does not depend on the order in which its vectors
      were appended: aggregation is a commutative mean. */
  lemma FinalizeOrderIndependent(cell: Cell, a: seq<Observation>, b: seq<Observation>)
    requires multiset(a) == multiset(b)
    requires |a| > 0
    requires Sum(Mean(a)[2..]) != 0.0
    ensures |b| > 0 && Sum(Mean(b)[2..]) != 0.0
    ensures Finalize(cell, a) == Finalize(cell, b)
  {
    assert |a| == |multiset(a)| == |multiset(b)| == |b|;
    forall c | 0 <= c < ObservationWidth ensures ColumnSum(a, c) == ColumnSum(b, c) {
      ColumnSumPermutation(a, b, c);
    }
    assert Mean(a) == Mean(b);
  }

  /** A vector whose nine emotions are non-negative and not all zero. */
  ghost predicate ValidObservation(v: Observation)
  {
    NonNegative(v[2..]) && Sum(v[2..]) > 0.0
  }

  lemma ObservationOfValid(o: AudioOutput)
    requires BoldProbabilities(o.emotion)
    ensures ValidObservation(ObservationOf(o))
  {
    var v := ObservationOf(o);
    assert v[2..] == BoldToMain(o.emotion);
    BoldToMainPreservesSum(o.emotion);
  }

  lemma {:induction false} ColumnSumBounds(vs: seq<Observation>, c: nat)
    requires 2 <= c < ObservationWidth
    requires forall i :: 0 <= i < |vs| ==> ValidObservation(vs[i])
    ensures ColumnSum(vs, c) >= 0.0
    ensures forall i :: 0 <= i < |vs| ==> ColumnSum(vs, c) >= vs[i][c]
  {
    if |vs| > 0 {
      var init := vs[..|vs| - 1];
      ColumnSumBounds(init, c);
      assert vs[|vs| - 1][2..][c - 2] == vs[|vs| - 1][c];
      forall i | 0 <= i < |vs| ensures vs[i][c] >= 0.0 {
        assert vs[i][2..][c - 2] == vs[i][c];
      }
    }
  }

  /** Averaging valid vectors keeps the emotion sum positive, so the
      renormalisation of a non-empty bucket never divides by zero. */
  lemma MeanEmotionsPositive(vs: seq<Observation>)
    requires |vs| > 0
    requires forall i :: 0 <= i < |vs| ==> ValidObservation(vs[i])
    ensures NonNegative(Mean(vs)[2..]) && Sum(Mean(vs)[2..]) > 0.0
  {
    var m := Mean(vs);
    var e := m[2..];
    var n := |vs| as real;
    var j := PositiveSumHasPositiveTerm(vs[0][2..], 0, |vs[0][2..]|);
    var c := j + 2;
    assert vs[0][c] > 0.0;
    forall i | 0 <= i < |e| ensures e[i] >= 0.0 {
      ColumnSumBounds(vs, i + 2);
      DivideNonNegative(ColumnSum(vs, i + 2), n);
    }
    ColumnSumBounds(vs, c);
    assert e[j] == ColumnSum(vs, c) / n;
    PositiveOverPositive(ColumnSum(vs, c), n);
    SumRangeAtLeastTerm(e, 0, |e|, j);
  }

  lemma PositiveOverPositive(x: real, n: real)
    requires x > 0.0 && n > 0.0
    ensures x / n > 0.0
  {
  }

  /** The clip length in whole milliseconds. */
  function DurationMs(duration: real): int
  {
    Trunc(duration * 1000.0)
  }

  function MinInt(a: int, b: int): int
  {
    if a <= b then a else b
  }

  /** The j-th cell of the 7.5 s output grid, clipped to the end of the clip. */
  function GridCell(duration: real, j: nat): Cell
  {
    (StrideMs * j, MinInt(StrideMs * (j + 1), DurationMs(duration)))
  }

  /** The vectors that land in cell j: window 0 alone for the first cell,
      otherwise windows j - 1 and j, in that order. */
  function GridMembers(obs: seq<Observation>, j: nat): seq<Observation>
    requires j < |obs|
  {
    if j == 0 then [obs[0]] else [obs[j - 1], obs[j]]
  }

  lemma TruncOfInteger(x: real, m: int)
    requires x == m as real
    ensures Trunc(x) == m
  {
  }

  /** A window ends 15 s after its start or at the end of the clip, whichever
      comes first, measured in whole milliseconds. */
  lemma WindowEnd(duration: real, k: nat)
    requires k < WindowCount(duration)
    ensures WindowAt(duration, k).endMs == MinInt(StrideMs * (k + 2), DurationMs(duration))
  {
    var i := StartSeconds(k);
    var e := (StrideMs * (k + 2)) as real;
    assert (i + SegmentDuration) * 1000.0 == e;
    assert duration > 0.0 by { assert StartSeconds(k) < duration; }
    if i + SegmentDuration <= duration {
      TruncOfInteger((i + SegmentDuration) * 1000.0, StrideMs * (k + 2));
      assert duration * 1000.0 >= e;
    } else {
      assert duration * 1000.0 < e;
    }
  }

  /** Every window's halves are cells of the grid: window k feeds cell k and,
      unless it is the last window, cell k + 1. */
  lemma HalvesAreCells(duration: real, k: nat)
    requires k < WindowCount(duration)
    ensures Halves(duration, WindowAt(duration, k)) ==
      [GridCell(duration, k)] + (if k + 1 < WindowCount(duration) then [GridCell(duration, k + 1)] else [])
  {
    var n := WindowCount(duration);
    var w := WindowAt(duration, k);
    var d := DurationMs(duration);
    WindowEnd(duration, k);
    assert w.startMs as real / 1000.0 + SegmentStride == StartSeconds(k + 1);
    assert StartSeconds(k + 1) * 1000.0 == (StrideMs * (k + 1)) as real;
    if k + 1 < n {
      assert StartSeconds(k + 1) < duration;
      assert d >= StrideMs * (k + 1);
    } else {
      assert duration <= StartSeconds(k + 1);
      assert d <= StrideMs * (k + 1);
    }
  }

  /** The cells of the first m windows, as the bucket map holds them after
      m iterations: complete cells 0 .. m - 1, then cell m holding only
      window m - 1 when more windows follow. */
  function GridAfter(duration: real, obs: seq<Observation>, m: nat): seq<Group<Cell, Observation>>
    requires m <= |obs| == WindowCount(duration)
  {
    seq(m, j requires 0 <= j < m => Group(GridCell(duration, j), GridMembers(obs, j)))
    + (if 0 < m < |obs| then [Group(GridCell(duration, m), [obs[m - 1]])] else [])
  }

  lemma GridKeys(duration: real, obs: seq<Observation>, m: nat)
    requires m <= |obs| == WindowCount(duration)
    ensures forall j: nat :: m <= j ==> GridCell(duration, j) !in Keys(GridAfter(duration, obs, m)[..m])
  {
    var gs := GridAfter(duration, obs, m)[..m];
    forall j: nat | m <= j ensures GridCell(duration, j) !in Keys(gs) {
      assert forall i :: 0 <= i < m ==> Keys(gs)[i].0 == StrideMs * i;
    }
  }

  /** Window k's append to its own cell k completes that cell. */
  lemma GridStepOwn(duration: real, obs: seq<Observation>, k: nat)
    requires k < |obs| == WindowCount(duration)
    ensures Add(GridAfter(duration, obs, k), GridCell(duration, k), obs[k]) == GridAfter(duration, obs, k + 1)[..k + 1]
  {
    var before := GridAfter(duration, obs, k);
    var c := GridCell(duration, k);
    GridKeys(duration, obs, k);
    if k == 0 {
      assert before == [];
      AddFresh(before, c, obs[k]);
    } else {
      var last := Group(c, [obs[k - 1]]);
      assert before == before[..k] + [last];
      AddToLast(before[..k], last, obs[k]);
      assert last.members + [obs[k]] == [obs[k - 1], obs[k]];
    }
  }

  /** Window k's append to cell k + 1 opens that cell at the end. */
  lemma GridStepNext(duration: real, obs: seq<Observation>, k: nat)
    requires k + 1 < |obs| == WindowCount(duration)
    ensures Add(GridAfter(duration, obs, k + 1)[..k + 1], GridCell(duration, k + 1), obs[k]) == GridAfter(duration, obs, k + 1)
  {
    GridKeys(duration, obs, k + 1);
    AddFresh(GridAfter(duration, obs, k + 1)[..k + 1], GridCell(duration, k + 1), obs[k]);
  }

  /** Window k appends its vector to cell k and, unless it is last, to cell k + 1. */
  lemma ContributionsStep(duration: real, obs: seq<Observation>, k: nat)
    requires k < |obs| == WindowCount(duration)
    ensures Contributions(duration, obs, k + 1) ==
      Contributions(duration, obs, k) + [(GridCell(duration, k), obs[k])]
      + (if k + 1 < |obs| then [(GridCell(duration, k + 1), obs[k])] else [])
  {
    HalvesAreCells(duration, k);
  }

  /** Bucketing the appends of the first m windows yields GridAfter(m). */
  lemma {:induction false} GridGroupingAfter(duration: real, obs: seq<Observation>, m: nat)
    requires m <= |obs| == WindowCount(duration)
    ensures GroupBy(Contributions(duration, obs, m)) == GridAfter(duration, obs, m)
  {
    if m > 0 {
      var k := m - 1;
      GridGroupingAfter(duration, obs, k);
      ContributionsStep(duration, obs, k);
      var ps := Contributions(duration, obs, k) + [(GridCell(duration, k), obs[k])];
      GridStepOwn(duration, obs, k);
      GroupBySnoc(Contributions(duration, obs, k), (GridCell(duration, k), obs[k]));
      if k + 1 < |obs| {
        GridStepNext(duration, obs, k);
        GroupBySnoc(ps, (GridCell(duration, k + 1), obs[k]));
      } else {
        assert Contributions(duration, obs, m) == ps;
        assert GridAfter(duration, obs, m)[..m] == GridAfter(duration, obs, m);
      }
    }
  }

  /** After all windows every cell of the grid is complete. */
  lemma GridGrouping(duration: real, obs: seq<Observation>)
    requires |obs| == WindowCount(duration)
    ensures GroupBy(Contributions(duration, obs, |obs|)) ==
      seq(|obs|, j requires 0 <= j < |obs| => Group(GridCell(duration, j), GridMembers(obs, j)))
  {
    GridGroupingAfter(duration, obs, |obs|);
  }

  /** The audio head's promise for every window of the clip it analyses
      without raising. */
  ghost predicate AnalyzerValid(duration: real, analyze: Window -> Result<AudioOutput, PyError>)
  {
    forall k: nat :: k < WindowCount(duration) && analyze(WindowAt(duration, k)).Success? ==>
      BoldProbabilities(analyze(WindowAt(duration, k)).value.emotion)
  }

  /** The first k windows of the clip are analysed without raising. */
  ghost predicate AnalysedBefore(duration: real, analyze: Window -> Result<AudioOutput, PyError>, k: nat)
  {
    forall j: nat :: j < k && j < WindowCount(duration) ==> analyze(WindowAt(duration, j)).Success?
  }

  /** Every window of the clip is analysed without raising. */
  ghost predicate AllAnalysed(duration: real, analyze: Window -> Result<AudioOutput, PyError>)
  {
    AnalysedBefore(duration, analyze, WindowCount(duration))
  }

  /** One more window analysed without raising. */
  lemma AnalysedBeforeStep(duration: real, analyze: Window -> Result<AudioOutput, PyError>, k: nat)
    requires AnalysedBefore(duration, analyze, k)
    requires k < WindowCount(duration) && analyze(WindowAt(duration, k)).Success?
    ensures AnalysedBefore(duration, analyze, k + 1)
  {
  }

  /** The stand-in for a window whose analysis raised. Such a window ends
      the stage, so its stand-in never reaches a finalised bucket. */
  const Unanalysed: Observation := seq(ObservationWidth, i => 0.0)

  /** The vector of window k, or the stand-in when its analysis raised. */
  ghost function ObservationAt(duration: real, analyze: Window -> Result<AudioOutput, PyError>, k: nat): (v: Observation)
    requires AnalyzerValid(duration, analyze)
    requires k < WindowCount(duration)
    ensures analyze(WindowAt(duration, k)).Success? ==> ValidObservation(v)
  {
    var out := analyze(WindowAt(duration, k));
    if out.Success? then
      ObservationOfValid(out.value);
      ObservationOf(out.value)
    else Unanalysed
  }

  /** The per-window vectors of the whole clip, window by window. */
  ghost function Observations(duration: real, analyze: Window -> Result<AudioOutput, PyError>): (obs: seq<Observation>)
    requires AnalyzerValid(duration, analyze)
    ensures |obs| == WindowCount(duration)
    ensures forall k :: 0 <= k < |obs| ==> obs[k] == ObservationAt(duration, analyze, k)
    ensures AllAnalysed(duration, analyze) ==> forall k :: 0 <= k < |obs| ==> ValidObservation(obs[k])
  {
    var n := WindowCount(duration);
    seq(n, k requires 0 <= k < n => ObservationAt(duration, analyze, k))
  }

  /** The closed form of the output: row j is cell j of the grid with the
      renormalised mean of the windows that cover it. */
  ghost function GridRow(obs: seq<Observation>, duration: real, j: nat): (row: AudioRow)
    requires |obs| == WindowCount(duration) && j < |obs|
    requires forall k :: 0 <= k < |obs| ==> ValidObservation(obs[k])
    ensures (row.startMs, row.endMs) == GridCell(duration, j)
    ensures NonNegative(row.emotions) && Sum(row.emotions) == 1.0
  {
    MeanEmotionsPositive(GridMembers(obs, j));
    Finalize(GridCell(duration, j), GridMembers(obs, j))
  }

  /** The first loop of `process_audio_file`: analyse each window, append
      its vector to its cells, report every tenth window. The first window
      whose analysis raises ends the loop with its error, after the reports
      of the windows before it; `analysed` counts the windows that
      completed. */
  method BucketWindows(duration: real, analyze: Window -> Result<AudioOutput, PyError>)
    returns (r: Result<seq<Group<Cell, Observation>>, PyError>, analysed: nat, events: seq<Event>)
    requires AnalyzerValid(duration, analyze)
    ensures analysed <= WindowCount(duration)
    ensures AnalysedBefore(duration, analyze, analysed)
    ensures events == Paced(AudioAnalysis, Audio, CommunicationAudioStep, analysed, WindowCount(duration))
    ensures r.Success? <==> analysed == WindowCount(duration)
    ensures r.Failure? ==> analysed < WindowCount(duration) && analyze(WindowAt(duration, analysed)) == Failure(r.error)
    ensures r.Success? ==> r.value == GroupBy(Contributions(duration, Observations(duration, analyze), WindowCount(duration)))
  {
    var n := WindowCount(duration);
    ghost var obs := Observations(duration, analyze);
    var data := [];
    events := [];
    for k := 0 to n
      invariant data == GroupBy(Contributions(duration, obs, k))
      invariant events == Paced(AudioAnalysis, Audio, CommunicationAudioStep, k, n)
      invariant AnalysedBefore(duration, analyze, k)
    {
      var w := WindowAt(duration, k);
      var out := analyze(w);
      if out.Failure? {
        return Failure(out.error), k, events;
      }
      AnalysedBeforeStep(duration, analyze, k);
      var v := ObservationOf(out.value);
      var cells := Halves(duration, w);
      AppendWindow(duration, obs, k, data, v);
      data := Add(data, cells[0], v);
      if |cells| == 2 {
        data := Add(data, cells[1], v);
      }
      events := events + UnitEvents(AudioAnalysis, Audio, CommunicationAudioStep, k, n);
    }
    r := Success(data);
    analysed := n;
  }

  /** Appending window k's vector to its halves, in order, advances the
      bucket map from k windows to k + 1. */
  lemma AppendWindow(duration: real, obs: seq<Observation>, k: nat, data: seq<Group<Cell, Observation>>, v: Observation)
    requires k < |obs| == WindowCount(duration)
    requires data == GroupBy(Contributions(duration, obs, k))
    requires v == obs[k]
    ensures var cells := Halves(duration, WindowAt(duration, k));
      && (|cells| == 1 || |cells| == 2)
      && GroupBy(Contributions(duration, obs, k + 1)) ==
         if |cells| == 1 then Add(data, cells[0], v) else Add(Add(data, cells[0], v), cells[1], v)
  {
    var cells := Halves(duration, WindowAt(duration, k));
    var before := Contributions(duration, obs, k);
    var tail := seq(|cells|, i requires 0 <= i < |cells| => (cells[i], obs[k]));
    assert Contributions(duration, obs, k + 1) == before + tail;
    var once := before + [(cells[0], v)];
    GroupBySnoc(before, (cells[0], v));
    if |cells| == 2 {
      assert tail == [(cells[0], v), (cells[1], v)];
      assert before + tail == once + [(cells[1], v)];
      GroupBySnoc(once, (cells[1], v));
    } else {
      assert tail == [(cells[0], v)];
    }
  }

  /** All rows of the closed form, cell by cell. */
  ghost function GridRows(obs: seq<Observation>, duration: real): (rows: seq<AudioRow>)
    requires |obs| == WindowCount(duration)
    requires forall k :: 0 <= k < |obs| ==> ValidObservation(obs[k])
    ensures |rows| == |obs|
    ensures forall j :: 0 <= j < |obs| ==> rows[j] == GridRow(obs, duration, j)
  {
    seq(|obs|, j requires 0 <= j < |obs| => GridRow(obs, duration, j))
  }

  lemma PrefixSnoc<T>(s: seq<T>, i: nat, x: T)
    requires i < |s| && s[i] == x
    ensures s[..i] + [x] == s[..i + 1]
  {
  }

  /** The i-th bucket after all windows finalises to the i-th grid row. */
  lemma FinalizeBucket(duration: real, obs: seq<Observation>, data: seq<Group<Cell, Observation>>, i: nat)
    requires |obs| == WindowCount(duration) && i < |obs|
    requires forall k :: 0 <= k < |obs| ==> ValidObservation(obs[k])
    requires data == GroupBy(Contributions(duration, obs, |obs|))
    ensures |data| == |obs|
    ensures |data[i].members| > 0 && Sum(Mean(data[i].members)[2..]) != 0.0
    ensures Finalize(data[i].key, data[i].members) == GridRow(obs, duration, i)
  {
    GridGrouping(duration, obs);
    MeanEmotionsPositive(GridMembers(obs, i));
  }

  /** A bucket the renormalisation can divide. */
  ghost predicate Finalizable(g: Group<Cell, Observation>)
  {
    |g.members| > 0 && Sum(Mean(g.members)[2..]) != 0.0
  }

  /** After all windows there is one bucket per grid cell, and bucket i
      finalises to grid row i. */
  lemma FinalizeBuckets(duration: real, obs: seq<Observation>, data: seq<Group<Cell, Observation>>)
    requires |obs| == WindowCount(duration)
    requires forall k :: 0 <= k < |obs| ==> ValidObservation(obs[k])
    requires data == GroupBy(Contributions(duration, obs, |obs|))
    ensures |data| == |obs|
    ensures forall i :: 0 <= i < |data| ==>
      Finalizable(data[i]) && Finalize(data[i].key, data[i].members) == GridRows(obs, duration)[i]
  {
    GridGrouping(duration, obs);
    forall i | 0 <= i < |data|
      ensures Finalizable(data[i]) && Finalize(data[i].key, data[i].members) == GridRows(obs, duration)[i]
    {
      FinalizeBucket(duration, obs, data, i);
    }
  }

  /** `process_audio_file` without the file system and the socket: bucket
      the windows, then average and renormalise each cell in insertion
      order. The rows are the grid rows of the observations, and the
      progress events are one paced report per analysed window; the first
      window whose analysis raises ends the stage with its error. */
  method ProcessAudioFile(duration: real, analyze: Window -> Result<AudioOutput, PyError>)
    returns (r: Result<seq<AudioRow>, PyError>, analysed: nat, events: seq<Event>)
    requires AnalyzerValid(duration, analyze)
    ensures analysed <= WindowCount(duration)
    ensures AnalysedBefore(duration, analyze, analysed)
    ensures events == Paced(AudioAnalysis, Audio, CommunicationAudioStep, analysed, WindowCount(duration))
    ensures r.Success? <==> analysed == WindowCount(duration)
    ensures r.Failure? ==> analysed < WindowCount(duration) && analyze(WindowAt(duration, analysed)) == Failure(r.error)
    ensures r.Success? ==> AllAnalysed(duration, analyze)
    ensures r.Success? ==> (|r.value|, r.value) == (WindowCount(duration), GridRows(Observations(duration, analyze), duration))
  {
    ghost var obs := Observations(duration, analyze);
    var buckets;
    buckets, analysed, events := BucketWindows(duration, analyze);
    if buckets.Failure? {
      return Failure(buckets.error), analysed, events;
    }
    var data := buckets.value;
    ghost var expected := GridRows(obs, duration);
    FinalizeBuckets(duration, obs, data);
    var rows := [];
    for i := 0 to |data|
      invariant rows == expected[..i]
    {
      var row := Finalize(data[i].key, data[i].members);
      PrefixSnoc(expected, i, row);
      rows := rows + [row];
    }
    assert expected[..|data|] == expected;
    r := Success(rows);
  }

  /** Valence and arousal of grid row j: the value of window 0 for the
      first cell, otherwise the average of windows j - 1 and j. */
  lemma GridRowAffect(obs: seq<Observation>, duration: real, j: nat)
    requires |obs| == WindowCount(duration) && j < |obs|
    requires forall k :: 0 <= k < |obs| ==> ValidObservation(obs[k])
    ensures GridRow(obs, duration, j).valence == if j == 0 then obs[0][1] else (obs[j - 1][1] + obs[j][1]) / 2.0
    ensures GridRow(obs, duration, j).arousal == if j == 0 then obs[0][0] else (obs[j - 1][0] + obs[j][0]) / 2.0
  {
    var vs := GridMembers(obs, j);
    MeanEmotionsPositive(vs);
    var row := GridRow(obs, duration, j);
    assert row == Finalize(GridCell(duration, j), vs);
    assert row.valence == Mean(vs)[1] && row.arousal == Mean(vs)[0];
    MeanOfMembers(obs, j, 0);
    MeanOfMembers(obs, j, 1);
  }

  lemma MeanOfMembers(obs: seq<Observation>, j: nat, c: nat)
    requires j < |obs| && c < ObservationWidth
    ensures Mean(GridMembers(obs, j))[c] == if j == 0 then obs[0][c] else (obs[j - 1][c] + obs[j][c]) / 2.0
  {
    var vs := GridMembers(obs, j);
    MembersColumn(obs, j, c);
    assert Mean(vs)[c] == ColumnSum(vs, c) / (|vs| as real);
    if j == 0 {
      assert |vs| as real == 1.0;
    } else {
      assert |vs| as real == 2.0;
    }
  }

  lemma MembersColumn(obs: seq<Observation>, j: nat, c: nat)
    requires j < |obs| && c < ObservationWidth
    ensures ColumnSum(GridMembers(obs, j), c) == if j == 0 then obs[0][c] else obs[j - 1][c] + obs[j][c]
  {
    var vs := GridMembers(obs, j);
    var first := [vs[0]];
    assert first[..0] == [];
    assert ColumnSum(first, c) == vs[0][c];
    if j > 0 {
      assert vs[..1] == first;
    } else {
      assert vs == first;
    }
  }

  /** A 20 s clip: windows start at 0, 7.5 and 15 s, the last one covers
      [15, 20) alone, and the output grid has three cells. */
  lemma TwentySecondClip()
    ensures WindowCount(20.0) == 3
    ensures WindowAt(20.0, 0) == Window(0, 15000)
    ensures WindowAt(20.0, 1) == Window(7500, 20000)
    ensures WindowAt(20.0, 2) == Window(15000, 20000)
    ensures Halves(20.0, WindowAt(20.0, 1)) == [(7500, 15000), (15000, 20000)]
    ensures Halves(20.0, WindowAt(20.0, 2)) == [(15000, 20000)]
    ensures [GridCell(20.0, 0), GridCell(20.0, 1), GridCell(20.0, 2)] == [(0, 7500), (7500, 15000), (15000, 20000)]
  {
    assert StartSeconds(2) < 20.0 <= StartSeconds(3);
    assert WindowCount(20.0) == 3;
    WindowEnd(20.0, 0);
    WindowEnd(20.0, 1);
    WindowEnd(20.0, 2);
    TruncOfInteger(20.0 * 1000.0, 20000);
    HalvesAreCells(20.0, 1);
    HalvesAreCells(20.0, 2);
  }
}

=== FILE: gen_text_result.dfy ===
/** The text stage: every transcript segment is stripped, analysed by the
    language's head and emitted as one row with its emotion vector
    renormalised. The tokenizers, the two heads and the English classifier
    are inputs. */
module TextResult {
  import opened Wrappers
  import opened Numeric
  import opened LabelSpaceMapping
  import opened LinguisticHead

  /** One segment of the transcript: times in seconds and the spoken text. */
  datatype Segment = Segment(start: real, end: real, text: string)

  /** One output row of the text stage. */
  datatype TextRow = TextRow(start: real, end: real, valence: real, arousal: real, emotions: seq<real>)

  /** Python's `str.isspace` for one character. */
  predicate IsSpace(c: char)
  {
    || ('\t' <= c <= '\r')
    || ('\U{1c}' <= c <= ' ')
    || c == '\U{85}' || c == '\U{a0}' || c == '\U{1680}'
    || ('\U{2000}' <= c <= '\U{200a}')
    || c == '\U{2028}' || c == '\U{2029}' || c == '\U{202f}' || c == '\U{205f}' || c == '\U{3000}'
  }

  /** The index of the first non-space character at or after `i`, or |s|. */
  function SkipSpaces(s: string, i: nat): (j: nat)
    requires i <= |s|
    ensures i <= j <= |s|
    decreases |s| - i
  {
    if i == |s| || !IsSpace(s[i]) then i else SkipSpaces(s, i + 1)
  }

  /** The index just after the last non-space character before `j`, or `lo`. */
  function SkipSpacesBack(s: string, lo: nat, j: nat): (k: nat)
    requires lo <= j <= |s|
    ensures lo <= k <= j
    decreases j - lo
  {
    if j == lo || !IsSpace(s[j - 1]) then j else SkipSpacesBack(s, lo, j - 1)
  }

  /** `str.strip()`: the text without leading and trailing whitespace. */
  function Strip(s: string): (r: string)
  {
    var i := SkipSpaces(s, 0);
    s[i..SkipSpacesBack(s, i, |s|)]
  }

  lemma {:induction false} SkipSpacesSpec(s: string, i: nat)
    requires i <= |s|
    ensures forall k :: i <= k < SkipSpaces(s, i) ==> IsSpace(s[k])
    ensures SkipSpaces(s, i) < |s| ==> !IsSpace(s[SkipSpaces(s, i)])
    decreases |s| - i
  {
    if i < |s| && IsSpace(s[i]) {
      SkipSpacesSpec(s, i + 1);
    }
  }

  lemma {:induction false} SkipSpacesBackSpec(s: string, lo: nat, j: nat)
    requires lo <= j <= |s|
    ensures forall m :: SkipSpacesBack(s, lo, j) <= m < j ==> IsSpace(s[m])
    ensures SkipSpacesBack(s, lo, j) > lo ==> !IsSpace(s[SkipSpacesBack(s, lo, j) - 1])
    decreases j - lo
  {
    if j > lo && IsSpace(s[j - 1]) {
      SkipSpacesBackSpec(s, lo, j - 1);
    }
  }

  /** Strip removes exactly a run of leading and a run of trailing whitespace:
      the result is a slice of the input that neither starts nor ends with
      whitespace, and everything cut away is whitespace. */
  lemma StripSpec(s: string)
    ensures exists i, j ::
      && 0 <= i <= j <= |s| && Strip(s) == s[i..j]
      && (forall k :: 0 <= k < i ==> IsSpace(s[k]))
      && (forall k :: j <= k < |s| ==> IsSpace(s[k]))
    ensures |Strip(s)| > 0 ==> !IsSpace(Strip(s)[0]) && !IsSpace(Strip(s)[|Strip(s)| - 1])
  {
    var i := SkipSpaces(s, 0);
    var j := SkipSpacesBack(s, i, |s|);
    SkipSpacesSpec(s, 0);
    SkipSpacesBackSpec(s, i, |s|);
    assert Strip(s) == s[i..j];
    if i < j {
      assert Strip(s)[0] == s[i];
      assert Strip(s)[|Strip(s)| - 1] == s[j - 1];
    }
  }

  /** Stripping twice changes nothing more. */
  lemma StripIdempotent(s: string)
    ensures Strip(Strip(s)) == Strip(s)
  {
    StripSpec(s);
    var t := Strip(s);
    if |t| > 0 {
      assert SkipSpaces(t, 0) == 0;
      assert SkipSpacesBack(t, 0, |t|) == |t|;
    } else {
      assert SkipSpaces(t, 0) == 0;
    }
    assert t[0..|t|] == t;
  }

  /** The tokenizer's output for one message, padded to one common length:
      `input_ids`, `attention_mask` and, when the tokenizer produces it,
      `token_type_ids` (a BERT tokenizer does; a RoBERTa tokenizer does not). */
  datatype Tokenized = Tokenized(inputIds: seq<int>, tokenTypeIds: Option<seq<int>>, attentionMask: seq<int>)

  const MaxTokens := 512

  /** The key the cut looks up unconditionally. */
  const TokenTypeIdsKey := "token_type_ids"

  /** The first n elements, as Python's `[:n]` (n past the end takes all). */
  function Prefix(s: seq<int>, n: nat): (r: seq<int>)
    ensures |r| == if |s| <= n then |s| else n
    ensures r <= s
  {
    if |s| <= n then s else s[..n]
  }

  /** The 512-token cut both heads apply: when `input_ids` is longer than
      512, all three tensors are cut to their first 512 positions; looking
      up a missing `token_type_ids` raises KeyError. */
  function Truncate(t: Tokenized): (r: Result<Tokenized, PyError>)
    ensures |t.inputIds| <= MaxTokens ==> r == Success(t)
    ensures r.Failure? <==> |t.inputIds| > MaxTokens && t.tokenTypeIds.None?
    ensures r.Failure? ==> r.error == KeyError(TokenTypeIdsKey)
    ensures |t.inputIds| > MaxTokens && r.Success? ==>
      && |r.value.inputIds| == MaxTokens
      && r.value.tokenTypeIds.Some?
      && |r.value.tokenTypeIds.value| == (if |t.tokenTypeIds.value| <= MaxTokens then |t.tokenTypeIds.value| else MaxTokens)
      && |r.value.attentionMask| == (if |t.attentionMask| <= MaxTokens then |t.attentionMask| else MaxTokens)
    ensures r.Success? ==>
      && r.value.inputIds <= t.inputIds
      && r.value.tokenTypeIds.Some? == t.tokenTypeIds.Some?
      && (t.tokenTypeIds.Some? ==> r.value.tokenTypeIds.value <= t.tokenTypeIds.value)
      && r.value.attentionMask <= t.attentionMask
  {
    if |t.inputIds| > MaxTokens then
      if t.tokenTypeIds.None? then Failure(KeyError(TokenTypeIdsKey))
      else Success(Tokenized(Prefix(t.inputIds, MaxTokens), Some(Prefix(t.tokenTypeIds.value, MaxTokens)), Prefix(t.attentionMask, MaxTokens)))
    else Success(t)
  }

  /** A truncated message is not truncated again: the heads only ever see at
      most 512 input ids. */
  lemma TruncateIdempotent(t: Tokenized)
    requires Truncate(t).Success?
    ensures |Truncate(t).value.inputIds| <= MaxTokens
    ensures Truncate(Truncate(t).value) == Truncate(t)
  {
  }

  /** The Chinese head's outputs: BoLD-scale valence and arousal, 26 BoLD
      category scores. */
  type BoldScores = e: seq<real> | |e| == 26 witness seq(26, i => 0.0)
  datatype ZhOutput = ZhOutput(valence: real, arousal: real, emotion: BoldScores)

  /** The English head's outputs: raw valence and arousal. */
  datatype EnOutput = EnOutput(valence: real, arousal: real)

  /** The external models the text stage calls. The two heads and the
      English classifier may raise; the tokenizers are total. */
  datatype TextModels = TextModels(
    tokenizeZh: string -> Tokenized,
    tokenizeEn: string -> Tokenized,
    zh: Tokenized -> Result<ZhOutput, PyError>,
    en: Tokenized -> Result<EnOutput, PyError>,
    classify: string -> Result<seq<LabelScore>, PyError>)

  /** What an analyser returns for one message. */
  datatype TextAnalysis = TextAnalysis(emotions: seq<real>, valence: real, arousal: real)

  /** The analyser `get_results_with_lang` selects. */
  datatype Analyser = ZhAnalyser | EnAnalyser

  const LanguageMessage := "Language not supported"

  function GetResultsWithLang(lang: string): (r: Result<Analyser, PyError>)
    ensures r.Success? <==> lang == "zh" || lang == "en"
    ensures r == Success(ZhAnalyser) <==> lang == "zh"
    ensures r == Success(EnAnalyser) <==> lang == "en"
    ensures r.Failure? ==> r.error == ValueError(LanguageMessage)
  {
    if lang == "zh" then Success(ZhAnalyser)
    else if lang == "en" then Success(EnAnalyser)
    else Failure(ValueError(LanguageMessage))
  }

  /** `get_results_from_text_zh`: BoLD emotions grouped onto the canonical
      slots, valence and arousal rescaled from [1, 10] to [1, 1000]. The cut
      raises first, then the head. */
  function ResultsFromTextZh(m: TextModels, msg: string): (r: Result<TextAnalysis, PyError>)
    ensures var t := Truncate(m.tokenizeZh(msg));
      && (r.Success? <==> t.Success? && m.zh(t.value).Success?)
      && (t.Failure? ==> r == Failure(t.error))
      && (t.Success? && m.zh(t.value).Failure? ==> r == Failure(m.zh(t.value).error))
    ensures r.Success? ==>
      var out := m.zh(Truncate(m.tokenizeZh(msg)).value).value;
      && r.value.emotions == BoldToMain(out.emotion)
      && |r.value.emotions| == SlotCount
      && Sum(r.value.emotions) == SumRange(out.emotion, 0, 26)
      && r.value.valence - 1.0 == (out.valence - 1.0) * 111.0
      && r.value.arousal - 1.0 == (out.arousal - 1.0) * 111.0
  {
    var t :- Truncate(m.tokenizeZh(msg));
    var out :- m.zh(t);
    BoldToMainPreservesSum(out.emotion);
    Success(TextAnalysis(BoldToMain(out.emotion), BoldToMainValence(out.valence).value, BoldToMainArousal(out.arousal).value))
  }

  /** `get_results_from_text_en`: the classifier's labels written to their
      slots, valence and arousal multiplied by 1000 with no affine rescale.
      In source order the cut raises first, then the head, then the
      classifier, and last an unknown classifier label. */
  function ResultsFromTextEn(m: TextModels, msg: string): (r: Result<TextAnalysis, PyError>)
    ensures var t := Truncate(m.tokenizeEn(msg));
      var c := m.classify(msg);
      && (r.Success? <==> t.Success? && m.en(t.value).Success? && c.Success? && AllKnown(c.value))
      && (t.Failure? ==> r == Failure(t.error))
      && (t.Success? && m.en(t.value).Failure? ==> r == Failure(m.en(t.value).error))
      && (t.Success? && m.en(t.value).Success? && c.Failure? ==> r == Failure(c.error))
      && (t.Success? && m.en(t.value).Success? && c.Success? && !AllKnown(c.value) ==>
            r == Failure(ValueError(UnknownEmotionMessage)))
    ensures r.Success? ==>
      var out := m.en(Truncate(m.tokenizeEn(msg)).value).value;
      && r.value.emotions == PredictEmotionEn(m.classify(msg).value).value
      && |r.value.emotions| == SlotCount
      && r.value.valence == out.valence * 1000.0
      && r.value.arousal == out.arousal * 1000.0
  {
    var t :- Truncate(m.tokenizeEn(msg));
    var out :- m.en(t);
    var labels :- m.classify(msg);
    var emotions :- PredictEmotionEn(labels);
    Success(TextAnalysis(emotions, out.valence * 1000.0, out.arousal * 1000.0))
  }

  /** One loop iteration's analysis: select the analyser (raising for an
      unsupported language) and run it on the stripped text. */
  function AnalyzeSegment(lang: string, m: TextModels, seg: Segment): Result<TextAnalysis, PyError>
  {
    var analyser :- GetResultsWithLang(lang);
    var msg := Strip(seg.text);
    match analyser
    case ZhAnalyser => ResultsFromTextZh(m, msg)
    case EnAnalyser => ResultsFromTextEn(m, msg)
  }

  /** The stage's unguarded division needs a non-zero emotion sum. */
  ghost predicate Renormalisable(lang: string, m: TextModels, seg: Segment)
  {
    var a := AnalyzeSegment(lang, m, seg);
    a.Success? ==> Sum(a.value.emotions) != 0.0
  }

  /** The row a successfully analysed segment becomes. */
  function RowOf(seg: Segment, a: TextAnalysis): (row: TextRow)
    requires Sum(a.emotions) != 0.0
    ensures row.start == seg.start && row.end == seg.end
    ensures row.valence == a.valence && row.arousal == a.arousal
    ensures |row.emotions| == |a.emotions| && Sum(row.emotions) == 1.0
    ensures forall i :: 0 <= i < |a.emotions| ==> row.emotions[i] * Sum(a.emotions) == a.emotions[i]
  {
    TextRow(seg.start, seg.end, a.valence, a.arousal, Normalize(a.emotions))
  }

  /** The row one segment becomes, or the error its analysis raises. */
  function SegmentRow(lang: string, m: TextModels, seg: Segment): (r: Result<TextRow, PyError>)
    requires Renormalisable(lang, m, seg)
  {
    var a :- AnalyzeSegment(lang, m, seg);
    Success(RowOf(seg, a))
  }

  /** Every segment's row or error, in order. */
  function SegmentRows(segments: seq<Segment>, lang: string, m: TextModels): (rs: seq<Result<TextRow, PyError>>)
    requires forall i :: 0 <= i < |segments| ==> Renormalisable(lang, m, segments[i])
    ensures |rs| == |segments|
    ensures forall i :: 0 <= i < |segments| ==> rs[i] == SegmentRow(lang, m, segments[i])
  {
    seq(|segments|, i requires 0 <= i < |segments| => SegmentRow(lang, m, segments[i]))
  }

  /** The values of a run of results in order; the first failure ends the
      run with its error. */
  function Gather<T>(results: seq<Result<T, PyError>>): Result<seq<T>, PyError>
  {
    if |results| == 0 then Success([])
    else
      var before :- Gather(results[..|results| - 1]);
      var x :- results[|results| - 1];
      Success(before + [x])
  }

  /** One more result: its value is appended, or its error ends the run. */
  lemma GatherStep<T>(results: seq<Result<T, PyError>>, n: nat)
    requires n < |results|
    requires Gather(results[..n]).Success?
    ensures Gather(results[..n + 1]) ==
      if results[n].Success? then Success(Gather(results[..n]).value + [results[n].value])
      else Failure(results[n].error)
  {
    assert results[..n + 1][..n] == results[..n];
  }

  /** A failure after a successful prefix is the error of the whole run. */
  lemma GatherFailsAt<T>(results: seq<Result<T, PyError>>, i: nat)
    requires i < |results|
    requires Gather(results[..i]).Success? && results[i].Failure?
    ensures Gather(results) == Failure(results[i].error)
  {
    GatherStep(results, i);
    var n := i + 1;
    while n < |results|
      invariant i < n <= |results|
      invariant Gather(results[..n]) == Failure(results[i].error)
    {
      assert results[..n + 1][..n] == results[..n];
      n := n + 1;
    }
    assert results[..n] == results;
  }

  /** A run succeeds exactly when every result does, and then holds their
      values in order. */
  lemma {:induction false} GatherSuccess<T>(results: seq<Result<T, PyError>>)
    ensures Gather(results).Success? <==> forall i :: 0 <= i < |results| ==> results[i].Success?
    ensures Gather(results).Success? ==>
      && |Gather(results).value| == |results|
      && forall i :: 0 <= i < |results| ==> Gather(results).value[i] == results[i].value
  {
    if |results| > 0 {
      var init := results[..|results| - 1];
      GatherSuccess(init);
      assert forall i :: 0 <= i < |init| ==> init[i] == results[i];
    }
  }

  /** A failed run carries the error of its first failing result. */
  lemma {:induction false} GatherFailure<T>(results: seq<Result<T, PyError>>)
    ensures Gather(results).Failure? ==> exists i ::
      && 0 <= i < |results|
      && results[i] == Failure(Gather(results).error)
      && forall j :: 0 <= j < i ==> results[j].Success?
  {
    if |results| > 0 {
      var init := results[..|results| - 1];
      GatherFailure(init);
      GatherSuccess(init);
      assert forall i :: 0 <= i < |init| ==> init[i] == results[i];
    }
  }

  /** A segment's row exists exactly when its analysis succeeds, and is
      the renormalised analysis. */
  lemma SegmentRowSpec(lang: string, m: TextModels, seg: Segment)
    requires Renormalisable(lang, m, seg)
    ensures SegmentRow(lang, m, seg).Success? <==> AnalyzeSegment(lang, m, seg).Success?
    ensures SegmentRow(lang, m, seg).Failure? ==> SegmentRow(lang, m, seg).error == AnalyzeSegment(lang, m, seg).error
    ensures SegmentRow(lang, m, seg).Success? ==> SegmentRow(lang, m, seg).value == RowOf(seg, AnalyzeSegment(lang, m, seg).value)
  {
  }

  /** The stage succeeds exactly when every segment's analysis does. */
  lemma TextRowsSucceed(segments: seq<Segment>, lang: string, m: TextModels)
    requires forall i :: 0 <= i < |segments| ==> Renormalisable(lang, m, segments[i])
    ensures Gather(SegmentRows(segments, lang, m)).Success? <==>
      forall i :: 0 <= i < |segments| ==> AnalyzeSegment(lang, m, segments[i]).Success?
  {
    var rs := SegmentRows(segments, lang, m);
    GatherSuccess(rs);
    forall i | 0 <= i < |segments|
      ensures rs[i].Success? <==> AnalyzeSegment(lang, m, segments[i]).Success?
    {
      SegmentRowSpec(lang, m, segments[i]);
    }
  }

  /** A failed stage reports the error of the first segment that raised. */
  lemma TextRowsFirstFailure(segments: seq<Segment>, lang: string, m: TextModels)
    requires forall i :: 0 <= i < |segments| ==> Renormalisable(lang, m, segments[i])
    ensures var r := Gather(SegmentRows(segments, lang, m));
      r.Failure? ==> exists i ::
        && 0 <= i < |segments|
        && AnalyzeSegment(lang, m, segments[i]) == Failure(r.error)
        && forall j :: 0 <= j < i ==> AnalyzeSegment(lang, m, segments[j]).Success?
  {
    var rs := SegmentRows(segments, lang, m);
    var r := Gather(rs);
    GatherFailure(rs);
    if r.Failure? {
      var i :| 0 <= i < |rs| && rs[i] == Failure(r.error) && forall j :: 0 <= j < i ==> rs[j].Success?;
      SegmentRowSpec(lang, m, segments[i]);
      forall j | 0 <= j < i
        ensures AnalyzeSegment(lang, m, segments[j]).Success?
      {
        SegmentRowSpec(lang, m, segments[j]);
      }
    }
  }

  /** A successful stage holds one row per segment, in order, each its
      segment's renormalised analysis. */
  lemma TextRowsContent(segments: seq<Segment>, lang: string, m: TextModels)
    requires forall i :: 0 <= i < |segments| ==> Renormalisable(lang, m, segments[i])
    ensures var r := Gather(SegmentRows(segments, lang, m));
      r.Success? ==> |r.value| == |segments| && forall i :: 0 <= i < |segments| ==>
        && AnalyzeSegment(lang, m, segments[i]).Success?
        && r.value[i] == RowOf(segments[i], AnalyzeSegment(lang, m, segments[i]).value)
  {
    var rs := SegmentRows(segments, lang, m);
    GatherSuccess(rs);
    forall i | 0 <= i < |segments|
      ensures rs[i].Success? ==>
        && AnalyzeSegment(lang, m, segments[i]).Success?
        && rs[i].value == RowOf(segments[i], AnalyzeSegment(lang, m, segments[i]).value)
    {
      SegmentRowSpec(lang, m, segments[i]);
    }
  }

  /** `process_text_file` without the file system: one row per segment, in
      order; the first segment whose analysis raises ends the stage with
      that error. No progress message is sent. */
  method ProcessTextFile(segments: seq<Segment>, lang: string, m: TextModels) returns (r: Result<seq<TextRow>, PyError>)
    requires forall i :: 0 <= i < |segments| ==> Renormalisable(lang, m, segments[i])
    ensures r == Gather(SegmentRows(segments, lang, m))
    ensures r.Success? <==> forall i :: 0 <= i < |segments| ==> AnalyzeSegment(lang, m, segments[i]).Success?
    ensures r.Failure? ==> exists i ::
      && 0 <= i < |segments|
      && AnalyzeSegment(lang, m, segments[i]) == Failure(r.error)
      && forall j :: 0 <= j < i ==> AnalyzeSegment(lang, m, segments[j]).Success?
    ensures r.Success? ==> |r.value| == |segments| && forall i :: 0 <= i < |segments| ==>
      && AnalyzeSegment(lang, m, segments[i]).Success?
      && r.value[i] == RowOf(segments[i], AnalyzeSegment(lang, m, segments[i]).value)
  {
    var results := SegmentRows(segments, lang, m);
    TextRowsSucceed(segments, lang, m);
    TextRowsFirstFailure(segments, lang, m);
    TextRowsContent(segments, lang, m);
    var rows: seq<TextRow> := [];
    for i := 0 to |segments|
      invariant Gather(results[..i]) == Success(rows)
    {
      var row := SegmentRow(lang, m, segments[i]);
      if row.Failure? {
        GatherFailsAt(results, i);
        return Failure(row.error);
      }
      GatherStep(results, i);
      rows := rows + [row.value];
    }
    assert results[..|segments|] == results;
    return Success(rows);
  }

  /** An unsupported language only raises once a segment is analysed: an
      empty transcript yields an empty table whatever the language. */
  lemma UnsupportedLanguage(segments: seq<Segment>, lang: string, m: TextModels)
    requires lang != "zh" && lang != "en"
    ensures forall i :: 0 <= i < |segments| ==> AnalyzeSegment(lang, m, segments[i]) == Failure(ValueError(LanguageMessage))
  {
  }

  /** When the tokenizer produces `token_type_ids`, Chinese analysis raises
      exactly when the head does, with the head's error; its emotion sum is
      then the sum of the 26 BoLD scores. */
  lemma ZhRaisesOnlyInHead(m: TextModels, seg: Segment)
    requires m.tokenizeZh(Strip(seg.text)).tokenTypeIds.Some?
    ensures var out := m.zh(Truncate(m.tokenizeZh(Strip(seg.text))).value);
      && (AnalyzeSegment("zh", m, seg).Success? <==> out.Success?)
      && (out.Failure? ==> AnalyzeSegment("zh", m, seg) == Failure(out.error))
      && (out.Success? ==> Sum(AnalyzeSegment("zh", m, seg).value.emotions) == SumRange(out.value.emotion, 0, 26))
  {
  }

  /** A tokenizer without `token_type_ids` (RoBERTa's) makes every message
      of more than 512 tokens raise KeyError in either analyser. */
  lemma LongMessageWithoutTypeIdsRaises(lang: string, m: TextModels, seg: Segment)
    requires lang == "zh" || lang == "en"
    requires var t := if lang == "zh" then m.tokenizeZh(Strip(seg.text)) else m.tokenizeEn(Strip(seg.text));
      |t.inputIds| > MaxTokens && t.tokenTypeIds.None?
    ensures AnalyzeSegment(lang, m, seg) == Failure(KeyError(TokenTypeIdsKey))
  {
  }

  /** The two heads see the same stripped text: leading and trailing
      whitespace never changes a segment's analysis. */
  lemma AnalysisIgnoresSurroundingSpace(lang: string, m: TextModels, seg: Segment)
    ensures AnalyzeSegment(lang, m, Segment(seg.start, seg.end, Strip(seg.text))) == AnalyzeSegment(lang, m, seg)
  {
    StripIdempotent(seg.text);
  }
}

=== FILE: gen_visual_result.dfy ===
/** The visual stage: every frame's confidently detected faces are cropped,
    scored by the external recogniser and emitted as one row each, with a
    progress report every 100 frames. The detector and the recogniser are
    inputs, and either may raise. */
module VisualResult {
  import opened Wrappers
  import opened Numeric
  import opened LabelSpaceMapping
  import opened Progress
  import opened FaceDetector

  const CommunicationVisualStep := 100

  /** A decoded frame: its size in pixels and its content, which only the
      external models look at. */
  datatype Frame = Frame(height: nat, width: nat, pixels: seq<int>)

  /** `frame[top:bottom, left:right]`, the image handed to the recogniser. */
  datatype FaceCrop = FaceCrop(frame: Frame, top: int, bottom: int, left: int, right: int)

  /** One output row. */
  datatype FaceRow = FaceRow(
    frame: nat, x1: int, y1: int, x2: int, y2: int, boxProb: real,
    emotions: seq<real>, valence: int, arousal: int)

  function MaxInt(a: int, b: int): int
  {
    if a >= b then a else b
  }

  /** A Python slice bound on a sequence of length n: a negative bound counts
      from the end, and the result is clamped to [0, n]. */
  function SliceBound(n: nat, b: int): (r: nat)
    ensures r <= n
    ensures 0 <= b <= n ==> r == b
  {
    if b < 0 then (if b + n < 0 then 0 else b + n)
    else if b > n then n
    else b
  }

  /** The length of `s[start:stop]` for a sequence of length n. */
  function SliceLength(n: nat, start: int, stop: int): (len: nat)
    ensures len <= n
    ensures 0 <= start <= stop <= n ==> len == stop - start
  {
    var a := SliceBound(n, start);
    var b := SliceBound(n, stop);
    if b <= a then 0 else b - a
  }

  /** The number of rows of the face crop: only the top edge is clamped at
      0, the bottom edge follows slicing rules (a negative bottom counts from
      the end of the frame). */
  function CropRows(frame: Frame, y1: int, y2: int): nat
  {
    SliceLength(frame.height, MaxInt(0, y1), y2)
  }

  /** Slicing reads a negative bottom edge from the end of the frame, so a
      box lying above the frame still yields rows. */
  lemma CropRowsExamples(pixels: seq<int>)
    ensures CropRows(Frame(100, 100, pixels), -5, 40) == 40
    ensures CropRows(Frame(100, 100, pixels), 60, 40) == 0
    ensures CropRows(Frame(100, 100, pixels), 90, 150) == 10
    ensures CropRows(Frame(100, 100, pixels), -20, -1) == 99
  {
  }

  /** The detector keeps its promise of one probability per box whenever it
      finds something. */
  ghost predicate DetectorValid(detect: Frame -> Result<Option<Detection>, PyError>)
  {
    forall f :: detect(f).Success? && detect(f).value.Some? ==>
      |detect(f).value.value.boxes| == |detect(f).value.value.probs|
  }

  /** The recogniser's scores never have an all-zero emotion part, so the
      unguarded renormalisation is defined. */
  ghost predicate RecogniserValid(predict: FaceCrop -> Result<seq<real>, PyError>)
  {
    forall c :: predict(c).Success? && |predict(c).value| >= 10 ==> Sum(AffectnetToMain(predict(c).value)) != 0.0
  }

  /** The per-face values: emotions are the AffectNet classes grouped and
      renormalised; valence and arousal are scores 8 and 9 rescaled from
      [-1, 1] to [1, 1000] and truncated toward zero. Fewer than ten scores
      raise IndexError. */
  function FaceValues(scores: seq<real>): (r: Result<(seq<real>, int, int), PyError>)
    requires |scores| >= 10 ==> Sum(AffectnetToMain(scores)) != 0.0
    ensures r.Failure? <==> |scores| < 10
    ensures r.Failure? ==> r.error == IndexError
    ensures r.Success? ==>
      && r.value.0 == Normalize(AffectnetToMain(scores))
      && r.value.1 == Trunc(AffectnetToMainValence(scores[8]).value)
      && r.value.2 == Trunc(AffectnetToMainArousal(scores[9]).value)
    ensures r.Success? ==> |r.value.0| == SlotCount && Sum(r.value.0) == 1.0
    ensures r.Success? ==> -1.0 <= scores[8] <= 1.0 ==> 1 <= r.value.1 <= 1000
    ensures r.Success? ==> -1.0 <= scores[9] <= 1.0 ==> 1 <= r.value.2 <= 1000
  {
    if |scores| < 10 then Failure(IndexError)
    else
      var valence := AffectnetToMainValence(scores[8]).value;
      var arousal := AffectnetToMainArousal(scores[9]).value;
      CanonicalBounds(scores[8]);
      CanonicalBounds(scores[9]);
      Success((Normalize(AffectnetToMain(scores)), Trunc(valence), Trunc(arousal)))
  }

  lemma CanonicalBounds(s: real)
    ensures -1.0 <= s <= 1.0 ==> 1.0 <= AffectnetToMainValence(s).value <= 1000.0
    ensures -1.0 <= s <= 1.0 ==> 1.0 <= AffectnetToMainArousal(s).value <= 1000.0
  {
  }

  /** The crop of a box with truncated corners: the top and left edges
      clamped at 0, the bottom and right edges as they are. */
  function CropOf(frame: Frame, box: Box): FaceCrop
  {
    FaceCrop(frame, MaxInt(0, Trunc(box.y1)), Trunc(box.y2), MaxInt(0, Trunc(box.x1)), Trunc(box.x2))
  }

  /** One kept box of frame i: truncate the coordinates, skip the face when
      its crop has no rows, otherwise score the crop and build the row. */
  function BoxRow(i: nat, frame: Frame, box: Box, prob: real, predict: FaceCrop -> Result<seq<real>, PyError>): (r: Result<Option<FaceRow>, PyError>)
    requires RecogniserValid(predict)
    ensures r.Success? && r.value.Some? ==>
      && r.value.value.frame == i && r.value.value.boxProb == prob
      && r.value.value.x1 == Trunc(box.x1) && r.value.value.y1 == Trunc(box.y1)
      && r.value.value.x2 == Trunc(box.x2) && r.value.value.y2 == Trunc(box.y2)
      && Sum(r.value.value.emotions) == 1.0
    ensures CropRows(frame, Trunc(box.y1), Trunc(box.y2)) == 0 ==> r == Success(None)
    ensures CropRows(frame, Trunc(box.y1), Trunc(box.y2)) != 0 ==>
      var scores := predict(CropOf(frame, box));
      && (r.Failure? <==> scores.Failure? || |scores.value| < 10)
      && (scores.Failure? ==> r == Failure(scores.error))
      && (scores.Success? && |scores.value| < 10 ==> r == Failure(IndexError))
      && (r.Success? ==>
            && r.value.Some?
            && var values := FaceValues(scores.value).value;
            && r.value.value.emotions == values.0
            && r.value.value.valence == values.1
            && r.value.value.arousal == values.2)
  {
    var x1 := Trunc(box.x1);
    var y1 := Trunc(box.y1);
    var x2 := Trunc(box.x2);
    var y2 := Trunc(box.y2);
    if CropRows(frame, y1, y2) == 0 then Success(None)
    else
      var scores :- predict(CropOf(frame, box));
      var values :- FaceValues(scores);
      Success(Some(FaceRow(i, x1, y1, x2, y2, prob, values.0, values.1, values.2)))
  }

  /** The rows so far extended by one box's outcome: a box that raised ends
      the frame with its error, a skipped box adds nothing. */
  function Extend(before: Result<seq<FaceRow>, PyError>, row: Result<Option<FaceRow>, PyError>): Result<seq<FaceRow>, PyError>
  {
    var rows :- before;
    var r :- row;
    match r
    case None => Success(rows)
    case Some(x) => Success(rows + [x])
  }

  /** The rows of frame i from its first m kept boxes, box j carrying the
      probability `boxProbs[j]`. */
  function FrameRows(i: nat, frame: Frame, boxes: seq<Box>, boxProbs: seq<real>, predict: FaceCrop -> Result<seq<real>, PyError>, m: nat): Result<seq<FaceRow>, PyError>
    requires RecogniserValid(predict)
    requires m <= |boxes| == |boxProbs|
  {
    if m == 0 then Success([])
    else Extend(FrameRows(i, frame, boxes, boxProbs, predict, m - 1), BoxRow(i, frame, boxes[m - 1], boxProbs[m - 1], predict))
  }

  /** The probabilities of the kept boxes, aligned with them. */
  function KeptProbs(probs: seq<real>, threshold: real): (kept: seq<real>)
    ensures |kept| == |KeptIndices(probs, threshold)|
    ensures forall k :: 0 <= k < |kept| ==> kept[k] > threshold
  {
    KeptIndicesSpec(probs, threshold);
    var ks := KeptIndices(probs, threshold);
    seq(|ks|, k requires 0 <= k < |ks| => probs[ks[k]])
  }

  /** All rows of frame i as the stage computes them: detection, the
      threshold filter, then each kept box in the detector's order. Kept box
      j is paired with entry j of the unfiltered probabilities, which
      belongs to another box once a dropped box precedes a kept one. */
  function FrameFaces(i: nat, frame: Frame, detect: Frame -> Result<Option<Detection>, PyError>, predict: FaceCrop -> Result<seq<real>, PyError>): Result<seq<FaceRow>, PyError>
    requires DetectorValid(detect) && RecogniserValid(predict)
  {
    var found :- detect(frame);
    var detected := DetectFace(found, DefaultThreshold);
    match found
    case None => Success([])
    case Some(d) =>
      FrameRows(i, frame, detected.boxes, d.probs[..|detected.boxes|], predict, |detected.boxes|)
  }

  /** The evidently intended pairing: each kept box carries its own
      probability. */
  function FrameFacesCorrected(i: nat, frame: Frame, detect: Frame -> Result<Option<Detection>, PyError>, predict: FaceCrop -> Result<seq<real>, PyError>): Result<seq<FaceRow>, PyError>
    requires DetectorValid(detect) && RecogniserValid(predict)
  {
    var found :- detect(frame);
    var detected := DetectFace(found, DefaultThreshold);
    match found
    case None => Success([])
    case Some(d) =>
      MaskSelectsKept(d.boxes, d.probs, DefaultThreshold);
      var probs := KeptProbs(d.probs, DefaultThreshold);
      FrameRows(i, frame, detected.boxes, probs, predict, |detected.boxes|)
  }

  /** A detector that finds two boxes, the first below the threshold. */
  function TwoBoxDetector(f: Frame): Result<Option<Detection>, PyError>
  {
    Success(Some(Detection([Box(0.0, 0.0, 10.0, 10.0), Box(20.0, 20.0, 40.0, 40.0)], [0.5, 0.95])))
  }

  /** A recogniser that gives every crop the same answer. */
  function OneHotRecogniser(c: FaceCrop): Result<seq<real>, PyError>
  {
    Success(OneHotScores())
  }

  /** The example detector and recogniser meet the models' contracts. */
  lemma ExampleModelsValid()
    ensures DetectorValid(TwoBoxDetector) && RecogniserValid(OneHotRecogniser)
  {
    OneHotScoresRenormalisable();
  }

  /** Of the example's two boxes only the second is kept. */
  lemma TwoBoxKeepsSecond(frame: Frame)
    ensures DetectFace(TwoBoxDetector(frame).value, DefaultThreshold).boxes == [Box(20.0, 20.0, 40.0, 40.0)]
    ensures KeptProbs([0.5, 0.95], DefaultThreshold) == [0.95]
  {
    var a := Box(0.0, 0.0, 10.0, 10.0);
    var b := Box(20.0, 20.0, 40.0, 40.0);
    var probs := [0.5, 0.95];
    assert [a, b][..1] == [a];
    assert [a][..0] == [];
    assert probs[..1] == [0.5];
    assert [0.5][..0] == [];
    assert Mask([a], [0.5], DefaultThreshold) == [];
    assert Mask([a, b], probs, DefaultThreshold) == [b];
    assert KeptIndices([0.5], DefaultThreshold) == [];
    assert KeptIndices(probs, DefaultThreshold) == [1];
  }

  /** The second box alone, paired with probability p, gives one row that
      reports p. */
  lemma SecondBoxRow(p: real)
    ensures var r := FrameRows(0, Frame(100, 100, []), [Box(20.0, 20.0, 40.0, 40.0)], [p], OneHotRecogniser, 1);
      r.Success? && |r.value| == 1 && r.value[0].boxProb == p
  {
    var b := Box(20.0, 20.0, 40.0, 40.0);
    var frame := Frame(100, 100, []);
    ExampleModelsValid();
    assert Trunc(20.0) == 20 && Trunc(40.0) == 40;
    assert CropRows(frame, 20, 40) == 20;
    var row := BoxRow(0, frame, b, p, OneHotRecogniser);
    assert row.Success? && row.value.Some? && row.value.value.boxProb == p;
    assert FrameRows(0, frame, [b], [p], OneHotRecogniser, 0) == Success([]);
    assert [b][0] == b && [p][0] == p;
    assert [] + [row.value.value] == [row.value.value];
  }

  /** With probabilities [0.5, 0.95] only the second box is kept; as written
      its row reports 0.5, the dropped box's probability and below the
      threshold. */
  lemma BoxProbAsWritten()
    ensures DetectorValid(TwoBoxDetector) && RecogniserValid(OneHotRecogniser)
    ensures var written := FrameFaces(0, Frame(100, 100, []), TwoBoxDetector, OneHotRecogniser);
      written.Success? && |written.value| == 1 && written.value[0].boxProb == 0.5
  {
    ExampleModelsValid();
    TwoBoxKeepsSecond(Frame(100, 100, []));
    assert [0.5, 0.95][..1] == [0.5];
    SecondBoxRow(0.5);
  }

  /** On the same frame the corrected pairing reports the kept box's own
      probability, 0.95. */
  lemma BoxProbCorrected()
    ensures DetectorValid(TwoBoxDetector) && RecogniserValid(OneHotRecogniser)
    ensures var fixed := FrameFacesCorrected(0, Frame(100, 100, []), TwoBoxDetector, OneHotRecogniser);
      fixed.Success? && |fixed.value| == 1 && fixed.value[0].boxProb == 0.95
  {
    ExampleModelsValid();
    TwoBoxKeepsSecond(Frame(100, 100, []));
    SecondBoxRow(0.95);
  }

  /** A recogniser answer whose emotion part is all on the first class. */
  function OneHotScores(): (s: seq<real>)
    ensures |s| == 10 && s[0] == 1.0
  {
    [1.0, 0.0, 0.0, 0.0, 0.0, 0.0, 0.0, 0.0, 0.0, 0.0]
  }

  lemma OneHotScoresRenormalisable()
    ensures Sum(AffectnetToMain(OneHotScores())) == 1.0
  {
    SumOfNine(AffectnetToMain(OneHotScores()));
  }

  /** The rows of one frame so far: at most one per box, each of frame i,
      with one of the given probabilities and emotions summing to 1. */
  predicate RowsFrom(rows: seq<FaceRow>, i: nat, probs: seq<real>)
  {
    && |rows| <= |probs|
    && forall k :: 0 <= k < |rows| ==>
      rows[k].frame == i && rows[k].boxProb in probs && Sum(rows[k].emotions) == 1.0
  }

  /** One more box: its row, if any, carries the box's probability, so the
      rows stay rows of frame i from the longer run of probabilities. */
  lemma ExtendRowsFrom(before: Result<seq<FaceRow>, PyError>, row: Result<Option<FaceRow>, PyError>, i: nat, probs: seq<real>)
    requires |probs| > 0
    requires before.Success? ==> RowsFrom(before.value, i, probs[..|probs| - 1])
    requires row.Success? && row.value.Some? ==>
      row.value.value.frame == i && row.value.value.boxProb == probs[|probs| - 1] && Sum(row.value.value.emotions) == 1.0
    ensures Extend(before, row).Success? ==> RowsFrom(Extend(before, row).value, i, probs)
  {
    assert forall x :: x in probs[..|probs| - 1] ==> x in probs;
  }

  /** Every row of a frame belongs to that frame and carries the probability
      paired with one of its first m boxes. */
  lemma {:induction false} FrameRowsSpec(i: nat, frame: Frame, boxes: seq<Box>, boxProbs: seq<real>, predict: FaceCrop -> Result<seq<real>, PyError>, m: nat)
    requires RecogniserValid(predict)
    requires m <= |boxes| == |boxProbs|
    ensures var r := FrameRows(i, frame, boxes, boxProbs, predict, m);
      r.Success? ==> RowsFrom(r.value, i, boxProbs[..m])
  {
    if m > 0 {
      FrameRowsSpec(i, frame, boxes, boxProbs, predict, m - 1);
      assert boxProbs[..m][..m - 1] == boxProbs[..m - 1];
      ExtendRowsFrom(FrameRows(i, frame, boxes, boxProbs, predict, m - 1), BoxRow(i, frame, boxes[m - 1], boxProbs[m - 1], predict), i, boxProbs[..m]);
    }
  }

  /** A row with its box probability blanked: what both pairings agree on. */
  function Unlabelled(row: FaceRow): FaceRow
  {
    row.(boxProb := 0.0)
  }

  /** Two runs of rows that are the same faces, whatever probabilities
      they report. */
  predicate SameFaces(a: seq<FaceRow>, b: seq<FaceRow>)
  {
    |a| == |b| && forall k :: 0 <= k < |a| ==> Unlabelled(a[k]) == Unlabelled(b[k])
  }

  /** Two outcomes of scoring one box that are the same face: the same
      success, the same error, and the same row but for its probability. */
  predicate SameBoxRow(a: Result<Option<FaceRow>, PyError>, b: Result<Option<FaceRow>, PyError>)
  {
    && (a.Success? <==> b.Success?)
    && (a.Failure? ==> a.error == b.error)
    && (a.Success? ==> (a.value.Some? <==> b.value.Some?))
    && (a.Success? && a.value.Some? ==> Unlabelled(a.value.value) == Unlabelled(b.value.value))
  }

  /** Two outcomes for a frame's rows that are the same faces: the same
      success, the same error, and the same rows but for their
      probabilities. */
  predicate SameFrameRows(a: Result<seq<FaceRow>, PyError>, b: Result<seq<FaceRow>, PyError>)
  {
    && (a.Success? <==> b.Success?)
    && (a.Failure? ==> a.error == b.error)
    && (a.Success? ==> SameFaces(a.value, b.value))
  }

  /** One box scored under two probabilities gives the same face. */
  lemma BoxRowProbOnlyLabel(i: nat, frame: Frame, box: Box, p: real, q: real, predict: FaceCrop -> Result<seq<real>, PyError>)
    requires RecogniserValid(predict)
    ensures SameBoxRow(BoxRow(i, frame, box, p, predict), BoxRow(i, frame, box, q, predict))
  {
  }

  /** Extending the same faces by the same face gives the same faces. */
  lemma ExtendSameFaces(a: Result<seq<FaceRow>, PyError>, b: Result<seq<FaceRow>, PyError>, ra: Result<Option<FaceRow>, PyError>, rb: Result<Option<FaceRow>, PyError>)
    requires SameFrameRows(a, b) && SameBoxRow(ra, rb)
    ensures SameFrameRows(Extend(a, ra), Extend(b, rb))
  {
    if a.Success? && ra.Success? && ra.value.Some? {
      SameFacesAppend(a.value, b.value, ra.value.value, rb.value.value);
    }
  }

  /** Appending the same face to the same faces keeps them the same. */
  lemma SameFacesAppend(a: seq<FaceRow>, b: seq<FaceRow>, x: FaceRow, y: FaceRow)
    requires SameFaces(a, b) && Unlabelled(x) == Unlabelled(y)
    ensures SameFaces(a + [x], b + [y])
  {
  }

  /** Two runs of probabilities for the same boxes give the same outcome,
      the same error and the same rows but for their box probabilities. */
  lemma {:induction false} FrameRowsProbsOnlyLabel(i: nat, frame: Frame, boxes: seq<Box>, p: seq<real>, q: seq<real>, predict: FaceCrop -> Result<seq<real>, PyError>, m: nat)
    requires RecogniserValid(predict)
    requires m <= |boxes| == |p| == |q|
    ensures SameFrameRows(FrameRows(i, frame, boxes, p, predict, m), FrameRows(i, frame, boxes, q, predict, m))
  {
    if m > 0 {
      FrameRowsProbsOnlyLabel(i, frame, boxes, p, q, predict, m - 1);
      var ra := BoxRow(i, frame, boxes[m - 1], p[m - 1], predict);
      var rb := BoxRow(i, frame, boxes[m - 1], q[m - 1], predict);
      BoxRowProbOnlyLabel(i, frame, boxes[m - 1], p[m - 1], q[m - 1], predict);
      ExtendSameFaces(FrameRows(i, frame, boxes, p, predict, m - 1), FrameRows(i, frame, boxes, q, predict, m - 1), ra, rb);
    }
  }

  /** The rows of a run of per-frame results, in order; the first result
      that failed ends the run with its error. */
  function Collect(results: seq<Result<seq<FaceRow>, PyError>>): Result<seq<FaceRow>, PyError>
  {
    if |results| == 0 then Success([])
    else
      var before :- Collect(results[..|results| - 1]);
      var rows :- results[|results| - 1];
      Success(before + rows)
  }

  /** Every frame's result, frame i with index i. */
  function PerFrame(frames: seq<Frame>, detect: Frame -> Result<Option<Detection>, PyError>, predict: FaceCrop -> Result<seq<real>, PyError>): (r: seq<Result<seq<FaceRow>, PyError>>)
    requires DetectorValid(detect) && RecogniserValid(predict)
    ensures |r| == |frames|
    ensures forall i :: 0 <= i < |frames| ==> r[i] == FrameFaces(i, frames[i], detect, predict)
  {
    seq(|frames|, i requires 0 <= i < |frames| => FrameFaces(i, frames[i], detect, predict))
  }

  /** The rows of frames 0 .. m-1, frame by frame; the first frame that
      raises ends the stage. */
  function VideoRows(frames: seq<Frame>, detect: Frame -> Result<Option<Detection>, PyError>, predict: FaceCrop -> Result<seq<real>, PyError>, m: nat): Result<seq<FaceRow>, PyError>
    requires DetectorValid(detect) && RecogniserValid(predict)
    requires m <= |frames|
  {
    Collect(PerFrame(frames, detect, predict)[..m])
  }

  /** A run succeeds exactly when each of its results does. */
  lemma {:induction false} CollectSuccess(results: seq<Result<seq<FaceRow>, PyError>>)
    ensures Collect(results).Success? <==> forall i :: 0 <= i < |results| ==> results[i].Success?
  {
    if |results| > 0 {
      var init := results[..|results| - 1];
      CollectSuccess(init);
      assert forall i :: 0 <= i < |init| ==> init[i] == results[i];
    }
  }

  /** One more result: the rows grow by its rows, or its error ends the
      run. */
  lemma CollectStep(results: seq<Result<seq<FaceRow>, PyError>>, m: nat)
    requires m < |results|
    requires Collect(results[..m]).Success?
    ensures Collect(results[..m + 1]) ==
      if results[m].Success? then Success(Collect(results[..m]).value + results[m].value)
      else Failure(results[m].error)
  {
    assert results[..m + 1][..m] == results[..m];
  }

  /** After a failing result every longer run fails with its error. */
  lemma CollectFailsAt(results: seq<Result<seq<FaceRow>, PyError>>, i: nat)
    requires i < |results|
    requires Collect(results[..i]).Success? && results[i].Failure?
    ensures forall m :: i < m <= |results| ==> Collect(results[..m]) == Failure(results[i].error)
  {
    CollectStep(results, i);
    var m := i + 1;
    while m < |results|
      invariant i < m <= |results|
      invariant forall m' :: i < m' <= m ==> Collect(results[..m']) == Failure(results[i].error)
    {
      assert results[..m + 1][..m] == results[..m];
      m := m + 1;
    }
  }

  /** A frame's result, when it succeeds, holds rows of frame i only. */
  predicate RowsOfFrame(result: Result<seq<FaceRow>, PyError>, i: nat)
  {
    result.Success? ==> forall k :: 0 <= k < |result.value| ==> result.value[k].frame == i
  }

  /** When result i holds rows of frame i only, the collected rows are
      ordered by frame and below the run's length. */
  lemma {:induction false} CollectOrdered(results: seq<Result<seq<FaceRow>, PyError>>)
    requires forall i :: 0 <= i < |results| ==> RowsOfFrame(results[i], i)
    ensures var r := Collect(results);
      r.Success? ==>
        && (forall k :: 0 <= k < |r.value| ==> r.value[k].frame < |results|)
        && (forall k, l :: 0 <= k < l < |r.value| ==> r.value[k].frame <= r.value[l].frame)
  {
    if |results| > 0 {
      var init := results[..|results| - 1];
      assert forall i :: 0 <= i < |init| ==> init[i] == results[i];
      CollectOrdered(init);
      var r := Collect(results);
      if r.Success? {
        assert RowsOfFrame(results[|results| - 1], |results| - 1);
        AppendFrameRows(Collect(init).value, results[|results| - 1].value, |results| - 1);
      }
    }
  }

  /** The same for the first m results of a longer run. */
  lemma CollectOrderedPrefix(all: seq<Result<seq<FaceRow>, PyError>>, m: nat)
    requires m <= |all|
    requires forall i :: 0 <= i < |all| ==> RowsOfFrame(all[i], i)
    ensures var r := Collect(all[..m]);
      r.Success? ==>
        && (forall k :: 0 <= k < |r.value| ==> r.value[k].frame < m)
        && (forall k, l :: 0 <= k < l < |r.value| ==> r.value[k].frame <= r.value[l].frame)
  {
    var results := all[..m];
    assert forall i :: 0 <= i < m ==> results[i] == all[i];
    CollectOrdered(results);
  }

  /** Every frame's result holds rows of that frame only. */
  lemma PerFrameRows(frames: seq<Frame>, detect: Frame -> Result<Option<Detection>, PyError>, predict: FaceCrop -> Result<seq<real>, PyError>)
    requires DetectorValid(detect) && RecogniserValid(predict)
    ensures var results := PerFrame(frames, detect, predict);
      forall i :: 0 <= i < |frames| ==> RowsOfFrame(results[i], i)
  {
    forall i | 0 <= i < |frames|
      ensures RowsOfFrame(FrameFaces(i, frames[i], detect, predict), i)
    {
      FrameFacesSpec(i, frames[i], detect, predict);
    }
  }

  /** The first m frames all succeed exactly when VideoRows succeeds. */
  lemma VideoRowsSuccess(frames: seq<Frame>, detect: Frame -> Result<Option<Detection>, PyError>, predict: FaceCrop -> Result<seq<real>, PyError>, m: nat)
    requires DetectorValid(detect) && RecogniserValid(predict)
    requires m <= |frames|
    ensures VideoRows(frames, detect, predict, m).Success? <==>
      forall i :: 0 <= i < m ==> FrameFaces(i, frames[i], detect, predict).Success?
  {
    var results := PerFrame(frames, detect, predict)[..m];
    CollectSuccess(results);
    assert forall i :: 0 <= i < m ==> results[i] == FrameFaces(i, frames[i], detect, predict);
  }

  /** Rows come ordered by frame index, and every row of a successful run
      has a frame index below m. */
  lemma VideoRowsOrdered(frames: seq<Frame>, detect: Frame -> Result<Option<Detection>, PyError>, predict: FaceCrop -> Result<seq<real>, PyError>, m: nat)
    requires DetectorValid(detect) && RecogniserValid(predict)
    requires m <= |frames|
    ensures var r := VideoRows(frames, detect, predict, m);
      r.Success? ==>
        && (forall k :: 0 <= k < |r.value| ==> r.value[k].frame < m)
        && (forall k, l :: 0 <= k < l < |r.value| ==> r.value[k].frame <= r.value[l].frame)
  {
    PerFrameRows(frames, detect, predict);
    CollectOrderedPrefix(PerFrame(frames, detect, predict), m);
  }

  /** Appending the rows of frame i to ordered rows of earlier frames keeps
      them ordered. */
  lemma AppendFrameRows(before: seq<FaceRow>, rows: seq<FaceRow>, i: nat)
    requires forall k :: 0 <= k < |before| ==> before[k].frame < i
    requires forall k, l :: 0 <= k < l < |before| ==> before[k].frame <= before[l].frame
    requires forall k :: 0 <= k < |rows| ==> rows[k].frame == i
    ensures var all := before + rows;
      && (forall k :: 0 <= k < |all| ==> all[k].frame < i + 1)
      && (forall k, l :: 0 <= k < l < |all| ==> all[k].frame <= all[l].frame)
  {
    var all := before + rows;
    assert forall k :: |before| <= k < |all| ==> all[k] == rows[k - |before|];
  }

  /** As written, a detector exception is re-raised, and a frame's rows all
      carry its index, at most one per kept box, emotions summing to 1, and
      a probability the detector reported for that frame, though not
      necessarily the row's own box's. */
  lemma FrameFacesSpec(i: nat, frame: Frame, detect: Frame -> Result<Option<Detection>, PyError>, predict: FaceCrop -> Result<seq<real>, PyError>)
    requires DetectorValid(detect) && RecogniserValid(predict)
    ensures detect(frame).Failure? ==> FrameFaces(i, frame, detect, predict) == Failure(detect(frame).error)
    ensures var r := FrameFaces(i, frame, detect, predict);
      r.Success? ==>
        && detect(frame).Success?
        && |r.value| <= |DetectFace(detect(frame).value, DefaultThreshold).boxes|
        && forall k :: 0 <= k < |r.value| ==>
          && r.value[k].frame == i && Sum(r.value[k].emotions) == 1.0
          && detect(frame).value.Some? && r.value[k].boxProb in detect(frame).value.value.probs
  {
    if detect(frame).Success? && detect(frame).value.Some? {
      var found := detect(frame).value;
      var d := found.value;
      var boxes := DetectFace(found, DefaultThreshold).boxes;
      var probs := d.probs[..|boxes|];
      FrameRowsSpec(i, frame, boxes, probs, predict, |boxes|);
      assert probs[..|boxes|] == probs;
      assert forall x :: x in probs ==> x in d.probs;
    }
  }

  /** With the corrected pairing every row comes from a box whose own
      probability is above the threshold. */
  lemma FrameFacesCorrectedSpec(i: nat, frame: Frame, detect: Frame -> Result<Option<Detection>, PyError>, predict: FaceCrop -> Result<seq<real>, PyError>)
    requires DetectorValid(detect) && RecogniserValid(predict)
    ensures var r := FrameFacesCorrected(i, frame, detect, predict);
      r.Success? ==> forall k :: 0 <= k < |r.value| ==>
        r.value[k].frame == i && r.value[k].boxProb > DefaultThreshold && Sum(r.value[k].emotions) == 1.0
  {
    if detect(frame).Success? && detect(frame).value.Some? {
      var found := detect(frame).value;
      var d := found.value;
      MaskSelectsKept(d.boxes, d.probs, DefaultThreshold);
      var boxes := DetectFace(found, DefaultThreshold).boxes;
      var probs := KeptProbs(d.probs, DefaultThreshold);
      FrameRowsSpec(i, frame, boxes, probs, predict, |boxes|);
      assert probs[..|boxes|] == probs;
    }
  }

  /** The two pairings differ only in the probability they report: the same
      frames raise the same errors, and the rows are the same faces with the
      same scores. */
  lemma PairingsAgree(i: nat, frame: Frame, detect: Frame -> Result<Option<Detection>, PyError>, predict: FaceCrop -> Result<seq<real>, PyError>)
    requires DetectorValid(detect) && RecogniserValid(predict)
    ensures var a := FrameFaces(i, frame, detect, predict);
      var b := FrameFacesCorrected(i, frame, detect, predict);
      && (a.Success? <==> b.Success?)
      && (a.Failure? ==> a.error == b.error)
      && (a.Success? ==> |a.value| == |b.value| && SameFaces(a.value, b.value))
  {
    if detect(frame).Success? && detect(frame).value.Some? {
      var found := detect(frame).value;
      var d := found.value;
      MaskSelectsKept(d.boxes, d.probs, DefaultThreshold);
      var boxes := DetectFace(found, DefaultThreshold).boxes;
      FrameRowsProbsOnlyLabel(i, frame, boxes, d.probs[..|boxes|], KeptProbs(d.probs, DefaultThreshold), predict, |boxes|);
    }
  }

  /** The opening message of the stage. */
  function VisualStartEvents(fps: real): seq<Event>
  {
    [Send(VisualStart, FrameRate(fps)), Ack]
  }

  /** The frame count the progress reports are measured against:
      `math.ceil(fps * duration)`. */
  function FrameTotal(fps: real, duration: real): int
  {
    Ceil(fps * duration)
  }

  /** The events of the visual stage once `frames` frames are reported. */
  function VisualEvents(fps: real, duration: real, frames: nat): seq<Event>
  {
    VisualStartEvents(fps) + Paced(VisualAnalysis, Visual, CommunicationVisualStep, frames, FrameTotal(fps, duration))
  }

  /** `process_video_file` without the file system and the socket: announce
      the frame rate, then process frames in order, reporting after every
      100th frame against a total of ceil(fps * duration). The first frame
      that raises ends the stage with its error, after the reports of the
      frames before it; `processed` counts the frames that completed. */
  method ProcessVideoFile(fps: real, duration: real, frames: seq<Frame>, detect: Frame -> Result<Option<Detection>, PyError>, predict: FaceCrop -> Result<seq<real>, PyError>)
    returns (result: Result<seq<FaceRow>, PyError>, processed: nat, events: seq<Event>)
    requires DetectorValid(detect) && RecogniserValid(predict)
    ensures result == VideoRows(frames, detect, predict, |frames|)
    ensures processed <= |frames|
    ensures events == VisualEvents(fps, duration, processed)
    ensures result.Success? <==> processed == |frames|
    ensures result.Failure? ==>
      && VideoRows(frames, detect, predict, processed).Success?
      && FrameFaces(processed, frames[processed], detect, predict) == Failure(result.error)
  {
    var total := FrameTotal(fps, duration);
    events := VisualStartEvents(fps);
    var rows: seq<FaceRow> := [];
    for i := 0 to |frames|
      invariant VideoRows(frames, detect, predict, i) == Success(rows)
      invariant events == VisualEvents(fps, duration, i)
    {
      var faces := FrameFaces(i, frames[i], detect, predict);
      if faces.Failure? {
        VideoRowsFailsAt(frames, detect, predict, i);
        return Failure(faces.error), i, events;
      }
      CollectStep(PerFrame(frames, detect, predict), i);
      rows := rows + faces.value;
      events := events + UnitEvents(VisualAnalysis, Visual, CommunicationVisualStep, i, total);
    }
    result := Success(rows);
    processed := |frames|;
  }

  /** Once the frames before i succeed and frame i raises, the whole run
      raises that error. */
  lemma VideoRowsFailsAt(frames: seq<Frame>, detect: Frame -> Result<Option<Detection>, PyError>, predict: FaceCrop -> Result<seq<real>, PyError>, i: nat)
    requires DetectorValid(detect) && RecogniserValid(predict)
    requires i < |frames|
    requires VideoRows(frames, detect, predict, i).Success?
    requires FrameFaces(i, frames[i], detect, predict).Failure?
    ensures forall m :: i < m <= |frames| ==>
      VideoRows(frames, detect, predict, m) == Failure(FrameFaces(i, frames[i], detect, predict).error)
  {
    CollectFailsAt(PerFrame(frames, detect, predict), i);
  }
}

=== FILE: grouping.dfy ===
/** An insertion-ordered multimap: Python's OrderedDict of lists and
    JavaScript's Map of arrays, both filled by "append to the key's list,
    creating it at the end if missing". */
module Grouping {

  /** One key and the values appended under it, oldest first. */
  datatype Group<K, V> = Group(key: K, members: seq<V>)

  function Keys<K, V>(gs: seq<Group<K, V>>): (ks: seq<K>)
    ensures |ks| == |gs|
    ensures forall i :: 0 <= i < |gs| ==> ks[i] == gs[i].key
  {
    seq(|gs|, i requires 0 <= i < |gs| => gs[i].key)
  }

  ghost predicate Distinct<K>(ks: seq<K>)
  {
    forall i, j :: 0 <= i < j < |ks| ==> ks[i] != ks[j]
  }

  /** The members stored under `k`, or the empty list when `k` is absent
      (the first group with that key wins, and keys are distinct anyway). */
  function MembersOf<K(==), V>(gs: seq<Group<K, V>>, k: K): seq<V>
  {
    if |gs| == 0 then []
    else if gs[0].key == k then gs[0].members
    else MembersOf(gs[1..], k)
  }

  /** Appends `v` to the list under `k`, or adds a new group `[v]` at the end. */
  function Add<K(==), V>(gs: seq<Group<K, V>>, k: K, v: V): seq<Group<K, V>>
  {
    if |gs| == 0 then [Group(k, [v])]
    else if gs[0].key == k then [Group(k, gs[0].members + [v])] + gs[1..]
    else [gs[0]] + Add(gs[1..], k, v)
  }

  /** The keys of `ps`, in order, with repetitions. */
  function KeySeq<K, V>(ps: seq<(K, V)>): (ks: seq<K>)
    ensures |ks| == |ps|
    ensures forall i :: 0 <= i < |ps| ==> ks[i] == ps[i].0
  {
    seq(|ps|, i requires 0 <= i < |ps| => ps[i].0)
  }

  /** The keys of `ks` in order of first occurrence. */
  function Dedup<K(==)>(ks: seq<K>): seq<K>
  {
    if |ks| == 0 then []
    else
      var d := Dedup(ks[..|ks| - 1]);
      if ks[|ks| - 1] in d then d else d + [ks[|ks| - 1]]
  }

  /** The values paired with `k` in `ps`, in input order. */
  function Select<K(==), V>(ps: seq<(K, V)>, k: K): seq<V>
  {
    if |ps| == 0 then []
    else
      Select(ps[..|ps| - 1], k) + (if ps[|ps| - 1].0 == k then [ps[|ps| - 1].1] else [])
  }

  /** Feeds the pairs one at a time, in order, through Add. */
  function GroupBy<K(==), V>(ps: seq<(K, V)>): seq<Group<K, V>>
  {
    if |ps| == 0 then []
    else Add(GroupBy(ps[..|ps| - 1]), ps[|ps| - 1].0, ps[|ps| - 1].1)
  }

  lemma {:induction false} AddKeys<K, V>(gs: seq<Group<K, V>>, k: K, v: V)
    ensures Keys(Add(gs, k, v)) == if k in Keys(gs) then Keys(gs) else Keys(gs) + [k]
    ensures forall j :: MembersOf(Add(gs, k, v), j) == if j == k then MembersOf(gs, k) + [v] else MembersOf(gs, j)
  {
    if |gs| == 0 {
    } else if gs[0].key == k {
      assert Keys(Add(gs, k, v)) == Keys(gs);
      assert k in Keys(gs) by { assert Keys(gs)[0] == k; }
      forall j ensures MembersOf(Add(gs, k, v), j) == if j == k then MembersOf(gs, k) + [v] else MembersOf(gs, j) {
        if j != k {
          assert Add(gs, k, v)[1..] == gs[1..];
        }
      }
    } else {
      AddKeys(gs[1..], k, v);
      assert Keys(gs) == [gs[0].key] + Keys(gs[1..]);
      assert Keys(Add(gs, k, v)) == [gs[0].key] + Keys(Add(gs[1..], k, v));
      assert Add(gs, k, v)[1..] == Add(gs[1..], k, v);
    }
  }

  lemma {:induction false} DedupSpec<K>(ks: seq<K>)
    ensures Distinct(Dedup(ks))
    ensures forall k :: k in Dedup(ks) <==> k in ks
  {
    if |ks| > 0 {
      var init := ks[..|ks| - 1];
      DedupSpec(init);
      assert ks == init + [ks[|ks| - 1]];
    }
  }

  /** Grouping keeps one group per distinct key, in order of first
      occurrence, and under each key exactly the values paired with it, in
      input order. */
  lemma {:induction false} GroupByContents<K, V>(ps: seq<(K, V)>)
    ensures Keys(GroupBy(ps)) == Dedup(KeySeq(ps))
    ensures forall k :: MembersOf(GroupBy(ps), k) == Select(ps, k)
  {
    if |ps| > 0 {
      var init := ps[..|ps| - 1];
      var last := ps[|ps| - 1];
      GroupByContents(init);
      AddKeys(GroupBy(init), last.0, last.1);
      assert KeySeq(ps)[..|ps| - 1] == KeySeq(init);
    }
  }

  /** With distinct keys, the members of the i-th group are what MembersOf
      finds for its key. */
  lemma {:induction false} MembersOfGroup<K, V>(gs: seq<Group<K, V>>, i: nat)
    requires Distinct(Keys(gs))
    requires i < |gs|
    ensures MembersOf(gs, gs[i].key) == gs[i].members
  {
    if i > 0 {
      assert Keys(gs)[0] != Keys(gs)[i];
      var tail := gs[1..];
      assert Keys(tail) == Keys(gs)[1..];
      MembersOfGroup(tail, i - 1);
    }
  }

  /** Every value selected under `k` comes from a pair with key `k`, and a key
      that occurs selects at least one value. */
  lemma {:induction false} SelectSpec<K, V>(ps: seq<(K, V)>, k: K)
    ensures forall x :: x in Select(ps, k) ==> exists i :: 0 <= i < |ps| && ps[i] == (k, x)
    ensures k in KeySeq(ps) <==> |Select(ps, k)| > 0
  {
    if |ps| > 0 {
      var init := ps[..|ps| - 1];
      SelectSpec(init, k);
      assert KeySeq(ps) == KeySeq(init) + [ps[|ps| - 1].0];
      forall x | x in Select(ps, k) ensures exists i :: 0 <= i < |ps| && ps[i] == (k, x) {
        if x in Select(init, k) {
          var i :| 0 <= i < |init| && init[i] == (k, x);
          assert ps[i] == (k, x);
        } else {
          assert ps[|ps| - 1] == (k, x);
        }
      }
    }
  }

  /** The whole grouping in one statement: distinct keys in first-occurrence
      order, each group non-empty and holding exactly its key's values. */
  lemma GroupByIsGrouping<K, V>(ps: seq<(K, V)>)
    ensures Keys(GroupBy(ps)) == Dedup(KeySeq(ps))
    ensures Distinct(Keys(GroupBy(ps)))
    ensures forall k :: k in Keys(GroupBy(ps)) <==> k in KeySeq(ps)
    ensures forall i :: 0 <= i < |GroupBy(ps)| ==>
      GroupBy(ps)[i].members == Select(ps, GroupBy(ps)[i].key) && |GroupBy(ps)[i].members| > 0
    ensures forall k :: MembersOf(GroupBy(ps), k) == Select(ps, k)
  {
    var gs := GroupBy(ps);
    GroupByContents(ps);
    DedupSpec(KeySeq(ps));
    forall i | 0 <= i < |gs| ensures gs[i].members == Select(ps, gs[i].key) && |gs[i].members| > 0 {
      MembersOfGroup(gs, i);
      assert Keys(gs)[i] == gs[i].key;
      SelectSpec(ps, gs[i].key);
    }
  }

  /** A key not yet present opens a new group at the end. */
  lemma {:induction false} AddFresh<K, V>(gs: seq<Group<K, V>>, k: K, v: V)
    requires k !in Keys(gs)
    ensures Add(gs, k, v) == gs + [Group(k, [v])]
  {
    if |gs| > 0 {
      assert Keys(gs)[0] == gs[0].key;
      assert Keys(gs[1..]) == Keys(gs)[1..];
      AddFresh(gs[1..], k, v);
      assert gs == [gs[0]] + gs[1..];
    }
  }

  /** Appending under the key of the last group extends that group only. */
  lemma {:induction false} AddToLast<K, V>(gs: seq<Group<K, V>>, g: Group<K, V>, v: V)
    requires g.key !in Keys(gs)
    ensures Add(gs + [g], g.key, v) == gs + [Group(g.key, g.members + [v])]
  {
    if |gs| == 0 {
      assert gs + [g] == [g];
    } else {
      assert Keys(gs)[0] == gs[0].key;
      assert Keys(gs[1..]) == Keys(gs)[1..];
      AddToLast(gs[1..], g, v);
      assert (gs + [g])[1..] == gs[1..] + [g];
      assert gs == [gs[0]] + gs[1..];
    }
  }

  /** GroupBy consumes its pairs one by one. */
  lemma GroupBySnoc<K, V>(ps: seq<(K, V)>, p: (K, V))
    ensures GroupBy(ps + [p]) == Add(GroupBy(ps), p.0, p.1)
  {
    assert (ps + [p])[..|ps|] == ps;
  }
}

=== FILE: js_number.dfy ===
/** The JavaScript number operations the front end applies to CSV text:
    `parseInt`, multiplication, lodash's `round` and `mean`, and the
    coercion lodash's `range` applies to its bounds. Numbers are `real`
    plus NaN; infinities and float rounding are not modelled. */
module JsNumber {
  import opened PyInt

  /** A JavaScript number: a finite value or NaN. */
  datatype Num = Finite(value: real) | NaN

  /** The characters `parseInt` skips before the number: the white space
      and line terminators of the ECMAScript grammar. */
  predicate IsWhiteSpace(c: char)
  {
    var n := c as int;
    || 0x09 <= n <= 0x0D || n == 0x20 || n == 0xA0 || n == 0x1680
    || 0x2000 <= n <= 0x200A || n == 0x2028 || n == 0x2029 || n == 0x202F
    || n == 0x205F || n == 0x3000 || n == 0xFEFF
  }

  /** The text after its leading white space. */
  function TrimStart(s: string): (t: string)
    ensures |t| <= |s|
    ensures |t| > 0 ==> !IsWhiteSpace(t[0])
  {
    if |s| > 0 && IsWhiteSpace(s[0]) then TrimStart(s[1..]) else s
  }

  /** The length of the longest run of decimal digits that starts the text. */
  function DigitPrefix(s: string): (p: nat)
    ensures p <= |s|
    ensures forall i :: 0 <= i < p ==> IsDigit(s[i])
    ensures p < |s| ==> !IsDigit(s[p])
  {
    if |s| > 0 && IsDigit(s[0]) then 1 + DigitPrefix(s[1..]) else 0
  }

  /** `parseInt(s)` in base 10: skip white space, read an optional sign,
      then as many digits as there are; NaN when there are none. */
  function ParseInt(s: string): Num
  {
    ParseSigned(TrimStart(s))
  }

  /** The sign and digits at the start of a text with no leading space. */
  function ParseSigned(t: string): Num
  {
    if |t| > 0 && t[0] == '-' then Negate(ParseDigits(t[1..]))
    else if |t| > 0 && t[0] == '+' then ParseDigits(t[1..])
    else ParseDigits(t)
  }

  /** The value of the digits that start the text, NaN when there are none. */
  function ParseDigits(body: string): Num
  {
    var p := DigitPrefix(body);
    if p == 0 then NaN else Finite(DigitsValue(body[..p]) as real)
  }

  /** `-x`. */
  function Negate(x: Num): Num
  {
    if x.NaN? then NaN else Finite(-x.value)
  }

  lemma {:induction false} DigitRunPrefix(d: string, tail: string)
    requires forall i :: 0 <= i < |d| ==> IsDigit(d[i])
    requires |tail| == 0 || !IsDigit(tail[0])
    ensures DigitPrefix(d + tail) == |d|
  {
    if |d| > 0 {
      assert (d + tail)[1..] == d[1..] + tail;
      DigitRunPrefix(d[1..], tail);
    } else {
      assert d + tail == tail;
    }
  }

  /** parseInt reads back every integer Python's `str` or pandas writes, and
      ignores what follows it: "7.5" reads as 7 and "-3.9" as -3. */
  lemma ParseIntOfDecimal(n: int, tail: string)
    requires |tail| == 0 || !IsDigit(tail[0])
    ensures ParseInt(ToDecimal(n) + tail) == Finite(n as real)
  {
    var m: nat := if n < 0 then -n else n;
    var d := NatDigits(m);
    NatDigitsValue(m);
    if n < 0 {
      ParseIntNegative(d, tail);
      assert ToDecimal(n) + tail == "-" + d + tail;
    } else {
      ParseIntUnsigned(d, tail);
    }
  }

  /** Digits then a non-digit read as the digits' value. */
  lemma ParseDigitsRun(d: string, tail: string)
    requires IsDigits(d)
    requires |tail| == 0 || !IsDigit(tail[0])
    ensures ParseDigits(d + tail) == Finite(DigitsValue(d) as real)
  {
    DigitRunPrefix(d, tail);
    assert (d + tail)[..|d|] == d;
  }

  lemma ParseIntUnsigned(d: string, tail: string)
    requires IsDigits(d)
    requires |tail| == 0 || !IsDigit(tail[0])
    ensures ParseInt(d + tail) == Finite(DigitsValue(d) as real)
  {
    var s := d + tail;
    assert s[0] == d[0];
    NoSpaceFirst(s);
    ParseDigitsRun(d, tail);
  }

  /** A minus sign, digits, then a non-digit read as minus the digits'
      value. */
  lemma ParseIntNegative(d: string, tail: string)
    requires IsDigits(d)
    requires |tail| == 0 || !IsDigit(tail[0])
    ensures ParseInt("-" + d + tail) == Finite(-(DigitsValue(d) as real))
  {
    var s := "-" + d + tail;
    NoSpaceFirst(s);
    assert s[0] == '-' && s[1..] == d + tail;
    ParseDigitsRun(d, tail);
  }

  /** Seconds written with a fraction are cut, not rounded: "7.5" is 7 and
      "-3.9" is -3. */
  lemma ParseIntTruncates()
    ensures ParseInt("7.5") == Finite(7.0)
    ensures ParseInt("-3.9") == Finite(-3.0)
  {
    var pos := "7.5";
    NoSpaceFirst(pos);
    DigitThenPoint(pos, 7);
    var neg := "-3.9";
    NoSpaceFirst(neg);
    var body := neg[1..];
    DigitThenPoint(body, 3);
    assert ParseInt(neg) == Finite(-(DigitsValue(body[..1]) as real));
  }

  /** A text whose first character is not white space is its own trim. */
  lemma NoSpaceFirst(s: string)
    requires |s| > 0 && !IsWhiteSpace(s[0])
    ensures TrimStart(s) == s
  {
  }

  /** One digit followed by a point reads as that digit. */
  lemma DigitThenPoint(s: string, d: nat)
    requires |s| == 3 && s[1] == '.' && IsDigit(s[0]) && DigitValue(s[0]) == d
    ensures DigitPrefix(s) == 1 && DigitsValue(s[..1]) == d
  {
    assert DigitPrefix(s[1..]) == 0;
    assert DigitsValue(s[..1]) == DigitsValue(s[..0]) * 10 + DigitValue(s[0]);
  }

  /** Whole seconds read as themselves. */
  lemma ParseIntWhole()
    ensures ParseInt("15") == Finite(15.0)
  {
    var s := "15";
    NoSpaceFirst(s);
    TwoDigits(s, 15);
  }

  lemma TwoDigits(s: string, v: nat)
    requires |s| == 2 && IsDigit(s[0]) && IsDigit(s[1]) && v == DigitValue(s[0]) * 10 + DigitValue(s[1])
    ensures DigitPrefix(s) == 2 && DigitsValue(s[..2]) == v
  {
    assert DigitPrefix(s[2..]) == 0;
    assert DigitPrefix(s[1..]) == 1;
    assert DigitsValue(s[..1]) == DigitValue(s[0]);
    assert s[..2][..1] == s[..1];
  }

  /** Text without digits reads as NaN. */
  lemma ParseIntNeedsDigits()
    ensures ParseInt("") == NaN
    ensures ParseInt("abc") == NaN
  {
    assert TrimStart("abc") == "abc";
    assert DigitPrefix("abc") == 0;
  }

  /** `a * b` with b a finite number. */
  function Mul(a: Num, b: real): (r: Num)
    ensures r.NaN? <==> a.NaN?
  {
    match a
    case NaN => NaN
    case Finite(x) => Finite(x * b)
  }

  /** lodash's `round(x)` at precision 0, which is `Math.round`: the
      nearest integer, ties toward +∞. */
  function Round(x: Num): (r: Num)
    ensures r.NaN? <==> x.NaN?
    ensures r.Finite? ==>
      && r.value == r.value.Floor as real
      && x.value - 0.5 < r.value <= x.value + 0.5
  {
    match x
    case NaN => NaN
    case Finite(v) => Finite((v + 0.5).Floor as real)
  }

  /** Ties round up: 2.5 to 3 and -2.5 to -2. */
  lemma RoundTiesUp()
    ensures Round(Finite(2.5)) == Finite(3.0)
    ensures Round(Finite(-2.5)) == Finite(-2.0)
  {
  }

  /** lodash's `toFinite` on a number: NaN becomes 0. */
  function ToFinite(x: Num): (r: real)
    ensures x.Finite? ==> r == x.value
  {
    if x.NaN? then 0.0 else x.value
  }

  /** `a + b`. */
  function Add(a: Num, b: Num): (r: Num)
    ensures r.NaN? <==> a.NaN? || b.NaN?
  {
    if a.NaN? || b.NaN? then NaN else Finite(a.value + b.value)
  }

  /** lodash's `baseSum` over a non-empty array, left to right. */
  function Total(xs: seq<Num>): Num
  {
    if |xs| == 0 then Finite(0.0)
    else Add(Total(xs[..|xs| - 1]), xs[|xs| - 1])
  }

  /** lodash's `mean`: NaN for an empty array, else the sum over the
      length. */
  function Mean(xs: seq<Num>): Num
  {
    if |xs| == 0 then NaN
    else
      var t := Total(xs);
      if t.NaN? then NaN else Finite(t.value / |xs| as real)
  }

  /** The sum is NaN exactly when some element is. */
  lemma {:induction false} TotalNaN(xs: seq<Num>)
    ensures Total(xs).NaN? <==> exists i :: 0 <= i < |xs| && xs[i].NaN?
  {
    if |xs| > 0 {
      var init := xs[..|xs| - 1];
      TotalNaN(init);
      if Total(init).NaN? {
        var i :| 0 <= i < |init| && init[i].NaN?;
        assert xs[i].NaN?;
      }
      if exists i :: 0 <= i < |xs| && xs[i].NaN? {
        var i :| 0 <= i < |xs| && xs[i].NaN?;
        if i < |init| {
          assert init[i].NaN?;
        }
      }
    }
  }

  /** The sum of n copies of c is n·c. */
  lemma {:induction false} TotalOfConstant(xs: seq<Num>, c: real)
    requires forall i :: 0 <= i < |xs| ==> xs[i] == Finite(c)
    ensures Total(xs) == Finite(|xs| as real * c)
  {
    if |xs| > 0 {
      TotalOfConstant(xs[..|xs| - 1], c);
    }
  }

  /** The mean of NaN-free values is their sum over their count; it is NaN
      when the array is empty or holds a NaN. */
  lemma MeanSpec(xs: seq<Num>)
    ensures Mean(xs).NaN? <==> |xs| == 0 || exists i :: 0 <= i < |xs| && xs[i].NaN?
  {
    TotalNaN(xs);
  }

  /** The mean of copies of one value is that value. */
  lemma MeanOfConstant(xs: seq<Num>, c: real)
    requires |xs| > 0
    requires forall i :: 0 <= i < |xs| ==> xs[i] == Finite(c)
    ensures Mean(xs) == Finite(c)
  {
    TotalOfConstant(xs, c);
  }
}

=== FILE: label_space_mapping.dfy ===
/** The fixed remapping of each source model's label space onto the canonical
    nine emotion slots, and the affine rescale of valence/arousal onto
    [1, 1000]. */
module LabelSpaceMapping {
  import opened Wrappers
  import opened Numeric

  /** Canonical slot order (the EMOTIONS list of the front end). */
  const Fear := 0
  const Anger := 1
  const Joy := 2
  const Sadness := 3
  const Disgust := 4
  const Surprise := 5
  const Trust := 6
  const Anticipation := 7
  const Neutral := 8
  const SlotCount := 9

  /** AffectNet's 8 classes (anger, contempt, disgust, fear, happy, neutral,
      sad, surprise; indices 8 and 9 of the recogniser's output are valence
      and arousal and are not read). Contempt is folded into fear. */
  function AffectnetToMain(e: seq<real>): (r: seq<real>)
    requires |e| >= 8
    ensures |r| == SlotCount
    ensures r[Trust] == 0.0 && r[Anticipation] == 0.0
    ensures (forall i :: 0 <= i < 8 ==> e[i] >= 0.0) ==> NonNegative(r)
  {
    [ e[1] + e[3],  // fear: contempt + fear
      e[0],         // anger
      e[4],         // joy: happy
      e[6],         // sadness: sad
      e[2],         // disgust
      e[7],         // surprise
      0.0,          // trust
      0.0,          // anticipation
      e[5] ]        // neutral
  }

  /** The 26 BoLD categories grouped onto the canonical slots; BoLD has no
      trust and no neutral class, and its index 3 is anticipation. */
  function BoldToMain(e: seq<real>): (r: seq<real>)
    requires |e| >= 26
    ensures |r| == SlotCount
    ensures r[Trust] == 0.0 && r[Neutral] == 0.0 && r[Anticipation] == e[3]
    ensures (forall i :: 0 <= i < 26 ==> e[i] >= 0.0) ==> NonNegative(r)
  {
    [ e[22] + e[23],
      e[18] + e[19],
      e[0] + e[1] + e[2] + e[4] + e[5] + e[6] + e[7] + e[10] + e[15],
      e[12] + e[13] + e[14] + e[20] + e[21] + e[24] + e[25],
      e[16] + e[17],
      e[8] + e[9] + e[11],
      0.0,
      e[3],
      0.0 ]
  }

  /** The 13 CPED categories grouped onto the canonical slots; CPED has no
      trust and no anticipation class. */
  function CpedToMain(e: seq<real>): (r: seq<real>)
    requires |e| >= 13
    ensures |r| == SlotCount
    ensures r[Trust] == 0.0 && r[Anticipation] == 0.0
    ensures (forall i :: 0 <= i < 13 ==> e[i] >= 0.0) ==> NonNegative(r)
  {
    [ e[7] + e[11],
      e[5],
      e[0] + e[1] + e[2] + e[3],
      e[6] + e[8] + e[12],
      e[9],
      e[10],
      0.0,
      0.0,
      e[4] ]
  }

  /** The nine canonical slots add up to r[0] + ... + r[8]. */
  lemma SumOfNine(r: seq<real>)
    requires |r| == SlotCount
    ensures Sum(r) == r[0] + r[1] + r[2] + r[3] + r[4] + r[5] + r[6] + r[7] + r[8]
  {
    assert SumRange(r, 6, 9) == r[6] + r[7] + r[8];
    assert SumRange(r, 3, 9) == r[3] + r[4] + r[5] + SumRange(r, 6, 9);
  }

  /** Every AffectNet emotion index 0..7 is read exactly once, so no mass is
      lost or duplicated. */
  lemma {:induction false} AffectnetToMainPreservesSum(e: seq<real>)
    requires |e| >= 8
    ensures Sum(AffectnetToMain(e)) == SumRange(e, 0, 8)
  {
    SumOfNine(AffectnetToMain(e));
    assert SumRange(e, 5, 8) == e[5] + e[6] + e[7];
    assert SumRange(e, 2, 8) == e[2] + e[3] + e[4] + SumRange(e, 5, 8);
  }

  /** Only the first eight scores matter: valence and arousal at 8 and 9 are
      ignored by the emotion mapping. */
  lemma AffectnetToMainReadsOnlyEmotions(e: seq<real>, f: seq<real>)
    requires |e| >= 8 && |f| >= 8
    requires e[..8] == f[..8]
    ensures AffectnetToMain(e) == AffectnetToMain(f)
  {
    assert forall i :: 0 <= i < 8 ==> e[i] == e[..8][i] == f[..8][i] == f[i];
  }

  /** Every one of the 26 BoLD indices is read exactly once. */
  lemma {:induction false} BoldToMainPreservesSum(e: seq<real>)
    requires |e| >= 26
    ensures Sum(BoldToMain(e)) == SumRange(e, 0, 26)
  {
    SumOfNine(BoldToMain(e));
    assert SumRange(e, 23, 26) == e[23] + e[24] + e[25];
    assert SumRange(e, 20, 26) == e[20] + e[21] + e[22] + SumRange(e, 23, 26);
    assert SumRange(e, 17, 26) == e[17] + e[18] + e[19] + SumRange(e, 20, 26);
    assert SumRange(e, 14, 26) == e[14] + e[15] + e[16] + SumRange(e, 17, 26);
    assert SumRange(e, 11, 26) == e[11] + e[12] + e[13] + SumRange(e, 14, 26);
    assert SumRange(e, 8, 26) == e[8] + e[9] + e[10] + SumRange(e, 11, 26);
    assert SumRange(e, 5, 26) == e[5] + e[6] + e[7] + SumRange(e, 8, 26);
    assert SumRange(e, 2, 26) == e[2] + e[3] + e[4] + SumRange(e, 5, 26);
  }

  /** Every one of the 13 CPED indices is read exactly once. */
  lemma {:induction false} CpedToMainPreservesSum(e: seq<real>)
    requires |e| >= 13
    ensures Sum(CpedToMain(e)) == SumRange(e, 0, 13)
  {
    SumOfNine(CpedToMain(e));
    assert SumRange(e, 10, 13) == e[10] + e[11] + e[12];
    assert SumRange(e, 7, 13) == e[7] + e[8] + e[9] + SumRange(e, 10, 13);
    assert SumRange(e, 4, 13) == e[4] + e[5] + e[6] + SumRange(e, 7, 13);
    assert SumRange(e, 1, 13) == e[1] + e[2] + e[3] + SumRange(e, 4, 13);
  }

  /** Maps `value` from [r1Min, r1Max] onto [r2Min, r2Max] affinely, without
      clamping. A zero-width source range is a float division by zero. */
  function Translate(value: real, r1Min: real, r1Max: real, r2Min: real, r2Max: real): (r: Result<real, PyError>)
    ensures r.Failure? <==> r1Min == r1Max
    ensures r.Failure? ==> r.error == ZeroDivisionError
    ensures r.Success? ==> (r.value - r2Min) * (r1Max - r1Min) == (value - r1Min) * (r2Max - r2Min)
  {
    var r1Span := r1Max - r1Min;
    var r2Span := r2Max - r2Min;
    if r1Span == 0.0 then
      Failure(ZeroDivisionError)
    else
      Success(Affine(value, r1Min, r1Max, r2Min, r2Max))
  }

  /** `r2Min + (value - r1Min) / (r1Max - r1Min) * (r2Max - r2Min)`. */
  function Affine(value: real, r1Min: real, r1Max: real, r2Min: real, r2Max: real): real
    requires r1Min != r1Max
  {
    r2Min + ((value - r1Min) / (r1Max - r1Min)) * (r2Max - r2Min)
  }

  /** The ends of the source range land on the ends of the target range. */
  lemma TranslateEndpoints(r1Min: real, r1Max: real, r2Min: real, r2Max: real)
    requires r1Min != r1Max
    ensures Translate(r1Min, r1Min, r1Max, r2Min, r2Max) == Success(r2Min)
    ensures Translate(r1Max, r1Min, r1Max, r2Min, r2Max) == Success(r2Max)
  {
    var s := r1Max - r1Min;
    assert (r1Max - r1Min) / s == 1.0;
    assert Translate(r1Max, r1Min, r1Max, r2Min, r2Max).value == r2Min + 1.0 * (r2Max - r2Min);
  }

  /** With both ranges increasing, the rescale is strictly increasing, and a
      value outside the source range lands outside the target range: there
      is no clamping. */
  lemma TranslateStrictlyIncreasing(a: real, b: real, r1Min: real, r1Max: real, r2Min: real, r2Max: real)
    requires r1Min < r1Max && r2Min < r2Max
    requires a < b
    ensures Translate(a, r1Min, r1Max, r2Min, r2Max).value < Translate(b, r1Min, r1Max, r2Min, r2Max).value
    ensures a < r1Min ==> Translate(a, r1Min, r1Max, r2Min, r2Max).value < r2Min
    ensures b > r1Max ==> Translate(b, r1Min, r1Max, r2Min, r2Max).value > r2Max
  {
    AffineLess(a, b, r1Min, r1Max, r2Min, r2Max);
    if a < r1Min {
      AffineBelow(a, r1Min, r1Max, r2Min, r2Max);
    }
    if b > r1Max {
      AffineAbove(b, r1Min, r1Max, r2Min, r2Max);
    }
  }

  lemma AffineLess(a: real, b: real, r1Min: real, r1Max: real, r2Min: real, r2Max: real)
    requires r1Min < r1Max && r2Min < r2Max && a < b
    ensures Affine(a, r1Min, r1Max, r2Min, r2Max) < Affine(b, r1Min, r1Max, r2Min, r2Max)
  {
    var s1 := r1Max - r1Min;
    var s2 := r2Max - r2Min;
    var p := (a - r1Min) / s1;
    var q := (b - r1Min) / s1;
    assert Affine(a, r1Min, r1Max, r2Min, r2Max) == r2Min + p * s2;
    assert Affine(b, r1Min, r1Max, r2Min, r2Max) == r2Min + q * s2;
    DivMono(a - r1Min, b - r1Min, s1);
    MulMono(p, q, s2);
  }

  lemma AffineBelow(a: real, r1Min: real, r1Max: real, r2Min: real, r2Max: real)
    requires r1Min < r1Max && r2Min < r2Max && a < r1Min
    ensures Affine(a, r1Min, r1Max, r2Min, r2Max) < r2Min
  {
    var s1 := r1Max - r1Min;
    DivMono(a - r1Min, 0.0, s1);
    MulMono((a - r1Min) / s1, 0.0, r2Max - r2Min);
  }

  lemma AffineAbove(b: real, r1Min: real, r1Max: real, r2Min: real, r2Max: real)
    requires r1Min < r1Max && r2Min < r2Max && b > r1Max
    ensures Affine(b, r1Min, r1Max, r2Min, r2Max) > r2Max
  {
    var s1 := r1Max - r1Min;
    DivMono(s1, b - r1Min, s1);
    MulMono(1.0, (b - r1Min) / s1, r2Max - r2Min);
  }

  lemma MulMono(x: real, y: real, s: real)
    requires s > 0.0 && x < y
    ensures x * s < y * s
  {
    assert y * s - x * s == (y - x) * s;
  }

  lemma DivMono(x: real, y: real, s: real)
    requires s > 0.0 && x < y
    ensures x / s < y / s
  {
    assert y / s - x / s == (y - x) / s;
  }

  /** Canonical valence/arousal range. */
  const MainMin := 1.0
  const MainMax := 1000.0

  /** A wrapper's `try: translate(...) except Exception: raise ValueError`. */
  function ToCanonical(score: real, lo: real, hi: real, message: string): (r: Result<real, PyError>)
    ensures r.Failure? <==> lo == hi
    ensures r.Failure? ==> r.error == ValueError(message)
    ensures r.Success? ==> (r.value - MainMin) * (hi - lo) == (score - lo) * (MainMax - MainMin)
  {
    match Translate(score, lo, hi, MainMin, MainMax)
    case Success(v) => Success(v)
    case Failure(_) => Failure(ValueError(message))
  }

  const ValenceMessage := "The predicted valence score is not valid"
  const ArousalMessage := "The predicted arousal score is not valid"

  /** AffectNet valence in [-1, 1] to [1, 1000]. */
  function AffectnetToMainValence(score: real): (r: Result<real, PyError>)
    ensures r.Success?
    ensures (r.value - 1.0) * 2.0 == (score + 1.0) * 999.0
  {
    ToCanonical(score, -1.0, 1.0, ValenceMessage)
  }

  /** AffectNet arousal in [-1, 1] to [1, 1000]. */
  function AffectnetToMainArousal(score: real): (r: Result<real, PyError>)
    ensures r.Success?
    ensures (r.value - 1.0) * 2.0 == (score + 1.0) * 999.0
  {
    ToCanonical(score, -1.0, 1.0, ArousalMessage)
  }

  /** BoLD valence in [1, 10] to [1, 1000]. */
  function BoldToMainValence(score: real): (r: Result<real, PyError>)
    ensures r.Success?
    ensures r.value - 1.0 == (score - 1.0) * 111.0
  {
    ToCanonical(score, 1.0, 10.0, ValenceMessage)
  }

  /** BoLD arousal in [1, 10] to [1, 1000]. */
  function BoldToMainArousal(score: real): (r: Result<real, PyError>)
    ensures r.Success?
    ensures r.value - 1.0 == (score - 1.0) * 111.0
  {
    ToCanonical(score, 1.0, 10.0, ArousalMessage)
  }

  /** Range ends and midpoints of the four wrappers. */
  lemma CanonicalEndpoints()
    ensures BoldToMainValence(1.0).value == 1.0 && BoldToMainValence(10.0).value == 1000.0
    ensures BoldToMainValence(5.5).value == 500.5
    ensures BoldToMainArousal(1.0).value == 1.0 && BoldToMainArousal(10.0).value == 1000.0
    ensures AffectnetToMainValence(-1.0).value == 1.0 && AffectnetToMainValence(1.0).value == 1000.0
    ensures AffectnetToMainValence(0.0).value == 500.5
    ensures AffectnetToMainArousal(-1.0).value == 1.0 && AffectnetToMainArousal(1.0).value == 1000.0
  {
  }

  /** All four wrappers are strictly increasing. */
  lemma CanonicalStrictlyIncreasing(a: real, b: real)
    requires a < b
    ensures BoldToMainValence(a).value < BoldToMainValence(b).value
    ensures BoldToMainArousal(a).value < BoldToMainArousal(b).value
    ensures AffectnetToMainValence(a).value < AffectnetToMainValence(b).value
    ensures AffectnetToMainArousal(a).value < AffectnetToMainArousal(b).value
  {
  }
}

=== FILE: linguistic_head.dfy ===
/** The English emotion head's label bookkeeping: the seven labels of the
    external text classifier are written into a nine-slot vector that starts
    at zero. The classifier itself is an input. */
module LinguisticHead {
  import opened Wrappers
  import opened LabelSpaceMapping

  /** One `{"label": ..., "score": ...}` item of the classifier's output. */
  datatype LabelScore = LabelScore(name: string, score: real)

  const UnknownEmotionMessage := "Unknown emotion"

  /** The canonical slot a classifier label is written to, if it is one of
      the seven the classifier knows. */
  function EnSlot(name: string): (slot: Option<nat>)
    ensures slot.Some? ==> slot.value < SlotCount && slot.value != Trust && slot.value != Anticipation
  {
    if name == "joy" then Some(Joy)
    else if name == "surprise" then Some(Surprise)
    else if name == "neutral" then Some(Neutral)
    else if name == "anger" then Some(Anger)
    else if name == "sadness" then Some(Sadness)
    else if name == "disgust" then Some(Disgust)
    else if name == "fear" then Some(Fear)
    else None
  }

  /** The seven labels, listed in canonical slot order. */
  const KnownLabels := ["fear", "anger", "joy", "sadness", "disgust", "surprise", "neutral"]

  /** The label map is the bijection between the seven known labels and the
      seven slots other than trust and anticipation. */
  lemma EnSlotIsBijection(name: string)
    ensures EnSlot(name).Some? <==> name in KnownLabels
    ensures EnSlot("fear") == Some(Fear) && EnSlot("anger") == Some(Anger)
    ensures EnSlot("joy") == Some(Joy) && EnSlot("sadness") == Some(Sadness)
    ensures EnSlot("disgust") == Some(Disgust) && EnSlot("surprise") == Some(Surprise)
    ensures EnSlot("neutral") == Some(Neutral)
    ensures forall other :: EnSlot(name).Some? && EnSlot(other) == EnSlot(name) ==> other == name
  {
  }

  ghost predicate AllKnown(items: seq<LabelScore>)
  {
    forall i :: 0 <= i < |items| ==> EnSlot(items[i].name).Some?
  }

  /** `predict_emotion_en` after the classifier call: items are processed in
      order, each overwriting its slot, and the first unknown label raises. */
  function PredictEmotionEn(items: seq<LabelScore>): (r: Result<seq<real>, PyError>)
    ensures r.Success? <==> AllKnown(items)
    ensures r.Failure? ==> r.error == ValueError(UnknownEmotionMessage)
    ensures r.Success? ==> |r.value| == SlotCount && r.value[Trust] == 0.0 && r.value[Anticipation] == 0.0
  {
    if |items| == 0 then Success(seq(SlotCount, i => 0.0))
    else
      var init := items[..|items| - 1];
      var last := items[|items| - 1];
      assert forall i :: 0 <= i < |init| ==> init[i] == items[i];
      match PredictEmotionEn(init)
      case Failure(e) => Failure(e)
      case Success(v) =>
        match EnSlot(last.name)
        case None => Failure(ValueError(UnknownEmotionMessage))
        case Some(s) => Success(v[s := last.score])
  }

  /** Last write wins: a slot holds the score of the last item mapped to it,
      and 0 when no item maps to it. */
  lemma {:induction false} PredictEmotionEnLastWins(items: seq<LabelScore>, s: nat)
    requires AllKnown(items)
    requires s < SlotCount
    ensures (forall i :: 0 <= i < |items| ==> EnSlot(items[i].name) != Some(s)) ==>
      PredictEmotionEn(items).value[s] == 0.0
    ensures forall i :: (0 <= i < |items| && EnSlot(items[i].name) == Some(s)
                        && (forall j :: i < j < |items| ==> EnSlot(items[j].name) != Some(s))) ==>
      PredictEmotionEn(items).value[s] == items[i].score
  {
    if |items| > 0 {
      var init := items[..|items| - 1];
      var last := items[|items| - 1];
      assert forall i :: 0 <= i < |init| ==> init[i] == items[i];
      PredictEmotionEnLastWins(init, s);
    }
  }

  /** The classifier's usual answer, all seven labels once each, fills the
      seven slots with their scores. */
  lemma PredictEmotionEnFullAnswer(fear: real, anger: real, joy: real, sadness: real, disgust: real, surprise: real, neutral: real)
    ensures PredictEmotionEn([
      LabelScore("joy", joy), LabelScore("surprise", surprise), LabelScore("neutral", neutral),
      LabelScore("anger", anger), LabelScore("sadness", sadness), LabelScore("disgust", disgust),
      LabelScore("fear", fear)]) == Success([fear, anger, joy, sadness, disgust, surprise, 0.0, 0.0, neutral])
  {
    var items := [
      LabelScore("joy", joy), LabelScore("surprise", surprise), LabelScore("neutral", neutral),
      LabelScore("anger", anger), LabelScore("sadness", sadness), LabelScore("disgust", disgust),
      LabelScore("fear", fear)];
    var expected := [fear, anger, joy, sadness, disgust, surprise, 0.0, 0.0, neutral];
    var slots := [2, 5, 8, 1, 3, 4, 0];  // the slot of each item's label
    assert forall i :: 0 <= i < |items| ==> EnSlot(items[i].name) == Some(slots[i]);
    assert AllKnown(items);
    var r := PredictEmotionEn(items).value;
    var source := [6, 3, 0, 4, 5, 1, 0, 0, 2];  // the item index written to each slot
    forall s | 0 <= s < SlotCount ensures r[s] == expected[s] {
      PredictEmotionEnLastWins(items, s);
      if s != Trust && s != Anticipation {
        var i := source[s];
        assert EnSlot(items[i].name) == Some(s);
        assert forall j :: i < j < |items| ==> EnSlot(items[j].name) != Some(s);
      }
    }
    assert r == expected;
  }
}

=== FILE: main.dfy ===
/** The service's entry points: the upload session over the web socket,
    which runs the four stages one after the other and reports milestones
    in lockstep with the client, and the file route that serves results. */
module Service {
  import opened Wrappers
  import opened PyInt
  import opened PyStr
  import opened Misc
  import opened Progress
  import opened Numeric
  import FaceDetector
  import AudioResult
  import TextResult
  import VisualResult

  const DataDir := "data"

  /** `str(Path(dir) / name)` for a plain relative name. */
  function PathJoin(dir: string, name: string): string
  {
    dir + "/" + name
  }

  /** The directory of session `id`, `data/<id>`. */
  function SessionDir(id: int): string
  {
    PathJoin(DataDir, ToDecimal(id))
  }

  /** Where the upload of session `id` is stored. */
  function VideoPath(id: int): string
  {
    PathJoin(SessionDir(id), "video.mp4")
  }

  /** A path with every backslash turned into a slash. */
  function Posix(p: string): string
  {
    ReplaceChar(p, '\\', '/')
  }

  /** The `data` of the final "done" message: the session directory's name
      and the three result files beside the upload. */
  function ResultPathsOf(id: int): Payload
  {
    var dir := SessionDir(id);
    ResultPaths(ToDecimal(id), Posix(PathJoin(dir, "audio.csv")), Posix(PathJoin(dir, "faces.csv")), Posix(PathJoin(dir, "text.csv")))
  }

  lemma {:induction false} PosixIdentity(p: string)
    requires '\\' !in p
    ensures Posix(p) == p
  {
  }

  /** A session directory is "data/" followed by the decimal id, and holds
      no backslash. */
  lemma SessionDirShape(id: int)
    ensures SessionDir(id) == "data/" + ToDecimal(id)
    ensures '\\' !in SessionDir(id)
  {
    NatDigitsHasNoSign(if id < 0 then -id else id, '\\');
    assert '\\' !in ToDecimal(id);
  }

  /** No two sessions share a directory. */
  lemma SessionDirInjective(id: int, other: int)
    ensures SessionDir(id) == SessionDir(other) <==> id == other
  {
    SessionDirShape(id);
    SessionDirShape(other);
    if SessionDir(id) == SessionDir(other) {
      assert ToDecimal(id) == SessionDir(id)[5..];
      assert ToDecimal(other) == SessionDir(other)[5..];
      ToDecimalInjective(id, other);
    }
  }

  /** A file of the session directory, as the "done" message spells it. */
  lemma SessionFile(id: int, name: string)
    requires '\\' !in name
    ensures Posix(PathJoin(SessionDir(id), name)) == SessionDir(id) + "/" + name
  {
    SessionDirShape(id);
    PosixIdentity(SessionDir(id) + "/" + name);
  }

  /** The "done" message names the session by its decimal id and lists
      the three result files inside its directory. */
  lemma SessionPaths(id: int)
    ensures var r := ResultPathsOf(id);
      && r.id == ToDecimal(id)
      && r.audio == SessionDir(id) + "/audio.csv"
      && r.visual == SessionDir(id) + "/faces.csv"
      && r.text == SessionDir(id) + "/text.csv"
  {
    var r := ResultPathsOf(id);
    assert r.audio == SessionDir(id) + "/audio.csv" by { SessionResultFile(id, "audio.csv", "/audio.csv"); }
    assert r.visual == SessionDir(id) + "/faces.csv" by { SessionResultFile(id, "faces.csv", "/faces.csv"); }
    assert r.text == SessionDir(id) + "/text.csv" by { SessionResultFile(id, "text.csv", "/text.csv"); }
  }

  lemma SessionResultFile(id: int, name: string, slashed: string)
    requires '\\' !in name
    requires slashed == "/" + name
    ensures Posix(PathJoin(SessionDir(id), name)) == SessionDir(id) + slashed
  {
    SessionDirShape(id);
    ResultFile(SessionDir(id), name, slashed);
  }

  lemma ResultFile(dir: string, name: string, slashed: string)
    requires '\\' !in dir && '\\' !in name
    requires slashed == "/" + name
    ensures Posix(PathJoin(dir, name)) == dir + slashed
  {
    PosixIdentity(dir + "/" + name);
    SlashName(dir, name, slashed);
  }

  /** The upload sits in the same directory as the results. */
  lemma UploadPath(id: int)
    ensures VideoPath(id) == SessionDir(id) + "/video.mp4"
  {
    SlashName(SessionDir(id), "video.mp4", "/video.mp4");
  }

  /** The three result files of a session are distinct. */
  lemma SessionFilesDistinct(id: int)
    ensures var r := ResultPathsOf(id);
      r.audio != r.visual && r.audio != r.text && r.visual != r.text
  {
    var dir := SessionDir(id);
    SessionPaths(id);
    SuffixesDiffer(dir, "/audio.csv", "/faces.csv");
    SuffixesDiffer(dir, "/audio.csv", "/text.csv");
    SuffixesDiffer(dir, "/faces.csv", "/text.csv");
  }

  lemma SlashName(dir: string, name: string, slashed: string)
    requires slashed == "/" + name
    ensures dir + "/" + name == dir + slashed
  {
  }

  lemma SuffixesDiffer(dir: string, x: string, y: string)
    requires |x| > 1 && |y| > 1 && x[1] != y[1]
    ensures dir + x != dir + y
  {
    assert (dir + x)[|dir| + 1] == x[1];
    assert (dir + y)[|dir| + 1] == y[1];
  }

  /* ---------------- get_file ---------------- */

  /** What the file route answers: a range response for a video, or the
      whole file as text. */
  datatype Served =
    | Ranged(path: string, response: RangeResponse)
    | Whole(path: string, mediaType: string)

  /** The last '.'-separated piece of the name is "mp4". */
  predicate IsVideoName(fileName: string)
  {
    var pieces := Split(fileName, '.');
    pieces[|pieces| - 1] == "mp4"
  }

  /** `get_file(video_id, file_name, request)`: the file's size and the Range
      header come from outside. */
  function GetFile(videoId: string, fileName: string, rangeHeader: Option<string>, fileSize: nat): (r: Result<Served, HttpError>)
    ensures !IsVideoName(fileName) ==> r == Success(Whole(PathJoin(PathJoin(DataDir, videoId), fileName), "text"))
    ensures IsVideoName(fileName) ==> var response := RangeRequestsResponse(rangeHeader, fileSize, "video/mp4");
      && (r.Success? <==> response.Success?)
      && (r.Success? ==> r.value == Ranged(PathJoin(PathJoin(DataDir, videoId), fileName), response.value))
      && (r.Failure? ==> r.error == response.error)
  {
    var path := PathJoin(PathJoin(DataDir, videoId), fileName);
    if IsVideoName(fileName) then
      var response :- RangeRequestsResponse(rangeHeader, fileSize, "video/mp4");
      Success(Ranged(path, response))
    else Success(Whole(path, "text"))
  }

  /** "mp4" and every name ending in ".mp4" count as videos. */
  lemma VideoSuffixIsVideo(stem: string)
    ensures IsVideoName("mp4")
    ensures IsVideoName(stem + ".mp4")
  {
    SplitAbsent("mp4", '.');
    assert stem + ".mp4" == stem + ['.'] + "mp4";
    SplitAt(stem, '.', "mp4");
  }

  /** A name whose last piece is "mp4" is "mp4" itself or ends in ".mp4". */
  lemma VideoNameHasSuffix(fileName: string)
    requires IsVideoName(fileName)
    ensures fileName == "mp4" || (|fileName| >= 4 && fileName[|fileName| - 4..] == ".mp4")
  {
    var pieces := Split(fileName, '.');
    SplitJoin(fileName, '.');
    if |pieces| > 1 {
      var rest := Join(pieces[..|pieces| - 1], '.');
      assert fileName == rest + ".mp4";
    }
  }

  /** A name counts as a video exactly when it is "mp4" or ends in ".mp4". */
  lemma IsVideoNameSpec(fileName: string)
    ensures IsVideoName(fileName) <==>
      fileName == "mp4" || (|fileName| >= 4 && fileName[|fileName| - 4..] == ".mp4")
  {
    VideoSuffixIsVideo("");
    if IsVideoName(fileName) {
      VideoNameHasSuffix(fileName);
    }
    if |fileName| >= 4 && fileName[|fileName| - 4..] == ".mp4" {
      var stem := fileName[..|fileName| - 4];
      VideoSuffixIsVideo(stem);
      assert fileName == stem + ".mp4";
    }
  }

  /* ---------------- the session trace ---------------- */

  /** Progress reports inside a stage, as opposed to the milestones that
      open and close stages. */
  predicate IsProgress(status: Status)
  {
    status == Audio || status == Text || status == Visual
  }

  /** The statuses of the milestone messages, in trace order. */
  function Milestones(t: seq<Event>): seq<Status>
  {
    if |t| == 0 then []
    else
      var e := t[|t| - 1];
      Milestones(t[..|t| - 1]) + (if e.Send? && !IsProgress(e.status) then [e.status] else [])
  }

  /** The stage each unit of work belongs to, in trace order. */
  function WorkStages(t: seq<Event>): seq<Stage>
  {
    if |t| == 0 then []
    else WorkStages(t[..|t| - 1]) + (if t[|t| - 1].Work? then [t[|t| - 1].stage] else [])
  }

  /** The session protocol: every message is followed by the wait for its
      acknowledgement, except "done", which is followed by closing the
      socket. */
  ghost predicate Lockstepped(t: seq<Event>)
  {
    forall i :: 0 <= i < |t| && t[i].Send? ==>
      i + 1 < |t| && (t[i + 1] == Ack || (t[i].status == Done && t[i + 1] == Close))
  }

  /** Milestones and work stages of a concatenation are those of the
      parts. */
  lemma {:induction false} TraceAppend(t: seq<Event>, u: seq<Event>)
    ensures Milestones(t + u) == Milestones(t) + Milestones(u)
    ensures WorkStages(t + u) == WorkStages(t) + WorkStages(u)
    decreases |u|
  {
    if |u| > 0 {
      var u' := u[..|u| - 1];
      assert (t + u)[..|t + u| - 1] == t + u';
      TraceAppend(t, u');
    } else {
      assert t + u == t;
    }
  }

  /** The protocol holds for a concatenation when it holds for both
      parts. */
  lemma LockstepAppend(t: seq<Event>, u: seq<Event>)
    requires Lockstepped(t) && Lockstepped(u)
    ensures Lockstepped(t + u)
  {
    var tu := t + u;
    forall i | 0 <= i < |tu| && tu[i].Send?
      ensures i + 1 < |tu| && (tu[i + 1] == Ack || (tu[i].status == Done && tu[i + 1] == Close))
    {
      if i < |t| {
        assert t[i].Send?;
      } else {
        assert u[i - |t|].Send?;
      }
    }
  }

  /** A trace with the given milestones and work stages. */
  predicate Shaped(t: seq<Event>, milestones: seq<Status>, stages: seq<Stage>)
  {
    Milestones(t) == milestones && WorkStages(t) == stages
  }

  /** Concatenated traces concatenate their milestones and work stages. */
  lemma ShapedAppend(t: seq<Event>, u: seq<Event>, mt: seq<Status>, wt: seq<Stage>, mu: seq<Status>, wu: seq<Stage>)
    requires Shaped(t, mt, wt) && Shaped(u, mu, wu)
    ensures Shaped(t + u, mt + mu, wt + wu)
  {
    TraceAppend(t, u);
  }

  lemma SingleEvent(e: Event)
    ensures Milestones([e]) == if e.Send? && !IsProgress(e.status) then [e.status] else []
    ensures WorkStages([e]) == if e.Work? then [e.stage] else []
  {
    assert [e][..0] == [];
  }

  /** A message and the wait for its acknowledgement. */
  function AckedSend(status: Status, data: Payload): seq<Event>
  {
    [Send(status, data), Ack]
  }

  lemma AckedSendTrace(status: Status, data: Payload)
    ensures Milestones(AckedSend(status, data)) == if IsProgress(status) then [] else [status]
    ensures WorkStages(AckedSend(status, data)) == []
    ensures Lockstepped(AckedSend(status, data))
  {
    SingleEvent(Send(status, data));
    SingleEvent(Ack);
    TraceAppend([Send(status, data)], [Ack]);
  }

  lemma UnitTrace(stage: Stage, status: Status, k: nat, n: nat, total: int)
    requires k > 0 && IsProgress(status)
    ensures Milestones(UnitEvents(stage, status, k, n, total)) == []
    ensures WorkStages(UnitEvents(stage, status, k, n, total)) == [stage]
  {
    var rest := if (n + 1) % k == 0 then AckedSend(status, Counter(n, total)) else [];
    assert UnitEvents(stage, status, k, n, total) == [Work(stage, n)] + rest;
    SingleEvent(Work(stage, n));
    AckedSendTrace(status, Counter(n, total));
    TraceAppend([Work(stage, n)], rest);
  }

  /** A paced stage sends progress reports only, each acknowledged, and
      works on its own stage once per unit. */
  lemma {:induction false} PacedTrace(stage: Stage, status: Status, k: nat, count: nat, total: int)
    requires k > 0 && IsProgress(status)
    ensures Milestones(Paced(stage, status, k, count, total)) == []
    ensures WorkStages(Paced(stage, status, k, count, total)) == Repeat(stage, count)
  {
    if count > 0 {
      var n := count - 1;
      var before := Paced(stage, status, k, n, total);
      var unit := UnitEvents(stage, status, k, n, total);
      assert Paced(stage, status, k, count, total) == before + unit;
      PacedTrace(stage, status, k, n, total);
      UnitTrace(stage, status, k, n, total);
      ShapedAppend(before, unit, [], Repeat(stage, n), [], [stage]);
      assert Repeat(stage, count) == Repeat(stage, n) + [stage];
    }
  }

  lemma PacedLockstepped(stage: Stage, status: Status, k: nat, count: nat, total: int)
    requires k > 0
    ensures Lockstepped(Paced(stage, status, k, count, total))
  {
    PacedAcked(stage, status, k, count, total);
  }

  /** n copies of x. */
  function Repeat<T>(x: T, n: nat): (r: seq<T>)
    ensures |r| == n
  {
    if n == 0 then [] else Repeat(x, n - 1) + [x]
  }

  /** Transcription, then the audio stage and its acknowledged "audio
      done". */
  function AudioPart(windows: nat): seq<Event>
  {
    [Work(Transcription, 0)]
    + Paced(AudioAnalysis, Audio, AudioResult.CommunicationAudioStep, windows, windows)
    + AckedSend(AudioDone, NoData)
  }

  lemma AudioPartTrace(windows: nat)
    ensures Milestones(AudioPart(windows)) == [AudioDone]
    ensures WorkStages(AudioPart(windows)) == [Transcription] + Repeat(AudioAnalysis, windows)
  {
    var a := [Work(Transcription, 0)];
    var b := Paced(AudioAnalysis, Audio, AudioResult.CommunicationAudioStep, windows, windows);
    var c := AckedSend(AudioDone, NoData);
    assert AudioPart(windows) == (a + b) + c;
    SingleEvent(Work(Transcription, 0));
    PacedTrace(AudioAnalysis, Audio, AudioResult.CommunicationAudioStep, windows, windows);
    AckedSendTrace(AudioDone, NoData);
    ShapedAppend(a, b, [], [Transcription], [], Repeat(AudioAnalysis, windows));
    ShapedAppend(a + b, c, [], [Transcription] + Repeat(AudioAnalysis, windows), [AudioDone], []);
    assert [Transcription] + Repeat(AudioAnalysis, windows) + [] == [Transcription] + Repeat(AudioAnalysis, windows);
    assert [] + [AudioDone] == [AudioDone];
  }

  lemma AudioPartLockstepped(windows: nat)
    ensures Lockstepped(AudioPart(windows))
  {
    var a := [Work(Transcription, 0)];
    var b := Paced(AudioAnalysis, Audio, AudioResult.CommunicationAudioStep, windows, windows);
    var c := AckedSend(AudioDone, NoData);
    assert AudioPart(windows) == (a + b) + c;
    PacedLockstepped(AudioAnalysis, Audio, AudioResult.CommunicationAudioStep, windows, windows);
    AckedSendTrace(AudioDone, NoData);
    LockstepAppend(a, b);
    LockstepAppend(a + b, c);
  }

  /** The visual stage up to the frame it stopped before. */
  function VisualPart(fps: real, frames: nat, total: int): seq<Event>
  {
    VisualResult.VisualStartEvents(fps) + Paced(VisualAnalysis, Visual, VisualResult.CommunicationVisualStep, frames, total)
  }

  lemma VisualPartTrace(fps: real, frames: nat, total: int)
    ensures Milestones(VisualPart(fps, frames, total)) == [VisualStart]
    ensures WorkStages(VisualPart(fps, frames, total)) == Repeat(VisualAnalysis, frames)
  {
    assert VisualResult.VisualStartEvents(fps) == AckedSend(VisualStart, FrameRate(fps));
    AckedSendTrace(VisualStart, FrameRate(fps));
    PacedTrace(VisualAnalysis, Visual, VisualResult.CommunicationVisualStep, frames, total);
    TraceAppend(VisualResult.VisualStartEvents(fps), Paced(VisualAnalysis, Visual, VisualResult.CommunicationVisualStep, frames, total));
  }

  lemma VisualPartLockstepped(fps: real, frames: nat, total: int)
    ensures Lockstepped(VisualPart(fps, frames, total))
  {
    assert VisualResult.VisualStartEvents(fps) == AckedSend(VisualStart, FrameRate(fps));
    AckedSendTrace(VisualStart, FrameRate(fps));
    PacedLockstepped(VisualAnalysis, Visual, VisualResult.CommunicationVisualStep, frames, total);
    LockstepAppend(VisualResult.VisualStartEvents(fps), Paced(VisualAnalysis, Visual, VisualResult.CommunicationVisualStep, frames, total));
  }

  /** The events of `process_uploaded` up to the end of the visual stage,
      after `processed` frames. */
  function ThroughVisual(windows: nat, fps: real, processed: nat, total: int): seq<Event>
  {
    (AudioPart(windows) + AckedSend(TextDone, NoData)) + VisualPart(fps, processed, total)
  }

  /** The audio stage followed by "text done". */
  lemma AudioTextTrace(windows: nat)
    ensures Shaped(AudioPart(windows) + AckedSend(TextDone, NoData), [AudioDone, TextDone],
                   [Transcription] + Repeat(AudioAnalysis, windows))
  {
    var a := AudioPart(windows);
    var b := AckedSend(TextDone, NoData);
    var w := [Transcription] + Repeat(AudioAnalysis, windows);
    assert Shaped(a, [AudioDone], w) by { AudioPartTrace(windows); }
    assert Shaped(b, [TextDone], []) by { AckedSendTrace(TextDone, NoData); }
    ShapedAppend(a, b, [AudioDone], w, [TextDone], []);
    assert [AudioDone] + [TextDone] == [AudioDone, TextDone];
    assert w + [] == w;
  }

  lemma ThroughVisualTrace(windows: nat, fps: real, processed: nat, total: int)
    ensures Milestones(ThroughVisual(windows, fps, processed, total)) == [AudioDone, TextDone, VisualStart]
    ensures WorkStages(ThroughVisual(windows, fps, processed, total)) ==
      [Transcription] + Repeat(AudioAnalysis, windows) + Repeat(VisualAnalysis, processed)
  {
    var ab := AudioPart(windows) + AckedSend(TextDone, NoData);
    var c := VisualPart(fps, processed, total);
    assert ThroughVisual(windows, fps, processed, total) == ab + c;
    AudioTextTrace(windows);
    VisualPartTrace(fps, processed, total);
    ShapedAppend(ab, c, [AudioDone, TextDone], [Transcription] + Repeat(AudioAnalysis, windows),
                 [VisualStart], Repeat(VisualAnalysis, processed));
    assert [AudioDone, TextDone] + [VisualStart] == [AudioDone, TextDone, VisualStart];
  }

  lemma ThroughVisualLockstepped(windows: nat, fps: real, processed: nat, total: int)
    ensures Lockstepped(ThroughVisual(windows, fps, processed, total))
  {
    var a := AudioPart(windows);
    var b := AckedSend(TextDone, NoData);
    AudioPartLockstepped(windows);
    AckedSendTrace(TextDone, NoData);
    VisualPartLockstepped(fps, processed, total);
    LockstepAppend(a, b);
    LockstepAppend(a + b, VisualPart(fps, processed, total));
  }

  /** The events of a complete run of `process_uploaded`. */
  function FullRun(windows: nat, fps: real, frames: nat, total: int): seq<Event>
  {
    ThroughVisual(windows, fps, frames, total) + AckedSend(VisualDone, NoData)
  }

  lemma FullRunTrace(windows: nat, fps: real, frames: nat, total: int)
    ensures Milestones(FullRun(windows, fps, frames, total)) == [AudioDone, TextDone, VisualStart, VisualDone]
    ensures WorkStages(FullRun(windows, fps, frames, total)) ==
      [Transcription] + Repeat(AudioAnalysis, windows) + Repeat(VisualAnalysis, frames)
  {
    var t := ThroughVisual(windows, fps, frames, total);
    var w := [Transcription] + Repeat(AudioAnalysis, windows) + Repeat(VisualAnalysis, frames);
    ThroughVisualTrace(windows, fps, frames, total);
    AckedSendTrace(VisualDone, NoData);
    ShapedAppend(t, AckedSend(VisualDone, NoData), [AudioDone, TextDone, VisualStart], w, [VisualDone], []);
    assert [AudioDone, TextDone, VisualStart] + [VisualDone] == [AudioDone, TextDone, VisualStart, VisualDone] && w + [] == w;
  }

  lemma FullRunLockstepped(windows: nat, fps: real, frames: nat, total: int)
    ensures Lockstepped(FullRun(windows, fps, frames, total))
  {
    var t := ThroughVisual(windows, fps, frames, total);
    ThroughVisualLockstepped(windows, fps, frames, total);
    AckedSendTrace(VisualDone, NoData);
    LockstepAppend(t, AckedSend(VisualDone, NoData));
  }

  /* ---------------- process_uploaded and socket_connection ---------------- */

  /** What a session works on: the upload's duration, frame rate and
      frames. A session carries no language. */
  datatype Upload = Upload(duration: real, fps: real, frames: seq<VisualResult.Frame>)

  /** The language `text2speech` always transcribes in, and so the only
      language the text stage of a session can be consistent with. */
  const TranscriptLanguage := "en"

  /** The external models of all stages. `transcript` is what `text2speech`
      yields for the upload: its segments, or the exception it raises. */
  datatype Models = Models(
    transcript: Result<seq<TextResult.Segment>, PyError>,
    analyze: AudioResult.Window -> Result<AudioResult.AudioOutput, PyError>,
    text: TextResult.TextModels,
    detect: VisualResult.Frame -> Result<Option<FaceDetector.Detection>, PyError>,
    predict: VisualResult.FaceCrop -> Result<seq<real>, PyError>)

  /** The models keep the promises the stages rely on. */
  ghost predicate ModelsValid(u: Upload, m: Models)
  {
    && AudioResult.AnalyzerValid(u.duration, m.analyze)
    && (m.transcript.Success? ==>
         forall i :: 0 <= i < |m.transcript.value| ==> TextResult.Renormalisable(TranscriptLanguage, m.text, m.transcript.value[i]))
    && VisualResult.DetectorValid(m.detect)
    && VisualResult.RecogniserValid(m.predict)
  }

  /** The three result tables. */
  datatype Outputs = Outputs(
    audio: seq<AudioResult.AudioRow>, text: seq<TextResult.TextRow>, faces: seq<VisualResult.FaceRow>)

  /** The milestones of a complete run of `process_uploaded`. */
  const StageMilestones := [AudioDone, TextDone, VisualStart, VisualDone]

  /** The stages of work in a run that got through the audio stage and then
      `frames` frames. */
  function StagesWorked(u: Upload, frames: nat): seq<Stage>
  {
    [Transcription]
    + Repeat(AudioAnalysis, AudioResult.WindowCount(u.duration))
    + Repeat(VisualAnalysis, frames)
  }

  /** Every segment of a transcript is analysed without raising. */
  ghost predicate TextAnalysed(u: Upload, m: Models)
  {
    m.transcript.Success? &&
    forall i :: 0 <= i < |m.transcript.value| ==> TextResult.AnalyzeSegment(TranscriptLanguage, m.text, m.transcript.value[i]).Success?
  }

  /** Transcription raised `error`: nothing was done and nothing sent. */
  ghost predicate StoppedInTranscription(m: Models, events: seq<Event>, error: PyError)
  {
    m.transcript == Failure(error) && events == []
  }

  /** Window k of the audio stage, the first that raised, raised `error`:
      the run stopped after the transcription and the paced reports of the
      windows before k, before any milestone. */
  ghost predicate StoppedInAudio(u: Upload, m: Models, events: seq<Event>, error: PyError)
  {
    && m.transcript.Success?
    && Milestones(events) == []
    && exists k: nat ::
      && k < AudioResult.WindowCount(u.duration)
      && AudioResult.AnalysedBefore(u.duration, m.analyze, k)
      && m.analyze(AudioResult.WindowAt(u.duration, k)) == Failure(error)
      && WorkStages(events) == [Transcription] + Repeat(AudioAnalysis, k)
      && events == [Work(Transcription, 0)] + Paced(AudioAnalysis, Audio, AudioResult.CommunicationAudioStep, k, AudioResult.WindowCount(u.duration))
  }

  /** The first segment whose analysis raised raised `error`: the run
      stopped right after the audio stage and "audio done". */
  ghost predicate StoppedInText(u: Upload, m: Models, events: seq<Event>, error: PyError)
  {
    && m.transcript.Success?
    && AudioResult.AllAnalysed(u.duration, m.analyze)
    && Milestones(events) == StageMilestones[..1]
    && WorkStages(events) == StagesWorked(u, 0)
    && events == AudioPart(AudioResult.WindowCount(u.duration))
    && FirstSegmentRaises(m, error)
  }

  /** Some segment raises `error` and every segment before it is analysed
      without raising. */
  ghost predicate FirstSegmentRaises(m: Models, error: PyError)
    requires m.transcript.Success?
  {
    exists i ::
      && 0 <= i < |m.transcript.value|
      && TextResult.AnalyzeSegment(TranscriptLanguage, m.text, m.transcript.value[i]) == Failure(error)
      && forall j :: 0 <= j < i ==> TextResult.AnalyzeSegment(TranscriptLanguage, m.text, m.transcript.value[j]).Success?
  }

  /** Frame i, the first that raised, raised `error`: the run stopped after
      "visual start" and the reports of the frames before it. */
  ghost predicate StoppedInVisual(u: Upload, m: Models, events: seq<Event>, error: PyError)
    requires ModelsValid(u, m)
  {
    && AudioResult.AllAnalysed(u.duration, m.analyze)
    && TextAnalysed(u, m)
    && Milestones(events) == StageMilestones[..3]
    && exists i ::
      && 0 <= i < |u.frames|
      && VisualResult.VideoRows(u.frames, m.detect, m.predict, i).Success?
      && VisualResult.FrameFaces(i, u.frames[i], m.detect, m.predict) == Failure(error)
      && WorkStages(events) == StagesWorked(u, i)
      && events == ThroughVisual(AudioResult.WindowCount(u.duration), u.fps, i, VisualResult.FrameTotal(u.fps, u.duration))
  }

  /** The run stopped with `error` in one of its four steps. */
  ghost predicate Stopped(u: Upload, m: Models, events: seq<Event>, error: PyError)
    requires ModelsValid(u, m)
  {
    || StoppedInTranscription(m, events, error)
    || StoppedInAudio(u, m, events, error)
    || StoppedInText(u, m, events, error)
    || StoppedInVisual(u, m, events, error)
  }

  /** Every step of the run gets through: the transcript, every audio
      window, every segment and every frame. */
  ghost predicate SessionSucceeds(u: Upload, m: Models)
    requires ModelsValid(u, m)
  {
    && m.transcript.Success?
    && AudioResult.AllAnalysed(u.duration, m.analyze)
    && TextAnalysed(u, m)
    && VisualResult.VideoRows(u.frames, m.detect, m.predict, |u.frames|).Success?
  }

  /** A window that raised means not every window was analysed. */
  lemma WindowRaisedNotAll(u: Upload, m: Models, k: nat)
    requires k < AudioResult.WindowCount(u.duration)
    requires m.analyze(AudioResult.WindowAt(u.duration, k)).Failure?
    ensures !AudioResult.AllAnalysed(u.duration, m.analyze)
  {
  }

  /** The trace of a run the audio stage stopped at window k. */
  lemma AudioStopTrace(u: Upload, m: Models, k: nat, error: PyError)
    requires m.transcript.Success?
    requires k < AudioResult.WindowCount(u.duration)
    requires AudioResult.AnalysedBefore(u.duration, m.analyze, k)
    requires m.analyze(AudioResult.WindowAt(u.duration, k)) == Failure(error)
    ensures var t := [Work(Transcription, 0)] + Paced(AudioAnalysis, Audio, AudioResult.CommunicationAudioStep, k, AudioResult.WindowCount(u.duration));
      && StoppedInAudio(u, m, t, error)
      && Lockstepped(t) && |t| > 0 && t[0] == Work(Transcription, 0)
  {
    var windows := AudioResult.WindowCount(u.duration);
    var p := Paced(AudioAnalysis, Audio, AudioResult.CommunicationAudioStep, k, windows);
    SingleEvent(Work(Transcription, 0));
    PacedTrace(AudioAnalysis, Audio, AudioResult.CommunicationAudioStep, k, windows);
    PacedLockstepped(AudioAnalysis, Audio, AudioResult.CommunicationAudioStep, k, windows);
    ShapedAppend([Work(Transcription, 0)], p, [], [Transcription], [], Repeat(AudioAnalysis, k));
    LockstepAppend([Work(Transcription, 0)], p);
  }

  /** The trace of a run the text stage stopped. */
  lemma {:induction false} TextStopTrace(u: Upload, m: Models, error: PyError)
    requires m.transcript.Success? && AudioResult.AllAnalysed(u.duration, m.analyze)
    requires FirstSegmentRaises(m, error)
    ensures var t := AudioPart(AudioResult.WindowCount(u.duration));
      && StoppedInText(u, m, t, error)
      && Lockstepped(t) && |t| > 0 && t[0] == Work(Transcription, 0)
  {
    var windows := AudioResult.WindowCount(u.duration);
    AudioPartTrace(windows);
    AudioPartLockstepped(windows);
    assert StagesWorked(u, 0) == [Transcription] + Repeat(AudioAnalysis, windows) + Repeat(VisualAnalysis, 0);
  }

  /** The trace of a run stopped by frame `processed`. */
  lemma {:induction false} VisualStopTrace(u: Upload, m: Models, processed: nat, error: PyError)
    requires ModelsValid(u, m)
    requires AudioResult.AllAnalysed(u.duration, m.analyze) && TextAnalysed(u, m)
    requires processed < |u.frames|
    requires VisualResult.VideoRows(u.frames, m.detect, m.predict, processed).Success?
    requires VisualResult.FrameFaces(processed, u.frames[processed], m.detect, m.predict) == Failure(error)
    ensures var t := ThroughVisual(AudioResult.WindowCount(u.duration), u.fps, processed, VisualResult.FrameTotal(u.fps, u.duration));
      && StoppedInVisual(u, m, t, error)
      && Lockstepped(t) && |t| > 0 && t[0] == Work(Transcription, 0)
  {
    var windows := AudioResult.WindowCount(u.duration);
    var total := VisualResult.FrameTotal(u.fps, u.duration);
    var t := ThroughVisual(windows, u.fps, processed, total);
    ThroughVisualTrace(windows, u.fps, processed, total);
    ThroughVisualLockstepped(windows, u.fps, processed, total);
    assert t[0] == AudioPart(windows)[0];
  }

  /** The events of a complete run of `process_uploaded` on an upload. */
  function SessionRun(u: Upload): seq<Event>
  {
    FullRun(AudioResult.WindowCount(u.duration), u.fps, |u.frames|, VisualResult.FrameTotal(u.fps, u.duration))
  }

  /** The trace of a complete run. */
  lemma {:induction false} CompleteTrace(u: Upload, total: int)
    ensures var t := FullRun(AudioResult.WindowCount(u.duration), u.fps, |u.frames|, total);
      && Milestones(t) == StageMilestones
      && WorkStages(t) == StagesWorked(u, |u.frames|)
      && Lockstepped(t) && |t| > 0 && t[0] == Work(Transcription, 0)
  {
    var windows := AudioResult.WindowCount(u.duration);
    var t := FullRun(windows, u.fps, |u.frames|, total);
    FullRunTrace(windows, u.fps, |u.frames|, total);
    FullRunLockstepped(windows, u.fps, |u.frames|, total);
    assert t[0] == AudioPart(windows)[0];
  }

  /** `process_uploaded` with the evidently intended call of the text stage,
      which passes the transcript's language "en": transcription, then the audio,
      text and visual stages strictly in turn, each closed by an
      acknowledged milestone.
      Nothing is caught: an exception in any step ends the run with that
      error. */
  method ProcessUploaded(id: int, u: Upload, m: Models)
    returns (r: Result<(Payload, Outputs), PyError>, events: seq<Event>)
    requires ModelsValid(u, m)
    ensures Lockstepped(events)
    ensures m.transcript.Failure? ==> r == Failure(m.transcript.error) && events == []
    ensures m.transcript.Success? ==> |events| > 0 && events[0] == Work(Transcription, 0)
    ensures r.Success? ==> Milestones(events) == StageMilestones && WorkStages(events) == StagesWorked(u, |u.frames|)
    ensures r.Success? ==> events == SessionRun(u)
    ensures r.Failure? ==> Stopped(u, m, events, r.error)
    ensures r.Success? ==> r.value.0 == ResultPathsOf(id)
    ensures r.Success? ==> m.transcript.Success? && AudioResult.AllAnalysed(u.duration, m.analyze) && TextAnalysed(u, m)
    ensures r.Success? <==> SessionSucceeds(u, m)
    ensures r.Success? ==>
      && r.value.1.audio == AudioResult.GridRows(AudioResult.Observations(u.duration, m.analyze), u.duration)
      && |r.value.1.text| == |m.transcript.value|
      && Success(r.value.1.text) == TextResult.Gather(TextResult.SegmentRows(m.transcript.value, TranscriptLanguage, m.text))
      && Success(r.value.1.faces) == VisualResult.VideoRows(u.frames, m.detect, m.predict, |u.frames|)
  {
    if m.transcript.Failure? {
      return Failure(m.transcript.error), [];
    }
    var segments := m.transcript.value;
    var audio, analysed, audioEvents := AudioResult.ProcessAudioFile(u.duration, m.analyze);
    if audio.Failure? {
      events := [Work(Transcription, 0)] + audioEvents;
      AudioStopTrace(u, m, analysed, audio.error);
      WindowRaisedNotAll(u, m, analysed);
      return Failure(audio.error), events;
    }
    var windows := |audio.value|;
    var text := TextResult.ProcessTextFile(segments, TranscriptLanguage, m.text);
    if text.Failure? {
      events := AudioPart(windows);
      TextStopTrace(u, m, text.error);
      return Failure(text.error), events;
    }
    var faces, processed, visualEvents := VisualResult.ProcessVideoFile(u.fps, u.duration, u.frames, m.detect, m.predict);
    ghost var total := VisualResult.FrameTotal(u.fps, u.duration);
    assert visualEvents == VisualPart(u.fps, processed, total);
    events := (AudioPart(windows) + AckedSend(TextDone, NoData)) + visualEvents;
    if faces.Failure? {
      VisualStopTrace(u, m, processed, faces.error);
      return Failure(faces.error), events;
    }
    events := events + AckedSend(VisualDone, NoData);
    CompleteTrace(u, total);
    r := Success((ResultPathsOf(id), Outputs(audio.value, text.value, faces.value)));
  }

  /* ---------------- the text call as written ---------------- */

  /** The parameters of `process_text_file`, in order; none has a default. */
  const TextFileParameters := ["file_path", "result_path", "lang", "socket"]

  /** The arguments `process_uploaded` passes to it as written: the socket
      lands in `lang` and nothing is left for `socket`. */
  const TextCallAsWritten := ["text2speech_path", "text_result_path", "socket"]

  /** The evidently intended call, which `ProcessUploaded` makes: the
      language the transcript is in, "en", goes to `lang`. Each argument is
      written as the expression the call passes. */
  const TextCallIntended := ["text2speech_path", "text_result_path", "\"en\"", "socket"]

  /** The message of the TypeError for a missing required parameter. */
  function MissingArgumentMessage(parameter: string): string
  {
    "missing required positional argument: '" + parameter + "'"
  }

  const TooManyArgumentsMessage := "too many positional arguments"

  /** Python's binding of positional arguments to parameters without
      defaults: the argument bound to each parameter in order, or TypeError
      when there are too few (naming the first parameter left unbound) or
      too many. */
  function BindPositional(parameters: seq<string>, arguments: seq<string>): (r: Result<seq<string>, PyError>)
    ensures r.Success? <==> |arguments| == |parameters|
    ensures |arguments| < |parameters| ==> r == Failure(TypeError(MissingArgumentMessage(parameters[|arguments|])))
    ensures r.Success? ==> |r.value| == |parameters| && forall k :: 0 <= k < |parameters| ==> r.value[k] == arguments[k]
  {
    if |arguments| < |parameters| then Failure(TypeError(MissingArgumentMessage(parameters[|arguments|])))
    else if |arguments| > |parameters| then Failure(TypeError(TooManyArgumentsMessage))
    else Success(arguments)
  }

  /** As written the call binds the socket to `lang` and leaves `socket`
      unbound, so it raises TypeError before the stage starts; the intended
      call binds the transcript's language, "en", to `lang`. */
  lemma TextCallBinding()
    ensures BindPositional(TextFileParameters, TextCallAsWritten) == Failure(TypeError(MissingArgumentMessage("socket")))
    ensures BindPositional(TextFileParameters, TextCallIntended).Success?
    ensures BindPositional(TextFileParameters, TextCallIntended).value[2] == "\"" + TranscriptLanguage + "\""
  {
  }

  /** The run stopped at the call of `process_text_file` as written: every
      audio window went through and "audio done" was acknowledged, then the
      call raised TypeError. */
  ghost predicate StoppedAtTextCall(u: Upload, m: Models, events: seq<Event>, error: PyError)
  {
    && m.transcript.Success?
    && AudioResult.AllAnalysed(u.duration, m.analyze)
    && Milestones(events) == StageMilestones[..1]
    && WorkStages(events) == StagesWorked(u, 0)
    && events == AudioPart(AudioResult.WindowCount(u.duration))
    && error == TypeError(MissingArgumentMessage("socket"))
  }

  /** `process_uploaded` exactly as written: transcription and the audio
      stage as in `ProcessUploaded`, then the three-argument call of
      `process_text_file`. No run gets past it: every session ends with an
      exception, at the latest the TypeError right after "audio done". */
  method ProcessUploadedAsWritten(u: Upload, m: Models)
    returns (r: Result<(Payload, Outputs), PyError>, events: seq<Event>)
    requires ModelsValid(u, m)
    ensures r.Failure?
    ensures Lockstepped(events)
    ensures m.transcript.Failure? ==> StoppedInTranscription(m, events, r.error)
    ensures m.transcript.Success? && !AudioResult.AllAnalysed(u.duration, m.analyze) ==> StoppedInAudio(u, m, events, r.error)
    ensures m.transcript.Success? && AudioResult.AllAnalysed(u.duration, m.analyze) ==> StoppedAtTextCall(u, m, events, r.error)
  {
    if m.transcript.Failure? {
      return Failure(m.transcript.error), [];
    }
    var audio, analysed, audioEvents := AudioResult.ProcessAudioFile(u.duration, m.analyze);
    if audio.Failure? {
      events := [Work(Transcription, 0)] + audioEvents;
      AudioStopTrace(u, m, analysed, audio.error);
      WindowRaisedNotAll(u, m, analysed);
      return Failure(audio.error), events;
    }
    var windows := |audio.value|;
    events := AudioPart(windows);
    AudioPartTrace(windows);
    AudioPartLockstepped(windows);
    var call := BindPositional(TextFileParameters, TextCallAsWritten);
    r := Failure(call.error);
  }

  /** A session that got through: the upload notice, the run, then the
      result paths and the close. */
  function Finished(run: seq<Event>, paths: Payload): seq<Event>
  {
    (AckedSend(Uploaded, NoData) + run) + [Send(Done, paths), Close]
  }

  /** A session ended by an exception in the run. */
  function Aborted(run: seq<Event>): seq<Event>
  {
    (AckedSend(Uploaded, NoData) + run) + [Abort]
  }

  lemma FinishedTrace(run: seq<Event>, paths: Payload)
    ensures Milestones(Finished(run, paths)) == [Uploaded] + Milestones(run) + [Done]
  {
    AckedSendTrace(Uploaded, NoData);
    SingleEvent(Send(Done, paths));
    SingleEvent(Close);
    TraceAppend([Send(Done, paths)], [Close]);
    TraceAppend(AckedSend(Uploaded, NoData), run);
    TraceAppend(AckedSend(Uploaded, NoData) + run, [Send(Done, paths), Close]);
  }

  lemma FinishedLockstepped(run: seq<Event>, paths: Payload)
    requires Lockstepped(run)
    ensures Lockstepped(Finished(run, paths))
  {
    AckedSendTrace(Uploaded, NoData);
    LockstepAppend(AckedSend(Uploaded, NoData), run);
    var t := Finished(run, paths);
    forall i | 0 <= i < |t| && t[i].Send?
      ensures i + 1 < |t| && (t[i + 1] == Ack || (t[i].status == Done && t[i + 1] == Close))
    {
      var head := AckedSend(Uploaded, NoData) + run;
      if i < |head| {
        assert head[i].Send? && t[i + 1] == head[i + 1];
      }
    }
  }

  lemma AbortedLockstepped(run: seq<Event>)
    requires Lockstepped(run)
    ensures Lockstepped(Aborted(run))
  {
    AckedSendTrace(Uploaded, NoData);
    LockstepAppend(AckedSend(Uploaded, NoData), run);
    LockstepAppend(AckedSend(Uploaded, NoData) + run, [Abort]);
  }

  /** `socket_connection`: take the next session id, acknowledge the upload,
      run the stages, and either report the result paths and close, or end
      with the run's exception. Storing the upload is left to the caller. */
  method SocketConnection(pool: VideoNamePool, u: Upload, m: Models)
    returns (next: VideoNamePool, r: Result<Outputs, PyError>, events: seq<Event>)
    requires ModelsValid(u, m)
    ensures next.latest == pool.latest + 1
    ensures Lockstepped(events)
    ensures |events| >= 3 && events[..2] == [Send(Uploaded, NoData), Ack]
    ensures r.Success? ==>
      && Milestones(events) == [Uploaded] + StageMilestones + [Done]
      && events[|events| - 2..] == [Send(Done, ResultPathsOf(next.latest)), Close]
    ensures r.Success? ==> events == Finished(SessionRun(u), ResultPathsOf(next.latest))
    ensures r.Failure? ==>
      && events[|events| - 1] == Abort
      && Stopped(u, m, events[2..|events| - 1], r.error)
    ensures r.Failure? ==> events == Aborted(events[2..|events| - 1])
    ensures r.Success? <==> SessionSucceeds(u, m)
    ensures r.Success? ==>
      && m.transcript.Success?
      && r.value.audio == AudioResult.GridRows(AudioResult.Observations(u.duration, m.analyze), u.duration)
      && Success(r.value.text) == TextResult.Gather(TextResult.SegmentRows(m.transcript.value, TranscriptLanguage, m.text))
      && Success(r.value.faces) == VisualResult.VideoRows(u.frames, m.detect, m.predict, |u.frames|)
  {
    var taken := Get(pool);
    next := taken.0;
    var id := taken.1;
    var result, run := ProcessUploaded(id, u, m);
    if result.Failure? {
      events := Aborted(run);
      AbortedLockstepped(run);
      assert events[2..|events| - 1] == run;
      return next, Failure(result.error), events;
    }
    var (paths, outputs) := result.value;
    events := Finished(run, paths);
    FinishedTrace(run, paths);
    FinishedLockstepped(run, paths);
    r := Success(outputs);
  }
}

=== FILE: misc.dfy ===
/** Byte-range requests for the uploaded video and the pool of session
    directory names. The file itself and its size come from outside; the
    streaming of the bytes is not modelled. */
module Misc {
  import opened Wrappers
  import opened PyInt
  import opened PyStr

  /* ---------------- _get_range_header ---------------- */

  const RangeNotSatisfiable := 416
  const PartialContent := 206
  const Ok := 200
  const RangePrefix := "bytes="

  /** An exception leaving `_get_range_header`: the 416 HTTPException, or a
      Python error that is not caught. */
  datatype HttpError =
    | HttpException(statusCode: int, detail: string)
    | Raised(error: PyError)

  /** `repr` of the header, for headers without quotes or backslashes. */
  function Quote(s: string): string
  {
    "'" + s + "'"
  }

  function InvalidRange(header: string): HttpError
  {
    HttpException(RangeNotSatisfiable, "Invalid request range (Range:" + Quote(header) + ")")
  }

  /** `_get_range_header(range_header, file_size)`: strip every "bytes=",
      split on '-', read the first two pieces (an empty start is 0, an empty
      end is the last byte), and accept only a range inside the file. The
      start is parsed before the end piece is looked up, so an unparsable
      start answers 416 even when there is no end piece; a missing end piece
      raises IndexError, which escapes. */
  function GetRangeHeader(header: string, fileSize: nat): (r: Result<(int, int), HttpError>)
    ensures r.Success? ==> 0 <= r.value.0 <= r.value.1 <= fileSize - 1
    ensures r.Failure? ==> r.error == InvalidRange(header) || r.error == Raised(IndexError)
  {
    var h := Split(RemoveAll(header, RangePrefix), '-');
    var start := if h[0] == "" then Some(0) else ParseInt(h[0]);
    if start.None? then Failure(InvalidRange(header))
    else if |h| < 2 then Failure(Raised(IndexError))
    else
      var end := if h[1] == "" then Some(fileSize - 1) else ParseInt(h[1]);
      if end.None? then Failure(InvalidRange(header))
      else if start.value > end.value || start.value < 0 || end.value > fileSize - 1 then
        Failure(InvalidRange(header))
      else Success((start.value, end.value))
  }

  /** The pieces never hold a '-', so the start parsed from the header is
      never negative and the `start < 0` test cannot fire. */
  lemma StartNeverNegative(header: string, fileSize: nat)
    ensures var h := Split(RemoveAll(header, RangePrefix), '-');
      h[0] != "" && ParseInt(h[0]).Some? ==> ParseInt(h[0]).value >= 0
  {
    SplitPiecesFree(RemoveAll(header, RangePrefix), '-');
  }

  /** A header without any '-' after stripping "bytes=" raises IndexError
      unless its start is already unparsable. */
  lemma MissingDashEscapes(header: string, fileSize: nat)
    requires '-' !in RemoveAll(header, RangePrefix)
    ensures var rest := RemoveAll(header, RangePrefix);
      GetRangeHeader(header, fileSize) ==
        if rest == "" || ParseInt(rest).Some? then Failure(Raised(IndexError)) else Failure(InvalidRange(header))
  {
    SplitAbsent(RemoveAll(header, RangePrefix), '-');
  }

  /** Every well-formed range inside the file is accepted as written. */
  lemma AcceptsRangeInsideFile(first: nat, last: nat, fileSize: nat)
    requires first <= last < fileSize
    ensures GetRangeHeader(RangePrefix + ToDecimal(first) + "-" + ToDecimal(last), fileSize) == Success((first, last))
  {
    var a := ToDecimal(first);
    var b := ToDecimal(last);
    var rest := a + "-" + b;
    assert RangePrefix + a + "-" + b == RangePrefix + rest;
    RemoveAllLeading(RangePrefix, rest);
    NatDigitsHasNoSign(first, 'b');
    NatDigitsHasNoSign(last, 'b');
    NatDigitsHasNoSign(first, '-');
    NatDigitsHasNoSign(last, '-');
    RemoveAllAbsent(rest, RangePrefix);
    SplitAt(a, '-', b);
    SplitAbsent(a, '-');
    SplitAbsent(b, '-');
    assert rest == a + ['-'] + b;
    ParseToDecimal(first);
    ParseToDecimal(last);
  }

  /** Only the first two pieces are read: whatever follows a second '-' is
      ignored. */
  lemma ExtraPiecesIgnored(first: nat, last: nat, tail: string, fileSize: nat)
    requires first <= last < fileSize
    requires 'b' !in tail
    ensures GetRangeHeader(RangePrefix + ToDecimal(first) + "-" + ToDecimal(last) + "-" + tail, fileSize) == Success((first, last))
  {
    var a := ToDecimal(first);
    var b := ToDecimal(last);
    var rest := a + ['-'] + (b + ['-'] + tail);
    assert RangePrefix + a + "-" + b + "-" + tail == RangePrefix + rest;
    RemoveAllLeading(RangePrefix, rest);
    NatDigitsHasNoSign(first, 'b');
    NatDigitsHasNoSign(last, 'b');
    NatDigitsHasNoSign(first, '-');
    NatDigitsHasNoSign(last, '-');
    RemoveAllAbsent(rest, RangePrefix);
    FirstTwoPieces(a, b, tail);
    ParseToDecimal(first);
    ParseToDecimal(last);
  }

  /** The first two pieces of "a-b-tail" are a and b. */
  lemma FirstTwoPieces(a: string, b: string, tail: string)
    requires '-' !in a && '-' !in b
    ensures var h := Split(a + ['-'] + (b + ['-'] + tail), '-');
      |h| >= 2 && h[0] == a && h[1] == b
  {
    SplitAt(a, '-', b + ['-'] + tail);
    SplitAt(b, '-', tail);
    SplitAbsent(a, '-');
    SplitAbsent(b, '-');
  }

  /** Every parsable range outside the file, or reversed, answers 416. */
  lemma RejectsRangeOutsideFile(first: nat, last: nat, fileSize: nat)
    requires first > last || last >= fileSize
    ensures GetRangeHeader(RangePrefix + ToDecimal(first) + "-" + ToDecimal(last), fileSize)
      == Failure(InvalidRange(RangePrefix + ToDecimal(first) + "-" + ToDecimal(last)))
  {
    var a := ToDecimal(first);
    var b := ToDecimal(last);
    var rest := a + "-" + b;
    assert RangePrefix + a + "-" + b == RangePrefix + rest;
    RemoveAllLeading(RangePrefix, rest);
    NatDigitsHasNoSign(first, 'b');
    NatDigitsHasNoSign(last, 'b');
    NatDigitsHasNoSign(first, '-');
    NatDigitsHasNoSign(last, '-');
    RemoveAllAbsent(rest, RangePrefix);
    SplitAt(a, '-', b);
    SplitAbsent(a, '-');
    SplitAbsent(b, '-');
    assert rest == a + ['-'] + b;
    ParseToDecimal(first);
    ParseToDecimal(last);
  }

  /** "bytes=-N" is read as bytes 0 to N, not as the last N bytes. */
  lemma SuffixFormIsAPrefix(last: nat, fileSize: nat)
    requires last < fileSize
    ensures GetRangeHeader(RangePrefix + "-" + ToDecimal(last), fileSize) == Success((0, last))
  {
    var b := ToDecimal(last);
    var rest := "-" + b;
    assert RangePrefix + "-" + b == RangePrefix + rest;
    RemoveAllLeading(RangePrefix, rest);
    NatDigitsHasNoSign(last, 'b');
    NatDigitsHasNoSign(last, '-');
    RemoveAllAbsent(rest, RangePrefix);
    SplitAt("", '-', b);
    SplitAbsent("", '-');
    SplitAbsent(b, '-');
    assert rest == "" + ['-'] + b;
    ParseToDecimal(last);
  }

  /** An open end runs to the last byte of the file. */
  lemma OpenEndRunsToLastByte(first: nat, fileSize: nat)
    requires first < fileSize
    ensures GetRangeHeader(RangePrefix + ToDecimal(first) + "-", fileSize) == Success((first, fileSize - 1))
  {
    var a := ToDecimal(first);
    var rest := a + "-";
    assert RangePrefix + a + "-" == RangePrefix + rest;
    RemoveAllLeading(RangePrefix, rest);
    NatDigitsHasNoSign(first, 'b');
    NatDigitsHasNoSign(first, '-');
    RemoveAllAbsent(rest, RangePrefix);
    SplitAt(a, '-', "");
    SplitAbsent(a, '-');
    assert rest == a + ['-'] + "";
    ParseToDecimal(first);
  }

  /** A start that is not a number answers 416. */
  lemma UnparsableStartIsRejected(fileSize: nat)
    ensures GetRangeHeader("abc", fileSize) == Failure(InvalidRange("abc"))
  {
    assert RemoveAll("abc", RangePrefix) == "abc";
    SplitAbsent("abc", '-');
    assert !IsDigit('a');
  }

  /* ---------------- range_requests_response ---------------- */

  /** The response head: status, headers in insertion order, and the
      inclusive byte range that is streamed. */
  datatype RangeResponse = RangeResponse(
    statusCode: int, headers: seq<(string, string)>, first: int, last: int)

  /** The value of a header, if present; a later entry for the same name
      replaces an earlier one in place. */
  function Lookup(headers: seq<(string, string)>, name: string): Option<string>
  {
    if |headers| == 0 then None
    else if headers[|headers| - 1].0 == name then Some(headers[|headers| - 1].1)
    else Lookup(headers[..|headers| - 1], name)
  }

  /** Dictionary assignment: replace the value in place, or append. */
  function SetHeader(headers: seq<(string, string)>, name: string, value: string): (r: seq<(string, string)>)
    ensures Lookup(r, name) == Some(value)
  {
    if |headers| == 0 then [(name, value)]
    else
      var init := headers[..|headers| - 1];
      var last := headers[|headers| - 1];
      if last.0 == name then init + [(name, value)]
      else
        var r := SetHeader(init, name, value) + [last];
        assert r[..|r| - 1] == SetHeader(init, name, value);
        r
  }

  /** Assigning one header leaves every other header's value alone. */
  lemma {:induction false} SetHeaderOthers(headers: seq<(string, string)>, name: string, value: string, other: string)
    requires other != name
    ensures Lookup(SetHeader(headers, name, value), other) == Lookup(headers, other)
  {
    if |headers| > 0 {
      var init := headers[..|headers| - 1];
      var last := headers[|headers| - 1];
      if last.0 == name {
        var r := init + [(name, value)];
        assert r[..|r| - 1] == init;
      } else {
        SetHeaderOthers(init, name, value, other);
        var r := SetHeader(init, name, value) + [last];
        assert r[..|r| - 1] == SetHeader(init, name, value);
      }
    }
  }

  const ExposedHeaders := "content-type, accept-ranges, content-length, content-range, content-encoding"

  function BaseHeaders(contentType: string, fileSize: nat): seq<(string, string)>
  {
    [("content-type", contentType),
     ("accept-ranges", "bytes"),
     ("content-encoding", "identity"),
     ("content-length", ToDecimal(fileSize)),
     ("access-control-expose-headers", ExposedHeaders)]
  }

  lemma BaseHeadersLookup(contentType: string, fileSize: nat)
    ensures var base := BaseHeaders(contentType, fileSize);
      && Lookup(base, "content-type") == Some(contentType)
      && Lookup(base, "accept-ranges") == Some("bytes")
      && Lookup(base, "content-length") == Some(ToDecimal(fileSize))
      && Lookup(base, "content-range") == None
  {
    var base := BaseHeaders(contentType, fileSize);
    assert base[..4][..3] == base[..3];
    assert base[..3][..2] == base[..2];
    assert base[..2][..1] == base[..1];
    assert base[..1][..0] == [];
    assert Lookup(base[..1], "content-range") == None;
    assert Lookup(base[..2], "content-range") == None;
    assert Lookup(base[..3], "content-range") == None;
    assert Lookup(base[..4], "content-range") == None;
    assert Lookup(base[..1], "content-type") == Some(contentType);
    assert Lookup(base[..2], "content-type") == Some(contentType);
    assert Lookup(base[..3], "content-type") == Some(contentType);
    assert Lookup(base[..4], "content-type") == Some(contentType);
    assert Lookup(base[..2], "accept-ranges") == Some("bytes");
    assert Lookup(base[..3], "accept-ranges") == Some("bytes");
    assert Lookup(base[..4], "accept-ranges") == Some("bytes");
  }

  /** `range_requests_response` without the file: with no Range header the
      whole file is sent with 200; with one, the parsed range is sent with
      206, its own length and a Content-Range; a bad header raises. */
  function RangeRequestsResponse(rangeHeader: Option<string>, fileSize: nat, contentType: string): (r: Result<RangeResponse, HttpError>)
    ensures rangeHeader.None? ==>
      r.Success? && r.value.statusCode == Ok && r.value.first == 0 && r.value.last == fileSize - 1
    ensures rangeHeader.Some? ==> r.Success? == GetRangeHeader(rangeHeader.value, fileSize).Success?
    ensures rangeHeader.Some? && r.Success? ==>
      r.value.statusCode == PartialContent && (r.value.first, r.value.last) == GetRangeHeader(rangeHeader.value, fileSize).value
    ensures rangeHeader.Some? && r.Failure? ==> r.error == GetRangeHeader(rangeHeader.value, fileSize).error
  {
    var headers := BaseHeaders(contentType, fileSize);
    match rangeHeader
    case None => Success(RangeResponse(Ok, headers, 0, fileSize - 1))
    case Some(header) =>
      var range :- GetRangeHeader(header, fileSize);
      Success(PartialResponse(contentType, fileSize, range.0, range.1))
  }

  /** The 206 answer for the inclusive byte range first..last. */
  function PartialResponse(contentType: string, fileSize: nat, first: int, last: int): RangeResponse
  {
    var size := last - first + 1;
    var headers := SetHeader(BaseHeaders(contentType, fileSize), "content-length", ToDecimal(size));
    var headers := SetHeader(headers, "content-range", "bytes " + ToDecimal(first) + "-" + ToDecimal(last) + "/" + ToDecimal(fileSize));
    RangeResponse(PartialContent, headers, first, last)
  }

  /** Without a Range header the whole file goes out: Content-Length is
      the file size, the type and Accept-Ranges are as set up, and there is
      no Content-Range. */
  lemma WholeFileHeaders(fileSize: nat, contentType: string)
    ensures var r := RangeRequestsResponse(None, fileSize, contentType);
      && r.Success?
      && Lookup(r.value.headers, "content-length") == Some(ToDecimal(fileSize))
      && Lookup(r.value.headers, "content-type") == Some(contentType)
      && Lookup(r.value.headers, "accept-ranges") == Some("bytes")
      && Lookup(r.value.headers, "content-range") == None
  {
    BaseHeadersLookup(contentType, fileSize);
  }

  /** A partial answer states in Content-Length the number of bytes it
      streams and names the range and the file size in Content-Range; the
      type and Accept-Ranges stay as set up. */
  lemma PartialHeaders(header: string, fileSize: nat, contentType: string)
    ensures var r := RangeRequestsResponse(Some(header), fileSize, contentType);
      r.Success? ==>
        && r.value.first <= r.value.last + 1
        && Lookup(r.value.headers, "content-length") == Some(ToDecimal(r.value.last - r.value.first + 1))
        && Lookup(r.value.headers, "content-type") == Some(contentType)
        && Lookup(r.value.headers, "accept-ranges") == Some("bytes")
        && Lookup(r.value.headers, "content-range")
           == Some("bytes " + ToDecimal(r.value.first) + "-" + ToDecimal(r.value.last) + "/" + ToDecimal(fileSize))
  {
    var r := RangeRequestsResponse(Some(header), fileSize, contentType);
    if r.Success? {
      PartialResponseHeaders(contentType, fileSize, r.value.first, r.value.last);
    }
  }

  lemma PartialResponseHeaders(contentType: string, fileSize: nat, first: int, last: int)
    ensures var h := PartialResponse(contentType, fileSize, first, last).headers;
      && Lookup(h, "content-length") == Some(ToDecimal(last - first + 1))
      && Lookup(h, "content-type") == Some(contentType)
      && Lookup(h, "accept-ranges") == Some("bytes")
      && Lookup(h, "content-range") == Some("bytes " + ToDecimal(first) + "-" + ToDecimal(last) + "/" + ToDecimal(fileSize))
  {
    BaseHeadersLookup(contentType, fileSize);
    PartialHeadersLookup(BaseHeaders(contentType, fileSize), contentType, ToDecimal(last - first + 1),
      "bytes " + ToDecimal(first) + "-" + ToDecimal(last) + "/" + ToDecimal(fileSize));
  }

  /** The two assignments of a partial answer on top of the base headers. */
  lemma PartialHeadersLookup(base: seq<(string, string)>, contentType: string, length: string, contentRange: string)
    requires Lookup(base, "content-type") == Some(contentType)
    requires Lookup(base, "accept-ranges") == Some("bytes")
    ensures var h := SetHeader(SetHeader(base, "content-length", length), "content-range", contentRange);
      && Lookup(h, "content-length") == Some(length)
      && Lookup(h, "content-type") == Some(contentType)
      && Lookup(h, "accept-ranges") == Some("bytes")
      && Lookup(h, "content-range") == Some(contentRange)
  {
    var h1 := SetHeader(base, "content-length", length);
    SetHeaderOthers(base, "content-length", length, "content-type");
    SetHeaderOthers(base, "content-length", length, "accept-ranges");
    SetHeaderOthers(h1, "content-range", contentRange, "content-length");
    SetHeaderOthers(h1, "content-range", contentRange, "content-type");
    SetHeaderOthers(h1, "content-range", contentRange, "accept-ranges");
  }

  /** A request for the second half of a 1000-byte file. */
  lemma OpenEndExample()
    ensures var r := RangeRequestsResponse(Some("bytes=500-"), 1000, "video/mp4");
      r.Success? && r.value.statusCode == 206 && r.value.first == 500 && r.value.last == 999
  {
    OpenEndRunsToLastByte(500, 1000);
    assert ToDecimal(500) == "500";
    assert RangePrefix + ToDecimal(500) + "-" == "bytes=500-";
  }

  /* ---------------- VideoNamePool ---------------- */

  /** The last session number handed out. */
  datatype VideoNamePool = VideoNamePool(latest: int)

  /** The integer values of the names that `int()` accepts, in order. */
  function NameIds(names: seq<string>): (ids: seq<int>)
    ensures |ids| <= |names|
  {
    if |names| == 0 then []
    else
      var init := NameIds(names[..|names| - 1]);
      match ParseInt(names[|names| - 1])
      case Some(v) => init + [v]
      case None => init
  }

  /** Some name in the list reads as v. */
  ghost predicate NamedBy(names: seq<string>, v: int)
  {
    exists i :: 0 <= i < |names| && ParseInt(names[i]) == Some(v)
  }

  lemma {:induction false} NameIdsSpec(names: seq<string>)
    ensures forall k :: 0 <= k < |NameIds(names)| ==> NamedBy(names, NameIds(names)[k])
    ensures forall i :: 0 <= i < |names| && ParseInt(names[i]).Some? ==> ParseInt(names[i]).value in NameIds(names)
  {
    if |names| > 0 {
      var init := names[..|names| - 1];
      NameIdsSpec(init);
      assert forall i :: 0 <= i < |init| ==> init[i] == names[i];
      var ids := NameIds(names);
      var before := NameIds(init);
      assert ids[..|before|] == before;
      forall k | 0 <= k < |ids|
        ensures NamedBy(names, ids[k])
      {
        if k < |before| {
          assert ids[k] == before[k];
          var i :| 0 <= i < |init| && ParseInt(init[i]) == Some(before[k]);
          assert ParseInt(names[i]) == Some(ids[k]);
        } else {
          var last := names[|names| - 1];
          assert ParseInt(last).Some? && ids == before + [ParseInt(last).value];
          assert ParseInt(names[|names| - 1]) == Some(ids[k]);
        }
      }
    }
  }

  function MaxOf(xs: seq<int>): (m: int)
    requires |xs| > 0
    ensures m in xs && forall k :: 0 <= k < |xs| ==> xs[k] <= m
  {
    if |xs| == 1 then xs[0]
    else
      var m := MaxOf(xs[..|xs| - 1]);
      assert forall k :: 0 <= k < |xs| - 1 ==> xs[..|xs| - 1][k] == xs[k];
      if xs[|xs| - 1] > m then xs[|xs| - 1] else m
  }

  /** `VideoNamePool.init` over the names of the data directory's
      sub-directories: the largest integer name, or -1 when there is none. */
  function Init(names: seq<string>): (pool: VideoNamePool)
  {
    var ids := NameIds(names);
    if |ids| > 0 then VideoNamePool(MaxOf(ids)) else VideoNamePool(-1)
  }

  /** The seed is the largest integer-named directory, or -1 when none is. */
  lemma InitSpec(names: seq<string>)
    ensures forall i :: 0 <= i < |names| && ParseInt(names[i]).Some? ==> ParseInt(names[i]).value <= Init(names).latest
    ensures (forall i :: 0 <= i < |names| ==> ParseInt(names[i]).None?) ==> Init(names).latest == -1
    ensures (exists i :: 0 <= i < |names| && ParseInt(names[i]).Some?) ==>
      NamedBy(names, Init(names).latest)
  {
    NameIdsSpec(names);
    var ids := NameIds(names);
    if |ids| > 0 {
      var m := MaxOf(ids);
      var k :| 0 <= k < |ids| && ids[k] == m;
      assert NamedBy(names, ids[k]);
    }
  }

  /** `VideoNamePool.get`: increment, then hand out the new value. */
  function Get(pool: VideoNamePool): (r: (VideoNamePool, int))
    ensures r.1 == pool.latest + 1 && r.0.latest == r.1
  {
    var next := pool.latest + 1;
    (VideoNamePool(next), next)
  }

  /** The ids of k successive sessions. */
  function Take(pool: VideoNamePool, k: nat): seq<int>
    decreases k
  {
    if k == 0 then []
    else
      var (next, id) := Get(pool);
      [id] + Take(next, k - 1)
  }

  /** Successive sessions get consecutive ids, each above every integer
      name present at start-up, so no session reuses an existing numbered
      directory. */
  lemma {:induction false} TakeFresh(pool: VideoNamePool, k: nat)
    decreases k
    ensures |Take(pool, k)| == k
    ensures forall j :: 0 <= j < k ==> Take(pool, k)[j] == pool.latest + 1 + j
  {
    if k > 0 {
      TakeFresh(VideoNamePool(pool.latest + 1), k - 1);
    }
  }

  /** After start-up no handed-out directory name equals an existing one
      that `int()` accepts. */
  lemma SessionNamesAreFresh(names: seq<string>, k: nat)
    ensures forall j, i :: 0 <= j < k && 0 <= i < |names| && ParseInt(names[i]).Some? ==>
      j < |Take(Init(names), k)| && ParseInt(names[i]).value < Take(Init(names), k)[j]
    ensures forall j, i :: 0 <= j < k && 0 <= i < |names| && j < |Take(Init(names), k)| ==>
      ToDecimal(Take(Init(names), k)[j]) != names[i]
  {
    InitSpec(names);
    TakeFresh(Init(names), k);
    forall j, i | 0 <= j < k && 0 <= i < |names| && j < |Take(Init(names), k)|
      ensures ToDecimal(Take(Init(names), k)[j]) != names[i]
    {
      ParseToDecimal(Take(Init(names), k)[j]);
    }
  }
}

=== FILE: numeric.dfy ===
/** Sums, means and rounding over `real`, the stand-in for the float
    arithmetic of numpy and JavaScript. */
module Numeric {

  /** s[lo] + ... + s[hi-1]. */
  function SumRange(s: seq<real>, lo: nat, hi: nat): real
    requires lo <= hi <= |s|
    decreases hi - lo
  {
    if lo == hi then 0.0 else s[lo] + SumRange(s, lo + 1, hi)
  }

  /** The sum of all elements (numpy's `.sum()`). */
  function Sum(s: seq<real>): real
  {
    SumRange(s, 0, |s|)
  }

  ghost predicate NonNegative(s: seq<real>)
  {
    forall i :: 0 <= i < |s| ==> s[i] >= 0.0
  }

  /** The smaller of two reals (Python's `min`). */
  function MinReal(a: real, b: real): (r: real)
    ensures r <= a && r <= b
    ensures r == a || r == b
  {
    if a <= b then a else b
  }

  /** Python's `int()` on a float and numpy's `.astype(int)`: truncation
      toward zero. */
  function Trunc(x: real): (r: int)
    ensures x >= 0.0 ==> 0 <= r && r as real <= x < r as real + 1.0
    ensures x < 0.0 ==> r <= 0 && r as real - 1.0 < x <= r as real
  {
    if x >= 0.0 then x.Floor else -((-x).Floor)
  }

  /** The least integer not below x. */
  function Ceil(x: real): (r: int)
    ensures r as real - 1.0 < x <= r as real
  {
    -((-x).Floor)
  }

  lemma {:induction false} SumRangeSplit(s: seq<real>, lo: nat, mid: nat, hi: nat)
    requires lo <= mid <= hi <= |s|
    ensures SumRange(s, lo, hi) == SumRange(s, lo, mid) + SumRange(s, mid, hi)
    decreases mid - lo
  {
    if lo < mid {
      SumRangeSplit(s, lo + 1, mid, hi);
    }
  }

  lemma {:induction false} SumRangeNonNegative(s: seq<real>, lo: nat, hi: nat)
    requires lo <= hi <= |s|
    requires forall i :: lo <= i < hi ==> s[i] >= 0.0
    ensures SumRange(s, lo, hi) >= 0.0
    decreases hi - lo
  {
    if lo < hi {
      SumRangeNonNegative(s, lo + 1, hi);
    }
  }

  /** A sum of non-negative terms is at least each of its terms. */
  lemma {:induction false} SumRangeAtLeastTerm(s: seq<real>, lo: nat, hi: nat, j: nat)
    requires lo <= j < hi <= |s|
    requires forall i :: lo <= i < hi ==> s[i] >= 0.0
    ensures SumRange(s, lo, hi) >= s[j]
    decreases hi - lo
  {
    if j == lo {
      SumRangeNonNegative(s, lo + 1, hi);
    } else {
      SumRangeAtLeastTerm(s, lo + 1, hi, j);
    }
  }

  /** A positive sum has a positive term. */
  lemma {:induction false} PositiveSumHasPositiveTerm(s: seq<real>, lo: nat, hi: nat) returns (j: nat)
    requires lo <= hi <= |s|
    requires SumRange(s, lo, hi) > 0.0
    ensures lo <= j < hi && s[j] > 0.0
    decreases hi - lo
  {
    if s[lo] > 0.0 {
      j := lo;
    } else {
      j := PositiveSumHasPositiveTerm(s, lo + 1, hi);
    }
  }

  /** Element-wise division of `v` by `d`. */
  function Divide(v: seq<real>, d: real): (r: seq<real>)
    requires d != 0.0
    ensures |r| == |v|
  {
    seq(|v|, i requires 0 <= i < |v| => v[i] / d)
  }

  lemma {:induction false} SumRangeDivide(v: seq<real>, d: real, lo: nat, hi: nat)
    requires d != 0.0
    requires lo <= hi <= |v|
    ensures SumRange(Divide(v, d), lo, hi) == SumRange(v, lo, hi) / d
    decreases hi - lo
  {
    if lo < hi {
      SumRangeDivide(v, d, lo + 1, hi);
    }
  }

  /** `v / v.sum()`: the renormalisation applied to every emotion vector.
      The source has no guard for a zero sum, hence the precondition. */
  function Normalize(v: seq<real>): (r: seq<real>)
    requires Sum(v) != 0.0
    ensures |r| == |v|
    ensures Sum(r) == 1.0
    ensures forall i :: 0 <= i < |v| ==> r[i] * Sum(v) == v[i]
    ensures NonNegative(v) ==> NonNegative(r)
  {
    DivideBySum(v);
    Divide(v, Sum(v))
  }

  lemma DivideBySum(v: seq<real>)
    requires Sum(v) != 0.0
    ensures Sum(Divide(v, Sum(v))) == 1.0
    ensures forall i :: 0 <= i < |v| ==> Divide(v, Sum(v))[i] * Sum(v) == v[i]
    ensures NonNegative(v) ==> NonNegative(Divide(v, Sum(v)))
  {
    var d := Sum(v);
    var r := Divide(v, d);
    SumRangeDivide(v, d, 0, |v|);
    assert Sum(r) == d / d;
    assert d / d == 1.0;
    if NonNegative(v) {
      SumRangeNonNegative(v, 0, |v|);
      forall i | 0 <= i < |v| ensures r[i] >= 0.0 {
        DivideNonNegative(v[i], d);
      }
    }
  }

  lemma DivideNonNegative(a: real, d: real)
    requires a >= 0.0 && d > 0.0
    ensures a / d >= 0.0
  {
  }
}

=== FILE: progress.dfy ===
/** The lockstep progress protocol: the service sends a JSON message and then
    blocks on `receive_text()` for the client's acknowledgement. A session is
    modelled as the trace of events it produces. */
module Progress {

  /** The units of work a session performs, in the order of service/main.py. */
  datatype Stage = Transcription | AudioAnalysis | TextAnalysis | VisualAnalysis

  /** The `status` field of a message (MessageStatus of the front end). */
  datatype Status =
    | Uploaded | Audio | AudioDone | Text | TextDone | VisualStart | Visual | VisualDone | Done

  /** The `data` field of a message. */
  datatype Payload =
    | NoData
    | Counter(current: int, total: int)
    | FrameRate(fps: real)
    | ResultPaths(id: string, audio: string, visual: string, text: string)

  datatype Event =
    | Send(status: Status, data: Payload)  // socket.send_json
    | Ack                                  // socket.receive_text returned
    | Work(stage: Stage, unit: nat)        // one unit of inference done
    | Close                                // socket.close
    | Abort                                // an exception ended the session

  /** The events after unit `n`: the work itself, then, every `k`-th unit, a
      progress report carrying the 0-based index and the total, and the wait
      for its acknowledgement. */
  function UnitEvents(stage: Stage, status: Status, k: nat, n: nat, total: int): seq<Event>
    requires k > 0
  {
    [Work(stage, n)] + (if (n + 1) % k == 0 then [Send(status, Counter(n, total)), Ack] else [])
  }

  /** The events of units 0 .. count-1 in order. */
  function Paced(stage: Stage, status: Status, k: nat, count: nat, total: int): seq<Event>
    requires k > 0
  {
    if count == 0 then []
    else Paced(stage, status, k, count - 1, total) + UnitEvents(stage, status, k, count - 1, total)
  }

  /** The units worked on, in trace order. */
  function Works(t: seq<Event>): seq<nat>
  {
    if |t| == 0 then []
    else Works(t[..|t| - 1]) + (if t[|t| - 1].Work? then [t[|t| - 1].unit] else [])
  }

  /** The `current` field of every progress report, in trace order. */
  function Reports(t: seq<Event>): seq<int>
  {
    if |t| == 0 then []
    else Reports(t[..|t| - 1]) + (if t[|t| - 1].Send? && t[|t| - 1].data.Counter? then [t[|t| - 1].data.current] else [])
  }

  /** How many units were worked on since the last acknowledgement. */
  function Pending(t: seq<Event>): nat
  {
    if |t| == 0 then 0
    else if t[|t| - 1].Ack? then 0
    else Pending(t[..|t| - 1]) + (if t[|t| - 1].Work? then 1 else 0)
  }

  /** Every message is immediately followed by the wait for its
      acknowledgement. */
  ghost predicate AckedSends(t: seq<Event>)
  {
    forall i :: 0 <= i < |t| && t[i].Send? ==> i + 1 < |t| && t[i + 1] == Ack
  }

  /** The producer never runs more than `k` units ahead of the consumer. */
  ghost predicate Lockstep(t: seq<Event>, k: nat)
  {
    forall i :: 0 <= i <= |t| ==> Pending(t[..i]) <= k
  }

  function Range(lo: nat, hi: nat): (r: seq<nat>)
    ensures |r| == if lo <= hi then hi - lo else 0
    ensures forall i :: 0 <= i < |r| ==> r[i] == lo + i
    decreases hi - lo
  {
    if lo >= hi then [] else [lo] + Range(lo + 1, hi)
  }

  lemma {:induction false} WorksAppend(t: seq<Event>, u: seq<Event>)
    ensures Works(t + u) == Works(t) + Works(u)
    decreases |u|
  {
    if |u| > 0 {
      var u' := u[..|u| - 1];
      assert (t + u)[..|t + u| - 1] == t + u';
      WorksAppend(t, u');
    } else {
      assert t + u == t;
    }
  }

  lemma {:induction false} ReportsAppend(t: seq<Event>, u: seq<Event>)
    ensures Reports(t + u) == Reports(t) + Reports(u)
    decreases |u|
  {
    if |u| > 0 {
      var u' := u[..|u| - 1];
      assert (t + u)[..|t + u| - 1] == t + u';
      ReportsAppend(t, u');
    } else {
      assert t + u == t;
    }
  }

  /** Pending work after a suffix that contains an acknowledgement depends only
      on that suffix; otherwise it accumulates. */
  lemma {:induction false} PendingAppend(t: seq<Event>, u: seq<Event>)
    ensures Ack in u ==> Pending(t + u) == Pending(u)
    ensures Ack !in u ==> Pending(t + u) == Pending(t) + |Works(u)|
    decreases |u|
  {
    if |u| > 0 {
      var u' := u[..|u| - 1];
      assert (t + u)[..|t + u| - 1] == t + u';
      PendingAppend(t, u');
      PendingNoAck(u);
    } else {
      assert t + u == t;
    }
  }

  lemma {:induction false} PendingNoAck(u: seq<Event>)
    ensures Ack !in u ==> Pending(u) == |Works(u)|
    decreases |u|
  {
    if |u| > 0 {
      var u' := u[..|u| - 1];
      assert u == u' + [u[|u| - 1]];
      PendingNoAck(u');
    }
  }

  /** One unit's events work on that unit alone. */
  lemma UnitEventsWorks(stage: Stage, status: Status, k: nat, n: nat, total: int)
    requires k > 0
    ensures Works(UnitEvents(stage, status, k, n, total)) == [n]
  {
    var e := UnitEvents(stage, status, k, n, total);
    assert e[..1] == [Work(stage, n)];
    assert e[..1][..0] == [];
    assert Works(e[..1]) == [n];
    if (n + 1) % k == 0 {
      assert e[..2][..1] == e[..1];
      assert e[..3][..2] == e[..2];
      assert e[..3] == e;
    }
  }

  /** One unit's events report that unit exactly when it closes a batch,
      and then end with the acknowledgement. */
  lemma UnitEventsShape(stage: Stage, status: Status, k: nat, n: nat, total: int)
    requires k > 0
    ensures Reports(UnitEvents(stage, status, k, n, total)) == if (n + 1) % k == 0 then [n] else []
    ensures (n + 1) % k == 0 ==> Ack in UnitEvents(stage, status, k, n, total)
    ensures (n + 1) % k != 0 ==> Ack !in UnitEvents(stage, status, k, n, total)
  {
    var e := UnitEvents(stage, status, k, n, total);
    assert e[..1] == [Work(stage, n)];
    assert e[..1][..0] == [];
    assert Reports(e[..1]) == [];
    if (n + 1) % k == 0 {
      assert e[..2] == [Work(stage, n), Send(status, Counter(n, total))];
      assert e[..2][..1] == e[..1];
      assert e[..3][..2] == e[..2];
      assert e[..3] == e;
      assert Reports(e[..2]) == [n];
    }
  }

  /** A paced stage works on every unit exactly once, in order. */
  lemma {:induction false} PacedWorks(stage: Stage, status: Status, k: nat, count: nat, total: int)
    requires k > 0
    ensures Works(Paced(stage, status, k, count, total)) == Range(0, count)
  {
    if count > 0 {
      var n := count - 1;
      PacedWorks(stage, status, k, n, total);
      WorksAppend(Paced(stage, status, k, n, total), UnitEvents(stage, status, k, n, total));
      UnitEventsWorks(stage, status, k, n, total);
      assert Range(0, count) == Range(0, n) + [n];
    }
  }

  /** `r` lists, in increasing order, exactly the units n < count with
      (n+1) % k == 0. */
  ghost predicate ReportSchedule(r: seq<int>, k: nat, count: nat)
    requires k > 0
  {
    && (forall m :: m in r <==> 0 <= m < count && (m + 1) % k == 0)
    && (forall i, j :: 0 <= i < j < |r| ==> r[i] < r[j])
  }

  /** A paced stage reports after unit n exactly when (n+1) % k == 0, with
      `current` = n, and the reports come in increasing order. */
  lemma {:induction false} PacedReports(stage: Stage, status: Status, k: nat, count: nat, total: int)
    requires k > 0
    ensures ReportSchedule(Reports(Paced(stage, status, k, count, total)), k, count)
  {
    if count > 0 {
      var n := count - 1;
      var t := Paced(stage, status, k, n, total);
      var u := UnitEvents(stage, status, k, n, total);
      PacedReports(stage, status, k, n, total);
      ReportsAppend(t, u);
      UnitEventsShape(stage, status, k, n, total);
      assert Paced(stage, status, k, count, total) == t + u;
      ScheduleStep(Reports(t), k, n);
    }
  }

  lemma ScheduleStep(r: seq<int>, k: nat, n: nat)
    requires k > 0
    requires ReportSchedule(r, k, n)
    ensures ReportSchedule(r + (if (n + 1) % k == 0 then [n] else []), k, n + 1)
  {
    var r' := r + (if (n + 1) % k == 0 then [n] else []);
    assert forall m :: m in r ==> m < n;
    forall m ensures m in r' <==> 0 <= m < n + 1 && (m + 1) % k == 0 {
      if m == n {
        assert m !in r;
      }
    }
    forall i, j | 0 <= i < j < |r'| ensures r'[i] < r'[j] {
      if j >= |r| {
        assert r'[i] == r[i] && r[i] in r;
      }
    }
  }

  /** After a paced stage, the units since the last acknowledgement are the
      incomplete final batch. */
  lemma {:induction false} PacedPending(stage: Stage, status: Status, k: nat, count: nat, total: int)
    requires k > 0
    ensures Pending(Paced(stage, status, k, count, total)) == count % k
  {
    if count > 0 {
      var n := count - 1;
      var t := Paced(stage, status, k, n, total);
      var u := UnitEvents(stage, status, k, n, total);
      PacedPending(stage, status, k, n, total);
      PendingAppend(t, u);
      UnitEventsWorks(stage, status, k, n, total);
      UnitEventsShape(stage, status, k, n, total);
      ModStep(k, n);
      if (n + 1) % k == 0 {
        assert u[|u| - 1] == Ack;
      }
    }
  }

  /** Every report of a paced stage is followed by the wait for its
      acknowledgement. */
  lemma {:induction false} PacedAcked(stage: Stage, status: Status, k: nat, count: nat, total: int)
    requires k > 0
    ensures AckedSends(Paced(stage, status, k, count, total))
  {
    if count > 0 {
      var n := count - 1;
      var t := Paced(stage, status, k, n, total);
      var u := UnitEvents(stage, status, k, n, total);
      PacedAcked(stage, status, k, n, total);
      var tu := t + u;
      forall i | 0 <= i < |tu| && tu[i].Send? ensures i + 1 < |tu| && tu[i + 1] == Ack {
        if i >= |t| {
          assert u[i - |t|].Send?;
        } else {
          assert t[i].Send?;
        }
      }
    }
  }

  /** At no point of a paced stage are more than k units unacknowledged. */
  lemma {:induction false} PacedLockstep(stage: Stage, status: Status, k: nat, count: nat, total: int)
    requires k > 0
    ensures Lockstep(Paced(stage, status, k, count, total), k)
  {
    if count > 0 {
      var n := count - 1;
      var t := Paced(stage, status, k, n, total);
      var u := UnitEvents(stage, status, k, n, total);
      PacedLockstep(stage, status, k, n, total);
      PacedPending(stage, status, k, n, total);
      var tu := t + u;
      forall i | 0 <= i <= |tu| ensures Pending(tu[..i]) <= k {
        if i <= |t| {
          assert tu[..i] == t[..i];
        } else {
          var v := u[..i - |t|];
          assert tu[..i] == t + v;
          PendingAppend(t, v);
          UnitPrefixWorks(stage, status, k, n, total, i - |t|);
        }
      }
    }
  }

  lemma UnitPrefixWorks(stage: Stage, status: Status, k: nat, n: nat, total: int, j: nat)
    requires k > 0
    requires 0 < j <= |UnitEvents(stage, status, k, n, total)|
    ensures |Works(UnitEvents(stage, status, k, n, total)[..j])| == 1
  {
    var e := UnitEvents(stage, status, k, n, total);
    assert e[..1][..0] == [];
    assert Works(e[..1]) == [n];
    if j >= 2 {
      assert e[..2][..1] == e[..1];
      assert Works(e[..2]) == [n];
    }
    if j == 3 {
      assert e[..3][..2] == e[..2];
    }
  }

  lemma MulAtLeast(x: int, k: int)
    requires x >= 1 && k >= 0
    ensures x * k >= k
  {
    assert x * k - k == (x - 1) * k;
  }

  lemma DivModUnique(a: int, k: nat, q: int, r: int)
    requires k > 0 && 0 <= r < k && a == q * k + r
    ensures a / k == q && a % k == r
  {
    var q0, r0 := a / k, a % k;
    assert q0 * k + r0 == q * k + r;
    assert (q0 - q) * k == r - r0;
    if q0 > q {
      MulAtLeast(q0 - q, k);
    } else if q0 < q {
      MulAtLeast(q - q0, k);
    }
  }

  lemma ModStep(k: nat, n: nat)
    requires k > 0
    ensures (n + 1) % k == 0 ==> n % k == k - 1
    ensures (n + 1) % k != 0 ==> (n + 1) % k == n % k + 1
  {
    var q, r := n / k, n % k;
    if r == k - 1 {
      DivModUnique(n + 1, k, q + 1, 0);
    } else {
      DivModUnique(n + 1, k, q, r + 1);
    }
  }
}

=== FILE: py_int.dfy ===
/** Python's `int(s)` and `str(n)` on decimal text: an optional sign
    followed by ASCII digits, and the shortest decimal rendering back. */
module PyInt {
  import opened Wrappers

  predicate IsDigit(c: char)
  {
    '0' <= c <= '9'
  }

  /** A non-empty run of ASCII digits. */
  predicate IsDigits(s: string)
  {
    |s| > 0 && forall i :: 0 <= i < |s| ==> IsDigit(s[i])
  }

  function DigitValue(c: char): (d: nat)
    requires IsDigit(c)
    ensures d < 10
  {
    (c as int - '0' as int) as nat
  }

  function DigitChar(d: nat): (c: char)
    requires d < 10
    ensures IsDigit(c) && DigitValue(c) == d
  {
    ('0' as int + d) as char
  }

  /** The value of a run of digits, most significant first. */
  function DigitsValue(s: string): nat
    requires forall i :: 0 <= i < |s| ==> IsDigit(s[i])
  {
    if |s| == 0 then 0
    else DigitsValue(s[..|s| - 1]) * 10 + DigitValue(s[|s| - 1])
  }

  /** `int(s)` for the decimal forms: `None` stands for the ValueError. */
  function ParseInt(s: string): (r: Option<int>)
    ensures r.Some? && (|s| == 0 || s[0] != '-') ==> r.value >= 0
  {
    if |s| > 0 && (s[0] == '-' || s[0] == '+') then
      if IsDigits(s[1..]) then
        var v: int := DigitsValue(s[1..]);
        Some(if s[0] == '-' then -v else v)
      else None
    else if IsDigits(s) then Some(DigitsValue(s))
    else None
  }

  /** The decimal digits of n, without leading zeros. */
  function NatDigits(n: nat): (s: string)
    ensures IsDigits(s)
    ensures s[0] == '0' ==> n == 0
  {
    if n < 10 then [DigitChar(n)]
    else NatDigits(n / 10) + [DigitChar(n % 10)]
  }

  /** `str(n)`. */
  function ToDecimal(n: int): (s: string)
    ensures |s| > 0
    ensures n >= 0 <==> s[0] != '-'
  {
    if n < 0 then "-" + NatDigits(-n) else NatDigits(n)
  }

  lemma {:induction false} NatDigitsValue(n: nat)
    ensures DigitsValue(NatDigits(n)) == n
  {
    if n >= 10 {
      NatDigitsValue(n / 10);
      var s := NatDigits(n);
      assert s[..|s| - 1] == NatDigits(n / 10);
    }
  }

  /** Parsing undoes formatting for every integer. */
  lemma ParseToDecimal(n: int)
    ensures ParseInt(ToDecimal(n)) == Some(n)
  {
    if n < 0 {
      NatDigitsValue(-n);
      ParseNegative(NatDigits(-n));
    } else {
      NatDigitsValue(n);
      ParseUnsigned(NatDigits(n));
    }
  }

  /** Digits alone read as their value. */
  lemma ParseUnsigned(d: string)
    requires IsDigits(d)
    ensures ParseInt(d) == Some(DigitsValue(d) as int)
  {
    assert IsDigit(d[0]);
  }

  /** A minus sign then digits read as minus their value. */
  lemma ParseNegative(d: string)
    requires IsDigits(d)
    ensures ParseInt("-" + d) == Some(-(DigitsValue(d) as int))
  {
    var s := "-" + d;
    assert s[0] == '-' && s[1..] == d;
  }

  /** Distinct integers have distinct decimal forms. */
  lemma ToDecimalInjective(m: int, n: int)
    ensures ToDecimal(m) == ToDecimal(n) <==> m == n
  {
    if ToDecimal(m) == ToDecimal(n) {
      ParseToDecimal(m);
      ParseToDecimal(n);
    }
  }

  /** A decimal form never contains the dash used as a separator, unless
      the number is negative. */
  lemma NatDigitsHasNoSign(n: nat, c: char)
    requires !IsDigit(c)
    ensures c !in NatDigits(n)
  {
  }
}

=== FILE: py_str.dfy ===
/** Python's `str.replace` and `str.split` on text, with the lemmas that
    connect them to their inverses. */
module PyStr {

  /** `s.replace(pat, "")`: one left-to-right pass removing every
      non-overlapping occurrence of pat. */
  function RemoveAll(s: string, pat: string): (r: string)
    requires |pat| > 0
    ensures |r| <= |s|
    decreases |s|
  {
    if |s| < |pat| then s
    else if s[..|pat|] == pat then RemoveAll(s[|pat|..], pat)
    else [s[0]] + RemoveAll(s[1..], pat)
  }

  /** Text that does not hold the pattern's first character is left alone. */
  lemma {:induction false} RemoveAllAbsent(s: string, pat: string)
    requires |pat| > 0 && pat[0] !in s
    ensures RemoveAll(s, pat) == s
    decreases |s|
  {
    if |s| >= |pat| {
      assert s[0] != pat[0];
      assert s[..|pat|] != pat;
      RemoveAllAbsent(s[1..], pat);
      assert [s[0]] + s[1..] == s;
    }
  }

  /** A leading occurrence is dropped. */
  lemma RemoveAllLeading(pat: string, s: string)
    requires |pat| > 0
    ensures RemoveAll(pat + s, pat) == RemoveAll(s, pat)
  {
    assert (pat + s)[..|pat|] == pat;
    assert (pat + s)[|pat|..] == s;
  }

  /** `s.split(sep)` for a one-character separator. */
  function Split(s: string, sep: char): (pieces: seq<string>)
    ensures |pieces| >= 1
  {
    if |s| == 0 then [""]
    else Extend(Split(s[..|s| - 1], sep), s[|s| - 1], sep)
  }

  /** One more character read by Split: a separator opens a new piece,
      anything else goes to the end of the current one. */
  function Extend(pieces: seq<string>, c: char, sep: char): (r: seq<string>)
    requires |pieces| >= 1
    ensures |r| >= 1
  {
    if c == sep then pieces + [""]
    else pieces[..|pieces| - 1] + [pieces[|pieces| - 1] + [c]]
  }

  /** Extend only touches the last piece. */
  lemma ExtendConcat(pu: seq<string>, pv: seq<string>, c: char, sep: char)
    requires |pv| >= 1
    ensures Extend(pu + pv, c, sep) == pu + Extend(pv, c, sep)
  {
    var both := pu + pv;
    if c != sep {
      assert both[..|both| - 1] == pu + pv[..|pv| - 1];
    }
  }

  /** The inverse of Split: the pieces joined back with the separator. */
  function Join(pieces: seq<string>, sep: char): string
    requires |pieces| >= 1
  {
    if |pieces| == 1 then pieces[0]
    else Join(pieces[..|pieces| - 1], sep) + [sep] + pieces[|pieces| - 1]
  }

  /** Joining the pieces Split cuts gives back the text. */
  lemma {:induction false} SplitJoin(s: string, sep: char)
    ensures Join(Split(s, sep), sep) == s
  {
    if |s| > 0 {
      var init := s[..|s| - 1];
      var c := s[|s| - 1];
      SplitJoin(init, sep);
      JoinExtend(Split(init, sep), c, sep);
      assert s == init + [c];
    }
  }

  /** Reading one more character adds it to the joined text. */
  lemma JoinExtend(pieces: seq<string>, c: char, sep: char)
    requires |pieces| >= 1
    ensures Join(Extend(pieces, c, sep), sep) == Join(pieces, sep) + [c]
  {
    var ps := Extend(pieces, c, sep);
    var m := |pieces| - 1;
    if c == sep {
      assert ps[..|ps| - 1] == pieces;
    } else if m > 0 {
      assert ps[..m] == pieces[..m];
      assert Join(ps, sep) == Join(pieces[..m], sep) + [sep] + (pieces[m] + [c]);
    }
  }

  /** Split cuts at every separator: no piece holds one. */
  lemma {:induction false} SplitPiecesFree(s: string, sep: char)
    ensures forall k :: 0 <= k < |Split(s, sep)| ==> sep !in Split(s, sep)[k]
  {
    if |s| > 0 {
      var init := s[..|s| - 1];
      var before := Split(init, sep);
      var c := s[|s| - 1];
      SplitPiecesFree(init, sep);
      var ps := Split(s, sep);
      if c == sep {
        assert ps == before + [""];
      } else {
        var m := |before| - 1;
        assert ps == before[..m] + [before[m] + [c]];
        assert forall k :: 0 <= k < m ==> ps[k] == before[k];
      }
    }
  }

  /** There is more than one piece exactly when the separator occurs. */
  lemma {:induction false} SplitCount(s: string, sep: char)
    ensures |Split(s, sep)| >= 2 <==> sep in s
  {
    if |s| > 0 {
      var init := s[..|s| - 1];
      var c := s[|s| - 1];
      SplitCount(init, sep);
      assert s == init + [c];
      assert sep in s <==> sep in init || c == sep;
      assert |Split(s, sep)| == |Split(init, sep)| + (if c == sep then 1 else 0);
    }
  }

  /** Text without the separator is a single piece. */
  lemma {:induction false} SplitAbsent(s: string, sep: char)
    requires sep !in s
    ensures Split(s, sep) == [s]
  {
    if |s| > 0 {
      var init := s[..|s| - 1];
      SplitAbsent(init, sep);
      assert init + [s[|s| - 1]] == s;
    }
  }

  /** Splitting at one separator splits each side on its own. */
  lemma {:induction false} SplitAt(u: string, sep: char, v: string)
    ensures Split(u + [sep] + v, sep) == Split(u, sep) + Split(v, sep)
    decreases |v|
  {
    var w := u + [sep] + v;
    if |v| == 0 {
      assert w[..|w| - 1] == u;
      assert Split(w, sep) == Extend(Split(u, sep), sep, sep);
    } else {
      var v' := v[..|v| - 1];
      var c := v[|v| - 1];
      var w' := u + [sep] + v';
      assert w[..|w| - 1] == w';
      assert w[|w| - 1] == c;
      assert Split(w, sep) == Extend(Split(w', sep), c, sep);
      assert Split(v, sep) == Extend(Split(v', sep), c, sep);
      SplitAt(u, sep, v');
      ExtendConcat(Split(u, sep), Split(v', sep), c, sep);
    }
  }

  /** `s.replace(a, b)` for single characters. */
  function ReplaceChar(s: string, a: char, b: char): (r: string)
    ensures |r| == |s|
    ensures forall i :: 0 <= i < |s| ==> r[i] == if s[i] == a then b else s[i]
  {
    if |s| == 0 then [] else ReplaceChar(s[..|s| - 1], a, b) + [if s[|s| - 1] == a then b else s[|s| - 1]]
  }
}

=== FILE: smoothing.dfy ===
/** The front end's moving averages (src/utils.ts): `smoothArray` over
    numbers and `smoothArrayBy` over one field of records. */
module Smoothing {
  import opened JsNumber

  function Max(a: int, b: int): int { if a >= b then a else b }

  function Min(a: int, b: int): int { if a <= b then a else b }

  /** `Array.prototype.slice(start, end)` on integer bounds: a negative
      bound counts from the end, bounds are clamped to the array, and the
      result is empty when the end does not lie after the start. */
  function Slice<T>(a: seq<T>, start: int, end: int): (r: seq<T>)
    ensures |r| <= |a|
    ensures 0 <= start <= end <= |a| ==> r == a[start..end]
  {
    var n := |a|;
    var s := if start < 0 then Max(n + start, 0) else Min(start, n);
    var e := if end < 0 then Max(n + end, 0) else Min(end, n);
    if s < e then a[s..e] else []
  }

  /** The bounds of the window around index i, as `smoothArray` computes
      them: `Math.max(0, i - window)` and `Math.min(length, i + window)`. */
  function WindowStart(i: int, window: int): int { Max(0, i - window) }

  function WindowEnd(n: nat, i: int, window: int): int { Min(n, i + window) }

  /** The value `smoothArray` puts at index i. */
  function Smoothed(values: seq<Num>, window: int, i: int): Num
  {
    Mean(Slice(values, WindowStart(i, window), WindowEnd(|values|, i, window)))
  }

  /** `smoothArray(array, window)`. */
  method SmoothArray(values: seq<Num>, window: int) returns (out: seq<Num>)
    ensures |out| == |values|
    ensures forall i :: 0 <= i < |values| ==> out[i] == Smoothed(values, window, i)
  {
    out := [];
    for i := 0 to |values|
      invariant |out| == i
      invariant forall k :: 0 <= k < i ==> out[k] == Smoothed(values, window, k)
    {
      var start := Max(0, i - window);
      var end := Min(|values|, i + window);
      out := out + [Mean(Slice(values, start, end))];
    }
  }

  /** For a positive window the averaged slice runs from i - window
      (clamped at 0) up to but excluding i + window (clamped at the
      length): it holds index i, reaches `window` places back but only
      `window - 1` forward. */
  lemma PositiveWindow(values: seq<Num>, window: int, i: int)
    requires window >= 1 && 0 <= i < |values|
    ensures var s := WindowStart(i, window);
      var e := WindowEnd(|values|, i, window);
      && 0 <= s <= i < e <= |values|
      && Smoothed(values, window, i) == Mean(values[s..e])
      && (i >= window ==> s == i - window)
      && (i + window <= |values| ==> e == i + window)
  {
  }

  /** A zero window averages an empty slice: every output is NaN. */
  lemma ZeroWindow(values: seq<Num>, i: int)
    requires 0 <= i < |values|
    ensures Smoothed(values, 0, i) == NaN
  {
  }

  /** With window 1 the output at i > 0 is the mean of the element before i
      and i itself, never of the one after. */
  lemma WindowOneLooksBack(values: seq<Num>, i: int)
    requires 0 < i < |values|
    ensures Smoothed(values, 1, i) == Mean([values[i - 1], values[i]])
  {
    assert values[i - 1..i + 1] == [values[i - 1], values[i]];
  }

  /** A constant array comes back unchanged for every positive window. */
  lemma ConstantUnchanged(values: seq<Num>, window: int, c: real)
    requires window >= 1
    requires forall k :: 0 <= k < |values| ==> values[k] == Finite(c)
    ensures forall i :: 0 <= i < |values| ==> Smoothed(values, window, i) == Finite(c)
  {
    forall i | 0 <= i < |values|
      ensures Smoothed(values, window, i) == Finite(c)
    {
      PositiveWindow(values, window, i);
      var w := values[WindowStart(i, window)..WindowEnd(|values|, i, window)];
      MeanOfConstant(w, c);
    }
  }

  /* ---------------- smoothArrayBy ---------------- */

  /** A record: field name to number. */
  type Item = map<string, Num>

  /** `array.map(item => item[key])`. */
  function Column(items: seq<Item>, key: string): (c: seq<Num>)
    requires forall k :: 0 <= k < |items| ==> key in items[k]
    ensures |c| == |items|
    ensures forall k :: 0 <= k < |items| ==> c[k] == items[k][key]
  {
    seq(|items|, k requires 0 <= k < |items| => items[k][key])
  }

  /** Slicing then taking the field is taking the field then slicing. */
  lemma {:induction false} ColumnSlice(items: seq<Item>, key: string, start: int, end: int)
    requires forall k :: 0 <= k < |items| ==> key in items[k]
    ensures forall k :: 0 <= k < |Slice(items, start, end)| ==> key in Slice(items, start, end)[k]
    ensures Column(Slice(items, start, end), key) == Slice(Column(items, key), start, end)
  {
    var n := |items|;
    var s := if start < 0 then Max(n + start, 0) else Min(start, n);
    var e := if end < 0 then Max(n + end, 0) else Min(end, n);
    var c := Column(items, key);
    if s < e {
      var part := items[s..e];
      assert Slice(items, start, end) == part;
      assert forall k :: 0 <= k < |part| ==> part[k] == items[s + k];
      assert Slice(c, start, end) == c[s..e];
      assert Column(part, key) == c[s..e];
    } else {
      assert Slice(items, start, end) == [];
      assert Slice(c, start, end) == [];
    }
  }

  /** `{...item, [key]: v}`. */
  function SetField(item: Item, key: string, v: Num): (r: Item)
    requires key in item
    ensures r.Keys == item.Keys && r[key] == v
    ensures forall f :: f in item && f != key ==> r[f] == item[f]
  {
    item[key := v]
  }

  /** The record `smoothArrayBy` puts at index i: its input record with
      the field `key` set to the mean of that field over the window. */
  function SmoothedItem(items: seq<Item>, window: int, key: string, i: int): Item
    requires forall k :: 0 <= k < |items| ==> key in items[k]
    requires 0 <= i < |items|
  {
    var start := Max(0, i - window);
    var end := Min(|items|, i + window);
    ColumnSlice(items, key, start, end);
    SetField(items[i], key, Mean(Column(Slice(items, start, end), key)))
  }

  /** The smoothed field is what `smoothArray` computes at i over the
      field's column; every other field is copied. */
  lemma SmoothedItemSpec(items: seq<Item>, window: int, key: string, i: int)
    requires forall k :: 0 <= k < |items| ==> key in items[k]
    requires 0 <= i < |items|
    ensures var r := SmoothedItem(items, window, key, i);
      && r.Keys == items[i].Keys
      && r[key] == Smoothed(Column(items, key), window, i)
      && forall f :: f in items[i] && f != key ==> r[f] == items[i][f]
  {
    ColumnSlice(items, key, Max(0, i - window), Min(|items|, i + window));
  }

  /** A sequence of smoothed records, one per index, says of each record
      what `SmoothedItemSpec` says. */
  lemma SmoothedItems(items: seq<Item>, window: int, key: string, out: seq<Item>)
    requires forall k :: 0 <= k < |items| ==> key in items[k]
    requires |out| == |items|
    requires forall k :: 0 <= k < |items| ==> out[k] == SmoothedItem(items, window, key, k)
    ensures forall i :: 0 <= i < |items| ==>
      && out[i].Keys == items[i].Keys
      && out[i][key] == Smoothed(Column(items, key), window, i)
      && forall f :: f in items[i] && f != key ==> out[i][f] == items[i][f]
  {
    forall i | 0 <= i < |items|
      ensures out[i].Keys == items[i].Keys
      ensures out[i][key] == Smoothed(Column(items, key), window, i)
      ensures forall f :: f in items[i] && f != key ==> out[i][f] == items[i][f]
    {
      SmoothedItemSpec(items, window, key, i);
    }
  }

  /** `smoothArrayBy(array, window, key)`: each output record is its input
      record with field `key` replaced by what `smoothArray` computes at
      that index over the column of that field; every other field is
      copied. */
  method SmoothArrayBy(items: seq<Item>, window: int, key: string) returns (out: seq<Item>)
    requires forall k :: 0 <= k < |items| ==> key in items[k]
    ensures |out| == |items|
    ensures forall i :: 0 <= i < |items| ==>
      && out[i].Keys == items[i].Keys
      && out[i][key] == Smoothed(Column(items, key), window, i)
      && forall f :: f in items[i] && f != key ==> out[i][f] == items[i][f]
  {
    out := seq(|items|, i requires 0 <= i < |items| => SmoothedItem(items, window, key, i));
    SmoothedItems(items, window, key, out);
  }
}

=== FILE: wrappers.dfy ===
/** Failure-carrying datatypes shared by the whole model, and the Python
    exception kinds the service code can raise. */
module Wrappers {

  /** An optional value; also stands for Python's `None`. */
  datatype Option<+T> = None | Some(value: T)

  /** Either a value or the error that was raised instead of returning it. */
  datatype Result<+T, +E> = Success(value: T) | Failure(error: E) {
    predicate IsFailure() { Failure? }

    function PropagateFailure<U>(): Result<U, E>
      requires Failure?
    {
      Failure(error)
    }

    function Extract(): T
      requires Success?
    {
      value
    }
  }

  /** The Python exceptions that the modelled code raises or lets escape. */
  datatype PyError =
    | ValueError(message: string)
    | IndexError
    | KeyError(key: string)
    | ZeroDivisionError
    | TypeError(message: string)
}
